=== FILE: README.md ===
# Andrian Universe portfolio site — a Dafny model of its decision logic

The site is a single-page React portfolio. Its content and settings come from a small CMS API,
and compiled-in defaults take over when that API is unreachable. The page shows a hero with a
looping typing animation, an about block, an experience list, a "Games & Utilities" strip, a
portfolio grid and a contact form. The strip hosts chess, sudoku, a pomodoro timer and a pixel
sketch pad.

This project models the logic behind those pieces as pure functions over immutable datatypes,
and proves what each one promises. Pieces that react to events become small-step state
machines: an `Apply` function, a `Run` over a sequence of events, and lemmas about traces.

| module | file | what it models |
|---|---|---|
| `Base` | base.dfy | `Option` (null / undefined), `Result`, and order-keeping `Filter` with its `Subsequence` relation |
| `Text` | text.dfy | the ECMAScript string operations the code relies on: `trim`, `indexOf`, `split`, `toUpperCase`, `parseInt(_, 10)`, decimal printing, and `||` on strings |
| `Cms` | cms.dfy | content and settings schema, defaults, `request`, `loadContent`, `loadSettings`, the live-update subscription registry |
| `ToastDedup` | toast_dedup.dfy | the "toast once per distinct error message" memory both content hooks keep |
| `CmsDataHook`, `CmsContentHook`, `CmsSettingsHook` | use_cms_data.dfy, use_cms_content.dfy, use_cms_settings.dfy | the three data hooks as state machines with a `mounted` flag |
| `Chess` | chess.dfy | board set-up, the pseudo-legal move generator, the click/move/turn/winner machine |
| `Sudoku`, `Pomodoro`, `Sketch` | sudoku.dfy, pomodoro.dfy, sketch.dfy | the other playgrounds' state rules |
| `Playground` | playground.dfy | playground ids, tile category and summary derivation, tile building |
| `Portfolio` | portfolio.dfy | URL normalisation, the technology list, the link found in a description, project cards |
| `Contact` | contact.dfy | the endpoint derivation and the submit/settle machine of the contact form |
| `Typing` | typing.dfy | the typing animation's keep lengths, step functions, target choice and prefix invariant |
| `ThemeHook` | theme.dfy | theme preference, set/toggle and the persistence effect |
| `Header` | header.dfy | navigation filtering, theme restore, the sun-and-moon drag, the Dashboard button |
| `ProgressiveImage` | image.dfy | the fallback-then-primary image loader with cancellable preloads |
| `App` | app.dfy | rendered sections, the hero's delete target, call to action, CV link and portrait, the service-down redirect |

Inputs the code reads from outside are parameters of the model. These are the `fetch`
outcome, the environment variables, `window` and `document` presence, local storage,
`matchMedia`, bounding rectangles and the `Math.random` draws. `resolveMediaUrl` and `loadAll`
are used by the code but defined outside the modelled files. The first is a function-typed
parameter (`Cms.MediaResolver`). The second is represented only by its result, which is the
`Loaded` event of `CmsDataHook`.

Faithful edge cases the proofs make explicit:
- An empty `url` on a portfolio card hides a link in its description (`??` rather than `||`).
  See `Portfolio.EmptyUrlHidesDescriptionLink`.
- The contact endpoint is absent only when the chosen base is "" or "/". See `Contact.Endpoint`.
- A resolved CV URL of "" is used as the download link, while the page reports the cached
  copy. See `App.EmptyCvUrlLinksNowhere`.
- The header restores the theme from the key "theme". The theme hook persists under
  "preferred-theme". A drag writes both. See `Header.DragThenRestore` and
  `Header.DragAlsoSetsPreference`.
- A stored moon position that does not parse stops the header's mount effect before the
  theme is restored. See `Header.Restore`.

## Model

| member | source | states |
|---|---|---|
| Cms.NotificationDuration | src/lib/cms.ts:172 | the duration is the base-10 parse of the configured value (or of "1500" when unset), replaced by 1500 when the parse is NaN or zero; it is never 0 |
| Text.ParseDecimal | src/lib/cms.ts:172 | a blank string is NaN and a string starting with a digit parses to a non-negative number; Text.ParseNatToString is its round trip |
| Text.ParseNatToString | src/lib/cms.ts:172 | printing a non-negative number in decimal and parsing it back gives the number |
| Text.ParseNegatedNatToString | src/lib/cms.ts:172 | a minus sign before a printed number parses to its negation, so a negative duration is kept |
| Cms.NotificationDurationOfConfigured | src/lib/cms.ts:172 | any positive configured duration, written in decimal, survives the parse unchanged |
| Cms.DefaultSettings | src/lib/cms.ts:168-173 | each URL (API, dashboard, login) is the environment's value whenever it is defined (even empty), else its localhost fallback; the duration is the configured notification duration, never 0 |
| Cms.Request | src/lib/cms.ts:178-185 | a non-2xx status fails with "Request failed with status N"; a 2xx response yields the body's `data` when present, else the whole body; a rejected fetch fails with what was thrown |
| Cms.Unwrap | src/lib/cms.ts:184 | a body with `data` yields that field, otherwise the whole body |
| Cms.StatusMessageCarriesStatus | src/lib/cms.ts:180-182 | the failure message starts with "Request failed with status " and the rest parses back to the status |
| Cms.StatusMessageInjective | src/lib/cms.ts:180-182 | different statuses never produce the same failure message |
| Cms.LoadContent | src/lib/cms.ts:197-210 | the error is absent exactly on a 2xx response, which gives the unwrapped content; any failure gives the default content and an error carrying the status message, the thrown message, or "Failed to load site content" |
| Cms.LoadSettings | src/lib/cms.ts:212-223 | as for content, with the default settings and "Failed to load settings" |
| Cms.FailedContentLoadNamesStatus | src/lib/cms.ts:178-210 | a failed content load falls back to the defaults and its message decodes back to the failing status |
| Cms.Subscribe | src/lib/cms.ts:225-238 | without a window nothing is registered and the disposer does nothing; otherwise exactly one new listener for the topic is appended and the disposer removes that listener |
| Cms.Dispose | src/lib/cms.ts:235-237 | after the disposer runs, the listeners are the previous ones minus the disposed one |
| Cms.Delivered | src/lib/cms.ts:228-231 | an event without a detail reaches no callback; one with a detail reaches exactly the listeners of its topic |
| Cms.SubscriberReceives | src/lib/cms.ts:228-233 | a fresh subscription receives every later event of its topic that carries a detail |
| Cms.NoWindowNoDelivery | src/lib/cms.ts:225-227 | without a window a subscription is never called back |
| Cms.DisposedNotReached | src/lib/cms.ts:228-237 | once disposed, a listener is reached by no later dispatch |
| Cms.DisposeIdempotent | src/lib/cms.ts:235-237 | running a disposer twice equals running it once |
| Cms.SubscribeDisposeRoundTrip | src/lib/cms.ts:233-237 | subscribing and then disposing restores the listener list |
| ToastDedup.MessageOf | src/hooks/use-cms-data.ts:38 | the remembered message is never empty: an empty error message becomes "Failed to load site content" |
| ToastDedup.Remember | src/hooks/use-cms-data.ts:37-49 | an error-free load forgets the memory and raises no toast; a failure remembers its message and toasts exactly when that message differs from the remembered one |
| CmsDataHook.OnLoaded | src/hooks/use-cms-data.ts:34-58 | while mounted a resolved load installs both results, ends loading, copies the settings error, and toasts only for a new error message; unmounted it changes nothing |
| CmsDataHook.OnContentPushed | src/hooks/use-cms-data.ts:60-64 | a push replaces only the content, marks it ready and clears the error memory; settings and the settings error are unchanged |
| CmsDataHook.OnSettingsPushed | src/hooks/use-cms-data.ts:66-69 | a push replaces the settings, marks them ready and clears the settings error; content is unchanged |
| CmsDataHook.Apply | src/hooks/use-cms-data.ts:31-76 | only load results raise toasts, the hook is unmounted exactly after an unmount event, and once loading is over no event starts it again |
| CmsDataHook.IsLoading | src/hooks/use-cms-data.ts:81 | the page counts as loading until both content and settings have arrived |
| CmsDataHook.Init | src/hooks/use-cms-data.ts:22-29 | the hook starts mounted and loading with the default content and settings, neither part ready, and no error remembered |
| CmsDataHook.Run | src/hooks/use-cms-data.ts:31-76 | over any event sequence there are at most as many toasts as events, the hook stays mounted exactly when no unmount occurs, and loading never resumes once over |
| CmsDataHook.UnmountedIsFrozen | src/hooks/use-cms-data.ts:32-75 | after unmount no event sequence changes the state or raises a toast |
| CmsDataHook.RepeatedFailureToastsOnce | src/hooks/use-cms-data.ts:37-46 | any number of loads failing with one message raise at most one toast, none if that message is already remembered |
| CmsDataHook.DifferentFailuresToastTwice | src/hooks/use-cms-data.ts:37-46 | two loads failing with different messages raise two toasts |
| CmsDataHook.LoadedEndsLoading | src/hooks/use-cms-data.ts:51-81 | after the first load resolves the page is no longer loading and exposes the settings error |
| CmsContentHook.OnLoaded | src/hooks/use-cms-content.ts:16-35 | a settled load installs the returned content even with an error, ends loading and toasts once per distinct message, only while mounted |
| CmsContentHook.OnPushed | src/hooks/use-cms-content.ts:37-42 | a push replaces the content, ends loading and clears the error memory |
| CmsContentHook.UnmountedIsFrozen | src/hooks/use-cms-content.ts:16-47 | after unmount no load or push changes anything |
| CmsContentHook.RepeatedFailureToastsOnce | src/hooks/use-cms-content.ts:19-28 | loads failing with one message toast at most once |
| CmsContentHook.PushReenablesToast | src/hooks/use-cms-content.ts:19-42 | a push between two identical failures makes the second toast again |
| CmsContentHook.Apply | src/hooks/use-cms-content.ts:16-47 | the hook is unmounted exactly after an unmount event; while mounted any load or push ends loading, and loading never resumes |
| CmsContentHook.Init | src/hooks/use-cms-content.ts:6-8 | the hook starts mounted and loading with the default content and no error remembered |
| CmsContentHook.Run | src/hooks/use-cms-content.ts:16-47 | over any event sequence there are at most as many toasts as events, the hook stays mounted exactly when no unmount occurs, and loading never resumes once over |
| CmsSettingsHook.OnResolved | src/hooks/use-cms-settings.ts:16-30 | a resolved load installs the settings and its error, and the last message is present exactly when there is an error |
| CmsSettingsHook.OnRejected | src/hooks/use-cms-settings.ts:22-27 | an unexpected rejection keeps the settings and records an error, "Failed to load settings" for a non-Error value |
| CmsSettingsHook.OnPushed | src/hooks/use-cms-settings.ts:32-37 | a push replaces the settings and clears the error and its message |
| CmsSettingsHook.UnmountedIsFrozen | src/hooks/use-cms-settings.ts:16-42 | after unmount nothing changes |
| CmsSettingsHook.FailedLoadExposesError | src/hooks/use-cms-settings.ts:16-21 | a failed settings fetch leaves the default settings in place with an error, and loading ends |
| CmsSettingsHook.Init | src/hooks/use-cms-settings.ts:5-8 | the hook starts mounted and loading with the default settings, no error, and the remembered message in step with the error |
| CmsSettingsHook.Apply | src/hooks/use-cms-settings.ts:16-42 | the hook is unmounted exactly after an unmount event; a settled load ends loading, loading never resumes, and the remembered message stays in step with the error |
| CmsSettingsHook.Run | src/hooks/use-cms-settings.ts:16-42 | over any event sequence the hook stays mounted exactly when no unmount occurs, loading never resumes once over, and the remembered message stays in step with the error |
| Chess.CreateInitialBoard | src/components/games-section.tsx:336-348 | an 8x8 board with black's back rank and pawns on rows 0-1, white's on rows 7-6, and rows 2-5 empty |
| Chess.BoundsMatchBoard | src/components/games-section.tsx:373-375 | the bounds test accepts exactly the row and column indices of the initial board |
| Chess.IsInBounds | src/components/games-section.tsx:373-375 | row and column both in 0..7; see Chess.BoundsMatchBoard |
| Chess.Ray | src/components/games-section.tsx:377-399 | a ray visits consecutive squares in its direction, each on the board and empty or enemy, and all but the last empty |
| Chess.RayStops | src/components/games-section.tsx:384-396 | a ray ends on the first occupied square, included only when it holds an enemy, or at the board's edge or an own piece |
| Chess.RayContains | src/components/games-section.tsx:382-396 | a square is on a ray exactly when it is some steps along the direction, landable, with every earlier square of the ray empty |
| Chess.RayFromPiece | src/components/games-section.tsx:380-398 | the ray starting next to the piece holds exactly the squares the piece slides to over empty squares |
| Chess.LineMoves | src/components/games-section.tsx:377-400 | a square is a sliding move exactly when it lies on the ray of one of the given directions, so every move lands on the board on an empty or enemy square and no ray square is missed |
| Chess.LineMovesOnRays | src/components/games-section.tsx:380-398 | every sliding move lies on the ray of one of the given directions |
| Chess.StepMoves | src/components/games-section.tsx:443-478 | a square is a king or knight move exactly when it is the origin plus one of the deltas and is on the board and empty or enemy |
| Chess.PawnMoves | src/components/games-section.tsx:411-429 | pawn moves are exactly the empty square ahead, the double step from the start row over two empty squares, and diagonal captures of enemy pieces |
| Chess.GetLegalMoves | src/components/games-section.tsx:402-481 | an empty origin has no moves; every move is on the board, differs from the origin and never lands on an own piece |
| Chess.SliderMoves | src/components/games-section.tsx:431-440 | a rook, bishop or queen may move exactly to a landable square along one of its directions with every square passed empty |
| Chess.KingMoves | src/components/games-section.tsx:442-456 | a king moves exactly to the adjacent squares that are empty or enemy |
| Chess.KnightMoves | src/components/games-section.tsx:458-477 | a knight moves exactly to the L-jumps that are empty or enemy |
| Chess.PawnDoubleStep | src/components/games-section.tsx:411-420 | a two-square advance appears exactly from the start row with both squares ahead empty |
| Chess.PawnForwardOntoEmpty | src/components/games-section.tsx:412-419 | a straight pawn move never lands on an occupied square |
| Chess.SliderPathIsClear | src/components/games-section.tsx:377-400 | a rook, bishop or queen move goes along one direction with every square passed empty |
| Chess.OpeningPawnMoves | src/components/games-section.tsx:411-420 | in the opening a white pawn may advance one or two squares, in that order |
| Chess.OpeningBackRankBlocked | src/components/games-section.tsx:431-456 | in the opening white's rooks, bishops, queen and king cannot move |
| Chess.HemmedInCannotMove | src/components/games-section.tsx:431-456 | a rook, bishop, queen or king whose every neighbour is off-board or own has no moves |
| Chess.InitialGame | src/components/games-section.tsx:484-489 | the game starts consistent, white to move, with no winner |
| Chess.OnSquareClick | src/components/games-section.tsx:491-523 | a decided game ignores clicks; a click that is not a legal move of the selection leaves the board, turn, last move and winner alone, selects a piece of the side to move with exactly its legal moves, and clears the selection on any other square |
| Chess.MoveEffect | src/components/games-section.tsx:497-512 | a legal move empties the origin, puts the mover on the target, leaves every other square, flips the turn, clears the selection and sets the winner exactly when a king was captured |
| Chess.ClickPreservesConsistency | src/components/games-section.tsx:491-523 | a selection is always an own piece of the side to move with its legal moves, and no selection has no moves |
| Chess.WonGameIsFrozen | src/components/games-section.tsx:492 | once a winner exists no sequence of clicks changes the game |
| Chess.Play | src/components/games-section.tsx:491-523 | consistency holds after any sequence of clicks |
| Sudoku.Initial | src/components/games-section.tsx:677-704 | the starting board keeps every given of the puzzle, holds only 0..9 and is idle |
| Sudoku.CellValue | src/components/games-section.tsx:708-711 | a non-numeric entry stores 0, any other the parsed value clamped to 0..9 |
| Sudoku.DigitIsStored | src/components/games-section.tsx:708-711 | typing a digit stores that digit |
| Sudoku.UpdateCell | src/components/games-section.tsx:706-715 | preset cells never change; otherwise only the edited cell changes and the status returns to idle |
| Sudoku.Check | src/components/games-section.tsx:722-727 | the status becomes correct exactly when every cell equals the solution, else incorrect |
| Sudoku.UpdatePreservesValid | src/components/games-section.tsx:704-727 | edits and checks keep the presets and every cell in 0..9 |
| Sudoku.SolutionKeepsPresets | src/components/games-section.tsx:677-700 | the solution agrees with every given of the puzzle |
| Pomodoro.Initial | src/components/games-section.tsx:780-782 | the timer starts, and resets to, a paused focus period with the full 1500 seconds |
| Pomodoro.Toggle | src/components/games-section.tsx:804 | start/pause flips only whether the timer runs |
| Pomodoro.Tick | src/components/games-section.tsx:786-795 | a paused timer is unchanged; above one second it counts down; otherwise it switches mode and starts that mode's full 1500 or 300 seconds; the bounds invariant is kept |
| Pomodoro.SwitchMode | src/components/games-section.tsx:800-802 | the mode button changes mode and restarts at the full period |
| Pomodoro.CountDown | src/components/games-section.tsx:786-795 | fewer ticks than the seconds left only count down |
| Pomodoro.PeriodEnds | src/components/games-section.tsx:786-795 | as many ticks as seconds left start the other mode in full |
| Pomodoro.FullCycle | src/components/games-section.tsx:786-795 | a running focus period returns to a fresh focus period after 1800 ticks |
| Sketch.Blank | src/components/games-section.tsx:863-880 | a cleared canvas is 24x24 with no painted cell |
| Sketch.Paint | src/components/games-section.tsx:869-876 | painting sets the cell and leaves every other cell; an already painted cell leaves the canvas as it was |
| Sketch.PaintCommutes | src/components/games-section.tsx:869-876 | the order of two paint strokes does not matter |
| Sketch.PaintIdempotent | src/components/games-section.tsx:869-876 | painting a cell twice equals painting it once |
| Sketch.PaintOnBlank | src/components/games-section.tsx:866-876 | one stroke on a blank canvas paints exactly that cell |
| Playground.ParsePlaygroundId | src/components/games-section.tsx:54-55 | an id is recognised only if it names one of the five playgrounds, and every such name is recognised |
| Playground.ParseIdName | src/components/games-section.tsx:24-55 | each playground's own name parses back to it |
| Playground.DeriveCategory | src/components/games-section.tsx:57-63 | the category differs from the fallback only when the trimmed, upper-cased tag is GAME or UTILITY, and those give Game and Utility |
| Playground.CategoryIgnoresCaseAndPadding | src/components/games-section.tsx:58-60 | any word that upper-cases to "GAME", padded with white space on either side, means Game |
| Playground.Truncate | src/components/games-section.tsx:70 | a long summary keeps a prefix of at most 77 characters, drops exactly the trailing white space of that cut (the kept part ends in a non-space), and ends with "…" |
| Playground.DeriveSummary | src/components/games-section.tsx:65-71 | a non-empty fallback wins; a blank description gives nothing; at most 80 characters are returned trimmed; longer ones are truncated; the result is at most 80 characters |
| Playground.ShortDescriptionIsItsSummary | src/components/games-section.tsx:67-69 | a short description with no padding is its own summary |
| Playground.TileCategory | src/components/games-section.tsx:57-63 | a tag spelling GAME or UTILITY (any case, any padding) decides the category; otherwise a built-in widget takes its default and any other card is a Utility |
| Playground.TileSummary | src/components/games-section.tsx:76-88 | a playground's tile shows its fixed summary; other tools summarise their description |
| Playground.Preview | src/components/games-section.tsx:78-81 | the preview is the resolved media, offered the card's image URL or else the widget's preview or the placeholder as fallback; when nothing resolves, the widget's preview or the placeholder |
| Playground.BuildItem | src/components/games-section.tsx:73-93 | a tile keeps title, description and tag, takes the card id or "tool-<position>", is interactive exactly for a playground id, takes its category from the tag and the widget's default, and uses that widget's summary and preview |
| Playground.BuildPlaygroundItems | src/components/games-section.tsx:73-74 | one tile per card, in order, each built from its card and position |
| Playground.PositionalIdsDistinct | src/components/games-section.tsx:84 | positional ids of different cards differ |
| Portfolio.NormalizeUrl | src/components/portfolio-section.tsx:27-33 | absent or blank input gives nothing; a trimmed value naming http(s) in any case is kept, otherwise "https://" is prepended; the result always names http(s) |
| Portfolio.NormalizeUrlIdempotent | src/components/portfolio-section.tsx:27-33 | normalising a normalised URL changes nothing |
| Portfolio.Cleaned | src/components/portfolio-section.tsx:40-41 | trimming and dropping empty parts leaves only non-empty names with no padding |
| Portfolio.CleanedSnoc | src/components/portfolio-section.tsx:40-41 | cleaning one more part appends its trimmed form exactly when that is non-empty, so the result is the trimmed non-empty parts in order |
| Portfolio.CleanedKeepsClean | src/components/portfolio-section.tsx:40-41 | already clean names are left as they are |
| Portfolio.Technologies | src/components/portfolio-section.tsx:37-42 | no tag gives no technologies; otherwise every entry is non-empty and trimmed |
| Portfolio.TechnologiesOfParts | src/components/portfolio-section.tsx:37-42 | reading a tag made by joining comma-free parts with commas gives exactly those parts trimmed, empty ones dropped, in order |
| Portfolio.TechnologiesRoundTrip | src/components/portfolio-section.tsx:37-42 | joining clean names with commas and reading the tag back gives the same names |
| Portfolio.FirstLink | src/components/portfolio-section.tsx:44 | the match starts at the leftmost position where a scheme is followed by a non-space character |
| Portfolio.LinkLength | src/components/portfolio-section.tsx:44 | the match is longer than its scheme, contains no white space, and stops at white space or the end |
| Portfolio.FindLink | src/components/portfolio-section.tsx:44 | nothing is found exactly when no scheme starts anywhere; otherwise the match is the text from the leftmost scheme for the link's length |
| Portfolio.FindsLoneLink | src/components/portfolio-section.tsx:44 | a link standing alone is found whole |
| Portfolio.Href | src/components/portfolio-section.tsx:44-45 | a card's own URL, even an empty one, wins over a link in its description |
| Portfolio.EmptyUrlHidesDescriptionLink | src/components/portfolio-section.tsx:45 | an empty card URL yields no link at all |
| Portfolio.BuildProject | src/components/portfolio-section.tsx:47-56 | a project keeps title, description and tag, takes the card id or "project-<position>", and any link names http(s) |
| Portfolio.BuildProjects | src/components/portfolio-section.tsx:35-36 | one project per card, in order, each built from its card and position |
| Contact.StripTrailingSlash | src/components/contact-form.tsx:24 | exactly one trailing slash is removed, if there is one |
| Contact.Endpoint | src/components/contact-form.tsx:23-27 | there is no endpoint exactly when the chosen base is "" or "/"; otherwise it is the base without its trailing slash plus "/contact/messages" |
| Contact.EndpointOfFallback | src/components/contact-form.tsx:23-27 | with nothing configured messages go to the localhost API |
| Contact.EndpointIgnoresTrailingSlash | src/components/contact-form.tsx:24 | a base with or without a trailing slash gives the same endpoint |
| Contact.Subject | src/components/contact-form.tsx:46 | the subject is "Website contact from " followed by the name, or by "Someone" for an empty name |
| Contact.Submit | src/components/contact-form.tsx:29-49 | without an endpoint nothing is sent and a destructive toast appears; otherwise the form becomes submitting and idle and the message is posted |
| Contact.FailureDescription | src/components/contact-form.tsx:51-66 | a failure shows the response text, else the status message, else the error's message, else "Please try again later." |
| Contact.Settle | src/components/contact-form.tsx:51-71 | submitting always ends; success exactly on a 2xx answer, clearing all three fields; failure keeps them and shows a destructive toast |
| Contact.EmptyFailureNamesStatus | src/components/contact-form.tsx:51-54 | an error answer with an empty body names its status |
| Contact.RetryPostsSameMessage | src/components/contact-form.tsx:56-71 | after a failure the kept fields are posted again unchanged |
| Typing.PrimarySpeed | src/components/ui/typing-text.tsx:69 | the typing step is never below 16 and never below the requested speed |
| Typing.ComputeKeeps | src/components/ui/typing-text.tsx:71-75 | all keep lengths lie within the text; a given delete-to length is clamped to 0 below and the text length above; otherwise they sit just after the last or first space, on the last space, or fall back to 0, the whole text, or all but three characters |
| Typing.TypeForward | src/components/ui/typing-text.tsx:88-96 | each step shows a prefix of the target one character longer, ending on the target |
| Typing.DeleteBackward | src/components/ui/typing-text.tsx:98-107 | nothing happens when the target is not shorter; otherwise each step shows a prefix one character shorter, ending at the target length |
| Typing.TypeForwardEndsOnTarget | src/components/ui/typing-text.tsx:88-96 | typing from any prefix ends showing the whole text |
| Typing.LoopTarget | src/components/ui/typing-text.tsx:130 | the loop's delete target is below the current length whenever something is shown |
| Typing.Distinct | src/components/ui/typing-text.tsx:118 | exactly the candidates below the length, each once, in ascending order |
| Typing.Insert | src/components/ui/typing-text.tsx:118 | adding a value to an ascending list keeps it ascending and adds exactly that value |
| Typing.AscendingUnique | src/components/ui/typing-text.tsx:118 | two ascending lists with the same elements are the same list, so the de-duplicated sorted candidates are determined by their set |
| Typing.CandidateOrderIrrelevant | src/components/ui/typing-text.tsx:118 | candidate lists with the same elements give the same sorted distinct list |
| Typing.PickTargetLength | src/components/ui/typing-text.tsx:115-122 | for a non-empty text the target is in [0, length) and is one of the five candidates |
| Typing.EveryCandidateReachable | src/components/ui/typing-text.tsx:117-121 | every fixed candidate shorter than the text can be chosen |
| Typing.Vary | src/components/ui/typing-text.tsx:124-127 | a varied delay is never below its minimum |
| Typing.VaryWithinSpread | src/components/ui/typing-text.tsx:124-127 | a varied delay stays within the spread around its base, bounded below by the minimum |
| Typing.StartAnimation | src/components/ui/typing-text.tsx:39-50 | without a window, with reduced motion or with empty text the whole text is shown at once |
| Typing.AnimationShowsPrefixes | src/components/ui/typing-text.tsx:77-148 | every text the animation ever shows, from the initial full text and the cleared text onwards, is a prefix of the target |
| Typing.Animation | src/components/ui/typing-text.tsx:77-148 | the animation first shows the whole text, then the cleared text, and has retyped the whole text after as many frames as it has characters |
| Typing.RoundDeletesAndRestores | src/components/ui/typing-text.tsx:129-147 | one loop round deletes to a shorter prefix and retypes the whole text |
| ThemeHook.ParseTheme | src/hooks/use-theme.ts:13 | exactly "dark" and "light" name a theme |
| ThemeHook.Init | src/hooks/use-theme.ts:29-38 | the first theme is the preferred one and the page's dark class follows it |
| ThemeHook.GetPreferredTheme | src/hooks/use-theme.ts:7-19 | light without a window; a stored theme wins; otherwise dark exactly when the system prefers dark |
| ThemeHook.ApplyTheme | src/hooks/use-theme.ts:21-38 | with a document the dark class is on exactly for the dark theme; with a window the theme is stored under "preferred-theme" and nothing else in storage changes |
| ThemeHook.SetTheme | src/hooks/use-theme.ts:40-42 | the theme becomes exactly the given one and is applied |
| ThemeHook.ToggleTheme | src/hooks/use-theme.ts:44-46 | toggling always changes the theme |
| ThemeHook.ToggleTwice | src/hooks/use-theme.ts:44-46 | toggling twice restores the theme and the stored preference |
| ThemeHook.ChosenThemePersists | src/hooks/use-theme.ts:7-38 | the theme chosen is the one the next visit starts with |
| Header.EnabledLinks | src/components/site-header.tsx:38-53 | a link is kept exactly when its section is enabled, and the order is kept |
| Base.Filter | src/components/site-header.tsx:38-53 | the filtered list holds exactly the passing elements, keeps their order, and is the whole list when everything passes |
| Header.NavItemsToRender | src/components/site-header.tsx:35-53 | while loading all five links show in order; afterwards exactly the enabled sections' links, as an order-preserving subsequence |
| Header.AllEnabledShowsEveryLink | src/components/site-header.tsx:38-53 | with every section on the loaded header shows all links |
| Header.Restore | src/components/site-header.tsx:69-90 | a non-empty stored moon position that fails to parse aborts the effect and nothing is restored; otherwise a saved "dark" or "light" under "theme" is restored, anything else gives dark, and the dark flag matches the theme |
| Header.OverlapSymmetric | src/components/site-header.tsx:99-103 | the overlap test does not depend on which rectangle is the moon |
| Header.TouchingIsNotOverlap | src/components/site-header.tsx:99-103 | rectangles that only touch do not overlap |
| Header.HandleDrag | src/components/site-header.tsx:94-114 | without both elements nothing happens; otherwise dark exactly when moon and sun strictly overlap, and the choice is stored under "theme" |
| Header.DragThenRestore | src/components/site-header.tsx:69-113 | the theme a drag stores is the theme restored next time, unless the stored moon position fails to parse |
| Header.DragAlsoSetsPreference | src/components/site-header.tsx:105-113 | the dragged theme also becomes the theme hook's stored preference |
| Header.DashboardClick | src/components/site-header.tsx:176-182 | the dashboard opens, at the configured URL, exactly when the button shows, settings have loaded, the URL is non-empty and a window exists |
| Header.DashboardShown | src/components/site-header.tsx:176 | the button shows only once loading is over and the contact section is enabled |
| Header.LoadingHeader | src/components/site-header.tsx:35-37 | while loading every link shows and the Dashboard cannot be opened |
| ProgressiveImage.RunEffect | src/components/ui/progressive-image.tsx:21-49 | each effect run shows the fallback, unloaded, and starts a preload exactly for a non-empty primary that differs from the fallback |
| ProgressiveImage.Mount | src/components/ui/progressive-image.tsx:18-49 | the image starts on the fallback, unloaded |
| ProgressiveImage.Apply | src/components/ui/progressive-image.tsx:21-63 | unchanged props change nothing; new props show the new fallback unloaded and start a fresh preload exactly for a worthwhile primary; the live preload's success shows the primary and its error the fallback; stale preloads do nothing; the image's own load marks it loaded and its error falls back and marks it loaded |
| ProgressiveImage.StalePreloadIsIgnored | src/components/ui/progressive-image.tsx:29-48 | a preload from any run but the live one changes nothing |
| ProgressiveImage.NewPropsCancelPreload | src/components/ui/progressive-image.tsx:46-49 | new props cancel the running preload |
| ProgressiveImage.LivePreloadShowsPrimary | src/components/ui/progressive-image.tsx:32-36 | a worthwhile primary appears once its preload finishes |
| ProgressiveImage.UnmountedIgnoresPreloads | src/components/ui/progressive-image.tsx:46-48 | after cleanup no preload completion changes the image |
| ProgressiveImage.NoPrimaryShowsFallback | src/components/ui/progressive-image.tsx:25-61 | without a worthwhile primary only the fallback is ever shown |
| App.RenderedSections | src/App.tsx:107-154 | the page renders exactly the enabled sections, in page order |
| App.NavLinksMatchSections | src/components/site-header.tsx:38-53 | once loaded, the header shows a link exactly when the page renders its target section |
| App.DashboardFollowsContactSection | src/components/site-header.tsx:176 | while loading the header button never shows; once loaded it shows exactly when the page renders the contact section |
| App.DeleteTo | src/App.tsx:68-72 | the delete target lies within the title: just after the first space, or the title's length minus three (at least 0) |
| App.HeroKeepsFirstWord | src/App.tsx:68-72 | the typing animation takes the delete target as given, and with a space it equals the first-name keep |
| App.HeroCta | src/App.tsx:77-79 | the call to action uses the configured link and label, or "#contact" and "Contact" for empty ones, and is never empty |
| App.Cv | src/App.tsx:26-28 | the link is the cached copy only when nothing resolves; the live flag holds exactly for a non-empty resolved URL, which is then the link |
| App.EmptyCvUrlLinksNowhere | src/App.tsx:26-28 | an empty resolved CV URL gives an empty link that is reported as the cached copy |
| App.HeroImage | src/App.tsx:29-30 | the portrait starts on the bundled illustration and preloads the uploaded image only when it is worthwhile |
| App.Redirect | src/App.tsx:32-36 | the page goes to "/service-down" with the error's message exactly when loading is over and settings failed |
| App.FailedSettingsRedirect | src/App.tsx:32-36 | a first load whose settings request answered with an error status redirects, naming that status |
| App.PushedSettingsCancelRedirect | src/App.tsx:32-36 | settings pushed later clear the error and with it the redirect |

## Left out

- Network, DOM and storage I/O (`fetch`, `res.json()`, `window` events, `localStorage`, `window.open`, `getBoundingClientRect`, `matchMedia`): each is an input or an outcome datatype. A JSON body of `null` is not represented.
- `resolveMediaUrl` and `loadAll`: defined outside the modelled files. The resolver is an arbitrary function parameter, and `loadAll` is represented only by its result.
- URL sanitisation, settings merging and a production localhost guard: not present in `src/lib/cms.ts`, so the model follows the code and has none.
- `cloneDefaultContent` and `cloneBoard`: deep copies are the same immutable value in the model.
- Timers, `setInterval`, async `wait` and cancellation of the typing loop: events and step sequences stand for time, and a cancelled run is a prefix of the trace.
- `Math.random`: each draw is a natural-number parameter reduced modulo the range.
- Typing.DeleteBackward: takes a natural-number target, as every caller passes one.
- Floating-point display maths: the ×1.4 retype speed (src/components/ui/typing-text.tsx:70), the pomodoro progress ring and the minutes/seconds formatting.
- The moon's saved or random position and its "moon-pos" storage (src/components/site-header.tsx:69-81, 116-119): the coordinates are presentation only; only whether the stored position parses is modelled, as the `positionParses` input of `Header.Restore`, since a failed parse skips the theme restore.
- Calculator evaluation: it delegates to JavaScript `Function()` evaluation.
- Chess rules the code lacks (check, castling, en passant, promotion) are not added. The game ends on king capture.
- String lengths count Unicode scalar values rather than UTF-16 code units, and `toUpperCase` is modelled for ASCII letters only.
- `parseInt` is modelled on unbounded integers, without the loss of precision past 2^53.
- Pomodoro.Tick: reads the mode from the current state. In the source the interval callback reads the mode of the render that created it, and the effect re-creates it on every mode change.
- Contact.Settle: the statuses 'success' and 'error' are named `Sent` and `Failed`.
- React scheduling and StrictMode double invocation: hooks are sequential event handlers.
- The build-time prefetch script, router setup, skeletons, footer, not-found and service-down pages, toaster, scroll reveal, theme provider, and the about and experience markup: presentation or I/O only.

=== FILE: app.dfy ===
/**
 * The page itself: which sections it renders, the hero's typing target, call to action,
 * CV link and portrait, and the redirect to the service-down page when settings fail.
 */
module App {
  import opened Base
  import opened Text
  import opened Cms
  import CmsDataHook
  import Header
  import Typing
  import ProgressiveImage

  // ---------------------------------------------------------------------------
  // Sections
  // ---------------------------------------------------------------------------

  datatype Section = HeroPart | AboutPart | UtilitiesPart | ExperiencePart | PortfolioPart | ContactPart

  /** The sections in the order the page lays them out. */
  const PageOrder: seq<Section> := [HeroPart, AboutPart, UtilitiesPart, ExperiencePart, PortfolioPart, ContactPart]

  predicate SectionEnabled(content: Content, s: Section) {
    match s
    case HeroPart => content.hero.enabled
    case AboutPart => content.about.enabled
    case UtilitiesPart => content.utilities.enabled
    case ExperiencePart => content.experience.enabled
    case PortfolioPart => content.portfolio.enabled
    case ContactPart => content.contact.enabled
  }

  function EnabledSections(sections: seq<Section>, content: Content): (r: seq<Section>)
    ensures forall s :: s in r <==> s in sections && SectionEnabled(content, s)
    ensures Subsequence(r, sections)
  {
    Filter(sections, (s: Section) => SectionEnabled(content, s))
  }

  /** The page renders exactly the enabled sections, in page order, loading or not. */
  function RenderedSections(content: Content): (r: seq<Section>)
    ensures forall s :: s in r <==> SectionEnabled(content, s)
    ensures Subsequence(r, PageOrder)
  {
    var r := EnabledSections(PageOrder, content);
    forall s: Section
      ensures s in r <==> SectionEnabled(content, s)
    {
      InPageOrder(s);
    }
    r
  }

  /**
   * Once loading is over, the header's Dashboard button shows exactly when the page renders
   * the contact section; while loading it never shows.
   */
  lemma DashboardFollowsContactSection(content: Content)
    ensures !Header.DashboardShown(true, content)
    ensures Header.DashboardShown(false, content) <==> ContactPart in RenderedSections(content)
  {
  }

  lemma InPageOrder(s: Section)
    ensures s in PageOrder
  {
    match s
    case HeroPart => assert PageOrder[0] == s;
    case AboutPart => assert PageOrder[1] == s;
    case UtilitiesPart => assert PageOrder[2] == s;
    case ExperiencePart => assert PageOrder[3] == s;
    case PortfolioPart => assert PageOrder[4] == s;
    case ContactPart => assert PageOrder[5] == s;
  }

  /** The section a header link scrolls to; the games link leads to the utilities section. */
  function Target(href: string): Option<Section> {
    if href == "#home" then Some(HeroPart)
    else if href == "#about" then Some(AboutPart)
    else if href == "#games" then Some(UtilitiesPart)
    else if href == "#experience" then Some(ExperiencePart)
    else if href == "#portfolio" then Some(PortfolioPart)
    else None
  }

  /** Once loaded, the header shows a link exactly when the page renders the section it leads to. */
  lemma NavLinksMatchSections(content: Content, item: Header.NavItem)
    requires item in Header.NavItems
    ensures Target(item.href).Some?
    ensures item in Header.NavItemsToRender(false, content) <==> Target(item.href).value in RenderedSections(content)
  {
    LinksHaveTargets(item);
    var shown := Header.NavItemsToRender(false, content);
    assert item in shown <==> Header.LinkEnabled(content, item.href);
    LinkAgreesWithSection(content, item.href);
  }

  lemma LinksHaveTargets(item: Header.NavItem)
    requires item in Header.NavItems
    ensures Target(item.href).Some?
  {
    var i :| 0 <= i < |Header.NavItems| && Header.NavItems[i] == item;
  }

  lemma LinkAgreesWithSection(content: Content, href: string)
    requires Target(href).Some?
    ensures Header.LinkEnabled(content, href) <==> SectionEnabled(content, Target(href).value)
  {
  }

  // ---------------------------------------------------------------------------
  // Hero
  // ---------------------------------------------------------------------------

  /** How far the looping hero title deletes: just past the first space, else all but three characters. */
  function DeleteTo(title: string): (r: nat)
    ensures r <= |title|
    ensures ' ' in title ==> 0 < r && title[r - 1] == ' ' && forall j :: 0 <= j < r - 1 ==> title[j] != ' '
    ensures ' ' !in title ==> r == Typing.Max(|title| - 3, 0)
  {
    var space := IndexOf(title, ' ');
    if space >= 0 then space + 1 else Typing.Max(|title| - 3, 0)
  }

  /** The hero's delete target is taken as given, and with a space in the title it keeps the first word and its space. */
  lemma HeroKeepsFirstWord(title: string)
    ensures Typing.ComputeKeeps(title, Some(DeleteTo(title))).fallback == DeleteTo(title)
    ensures ' ' in title ==> DeleteTo(title) == Typing.ComputeKeeps(title, None).firstName
  {
  }

  datatype Cta = Cta(href: string, caption: string)

  /** The call to action: the configured link and label, or "#contact" and "Contact" in place of empty ones. */
  function HeroCta(hero: Hero): (r: Cta)
    ensures r.href != "" && r.caption != ""
    ensures hero.ctaHref != "" ==> r.href == hero.ctaHref
    ensures hero.ctaHref == "" ==> r.href == "#contact"
    ensures hero.ctaLabel != "" ==> r.caption == hero.ctaLabel
    ensures hero.ctaLabel == "" ==> r.caption == "Contact"
  {
    Cta(Or(hero.ctaHref, "#contact"), Or(hero.ctaLabel, "Contact"))
  }

  const CachedCv: string := "/andrian-cv.pdf"

  /** The CV download link and whether it is the live upload rather than the cached copy. */
  datatype CvLink = CvLink(url: string, dynamic: bool)

  /**
   * The CV link. The URL falls back only when nothing resolves (`??`), while the live flag
   * needs a non-empty URL (`Boolean`), so an empty resolved URL is used as the link yet
   * reported as the cached copy.
   */
  function Cv(about: About, resolve: MediaResolver): (r: CvLink)
    ensures r.dynamic <==> resolve(about.cvDocument, None).Some? && resolve(about.cvDocument, None).value != ""
    ensures r.dynamic ==> r.url == resolve(about.cvDocument, None).value
    ensures resolve(about.cvDocument, None).None? ==> r.url == CachedCv
    ensures !r.dynamic ==> r.url == CachedCv || r.url == ""
  {
    var resolved := resolve(about.cvDocument, None);
    CvLink(resolved.OrElse(CachedCv), resolved.Some? && resolved.value != "")
  }

  /** An empty resolved CV URL gives an empty link while the page announces the cached file. */
  lemma EmptyCvUrlLinksNowhere(about: About, resolve: MediaResolver)
    requires resolve(about.cvDocument, None) == Some("")
    ensures Cv(about, resolve) == CvLink("", false)
  {
  }

  const HeroFallbackImage: string := "/andrian-man.png"

  /** The hero portrait first shows the bundled illustration and preloads the uploaded image, if any. */
  function HeroImage(hero: Hero, resolve: MediaResolver): (m: ProgressiveImage.Image)
    ensures ProgressiveImage.Valid(m) && m.source == HeroFallbackImage && !m.isLoaded
    ensures m.live.Some? <==> ProgressiveImage.WorthPreloading(resolve(hero.image, None), HeroFallbackImage)
  {
    ProgressiveImage.Mount(resolve(hero.image, None), HeroFallbackImage)
  }

  // ---------------------------------------------------------------------------
  // Service-down redirect
  // ---------------------------------------------------------------------------

  const ServiceDownPath: string := "/service-down"

  datatype Navigation = Navigation(path: string, reason: string)

  /** The page leaves for the service-down page, with the error's message, once loading is over and settings failed. */
  function Redirect(isLoading: bool, settingsError: Option<Error>): (r: Option<Navigation>)
    ensures r.Some? <==> !isLoading && settingsError.Some?
    ensures r.Some? ==> r.value == Navigation(ServiceDownPath, settingsError.value.message)
  {
    if !isLoading && settingsError.Some? then Some(Navigation(ServiceDownPath, settingsError.value.message)) else None
  }

  /** A first load whose settings request answered with an error status leaves for the service-down page, naming the status. */
  lemma FailedSettingsRedirect(env: Env, content: LoadContentResult, status: nat, body: Body<Settings>)
    requires !IsOk(status)
    ensures var s := CmsDataHook.OnLoaded(CmsDataHook.Init(env), CmsDataHook.LoadAllResult(content, LoadSettings(env, Responded(status, body)))).state;
            Redirect(CmsDataHook.IsLoading(s), s.settingsError) == Some(Navigation(ServiceDownPath, StatusMessage(status)))
  {
  }

  /** Settings pushed later clear the error, and with it the redirect. */
  lemma PushedSettingsCancelRedirect(s: CmsDataHook.State, v: Settings)
    requires s.mounted
    ensures var t := CmsDataHook.OnSettingsPushed(s, v);
            Redirect(CmsDataHook.IsLoading(t), t.settingsError).None?
  {
  }
}

=== FILE: base.dfy ===
/** Optional values, outcomes and order-keeping filtering shared by every module of the model. */
module Base {

  /** A value that may be absent: JavaScript's `undefined`/`null` next to a present value. */
  datatype Option<+T> = None | Some(value: T) {

    /** The `??` operator: the value when present, otherwise the default. */
    function OrElse(default: T): T {
      match this
      case Some(v) => v
      case None => default
    }
  }

  /** A computation that either produced a value or failed with an error. */
  datatype Result<+R, +E> = Success(value: R) | Failure(error: E)

  /** `a` is `b` with some elements removed, the rest in their order. */
  predicate Subsequence<T(==)>(a: seq<T>, b: seq<T>)
    decreases |b|
  {
    if |a| == 0 then true
    else if |b| == 0 then false
    else if a[0] == b[0] then Subsequence(a[1..], b[1..])
    else Subsequence(a, b[1..])
  }

  /**
   * `Array.prototype.filter`: exactly the elements that pass, in their order; when every
   * element passes, the whole sequence.
   */
  function Filter<T(==,!new)>(xs: seq<T>, keep: T -> bool): (r: seq<T>)
    ensures forall x :: x in r <==> x in xs && keep(x)
    ensures Subsequence(r, xs)
    ensures (forall i :: 0 <= i < |xs| ==> keep(xs[i])) ==> r == xs
    decreases |xs|
  {
    if |xs| == 0 then []
    else
      var rest := Filter(xs[1..], keep);
      assert forall x :: x in xs <==> x == xs[0] || x in xs[1..];
      assert forall i :: 1 <= i < |xs| ==> xs[1..][i - 1] == xs[i];
      if keep(xs[0]) then
        assert ([xs[0]] + rest)[1..] == rest;
        assert rest == xs[1..] ==> [xs[0]] + rest == xs;
        [xs[0]] + rest
      else
        SkipFirstKeepsSubsequence(rest, xs);
        rest
  }

  lemma SkipFirstKeepsSubsequence<T>(a: seq<T>, b: seq<T>)
    requires |b| > 0 && Subsequence(a, b[1..]) && b[0] !in a
    ensures Subsequence(a, b)
  {
    if |a| > 0 {
      assert a[0] != b[0];
    }
  }

  lemma {:induction false} SubsequenceOfItself<T>(s: seq<T>)
    ensures Subsequence(s, s)
    decreases |s|
  {
    if |s| > 0 {
      SubsequenceOfItself(s[1..]);
    }
  }
}

=== FILE: chess.dfy ===
/**
 * The chess playground: an 8x8 board, a pseudo-legal move generator (no check detection,
 * castling, en passant or promotion), and the click state machine that selects pieces,
 * moves them, alternates turns and ends the game when a king is captured.
 */
module Chess {
  import opened Base

  datatype Kind = Pawn | Rook | Knight | Bishop | Queen | King

  datatype Color = White | Black

  datatype Piece = Piece(kind: Kind, color: Color)

  type Square = Option<Piece>

  /** Rows top to bottom (row 0 is Black's back rank), columns left to right. */
  type Board = seq<seq<Square>>

  datatype Coord = Coord(row: int, col: int)

  datatype Move = Move(from: Coord, to: Coord)

  /** A step direction or jump offset. */
  datatype Dir = Dir(dr: int, dc: int)

  predicate IsInBounds(row: int, col: int) {
    0 <= row < 8 && 0 <= col < 8
  }

  /** `isInBounds` accepts exactly the squares of the board `createInitialBoard` lays out. */
  lemma BoundsMatchBoard(row: int, col: int)
    ensures IsInBounds(row, col) <==>
              0 <= row < |CreateInitialBoard()| && 0 <= col < |CreateInitialBoard()[row]|
  {
  }

  predicate OnBoard(c: Coord) {
    IsInBounds(c.row, c.col)
  }

  predicate WellFormed(b: Board) {
    |b| == 8 && forall r :: 0 <= r < 8 ==> |b[r]| == 8
  }

  function At(b: Board, c: Coord): Square
    requires WellFormed(b) && OnBoard(c)
  {
    b[c.row][c.col]
  }

  function Opponent(c: Color): Color {
    if c == White then Black else White
  }

  /** A square a piece of `color` may end on: on the board, and empty or held by the other side. */
  predicate Landable(b: Board, c: Coord, color: Color)
    requires WellFormed(b)
  {
    OnBoard(c) && (At(b, c).None? || At(b, c).value.color != color)
  }

  // ---------------------------------------------------------------------------
  // Set-up
  // ---------------------------------------------------------------------------

  const BackRank: seq<Kind> := [Rook, Knight, Bishop, Queen, King, Bishop, Knight, Rook]

  function InitialSquare(r: int, c: int): Square
    requires IsInBounds(r, c)
  {
    if r == 0 then Some(Piece(BackRank[c], Black))
    else if r == 1 then Some(Piece(Pawn, Black))
    else if r == 6 then Some(Piece(Pawn, White))
    else if r == 7 then Some(Piece(BackRank[c], White))
    else None
  }

  /** `createInitialBoard`: back ranks on rows 0 and 7, pawns on rows 1 and 6, the rest empty. */
  function CreateInitialBoard(): (b: Board)
    ensures WellFormed(b)
    ensures forall c :: 0 <= c < 8 ==>
              && b[0][c] == Some(Piece(BackRank[c], Black)) && b[1][c] == Some(Piece(Pawn, Black))
              && b[6][c] == Some(Piece(Pawn, White)) && b[7][c] == Some(Piece(BackRank[c], White))
    ensures forall r, c :: 2 <= r < 6 && 0 <= c < 8 ==> b[r][c].None?
  {
    seq(8, r requires 0 <= r < 8 => seq(8, c requires 0 <= c < 8 => InitialSquare(r, c)))
  }

  // ---------------------------------------------------------------------------
  // Sliding moves
  // ---------------------------------------------------------------------------

  predicate IsDirection(d: Dir) {
    -1 <= d.dr <= 1 && -1 <= d.dc <= 1 && d != Dir(0, 0)
  }

  /** `k` steps of size -1, 0 or 1. */
  function Offset(d: int, k: nat): int {
    if d > 0 then k else if d < 0 then -(k as int) else 0
  }

  /** The square `k` steps from `c` along `d`. */
  function Along(c: Coord, d: Dir, k: nat): Coord {
    Coord(c.row + Offset(d.dr, k), c.col + Offset(d.dc, k))
  }

  /** How many more steps along `d` can stay on the board; it shrinks by one per step. */
  function Room(c: Coord, d: Dir): int {
    if d.dr > 0 then 8 - c.row
    else if d.dr < 0 then c.row + 1
    else if d.dc > 0 then 8 - c.col
    else c.col + 1
  }

  predicate OccupiedAt(b: Board, c: Coord)
    requires WellFormed(b)
  {
    OnBoard(c) && At(b, c).Some?
  }

  /** Where a ray stops short of: off the board, or a square holding a piece of the mover's own side. */
  predicate Blocked(b: Board, c: Coord, color: Color)
    requires WellFormed(b)
  {
    !OnBoard(c) || (At(b, c).Some? && At(b, c).value.color == color)
  }

  /** The square one step from `c` along `d`. */
  function Next(c: Coord, d: Dir): Coord {
    Coord(c.row + d.dr, c.col + d.dc)
  }

  /**
   * The squares a slider of `color` reaches along `d`, starting at `start` (one step from the
   * piece): every empty square up to the first occupied one, which is included only when
   * it holds an enemy piece.
   */
  function Ray(b: Board, start: Coord, d: Dir, color: Color): (moves: seq<Coord>)
    requires WellFormed(b) && IsDirection(d)
    ensures forall i :: 0 <= i < |moves| ==> moves[i] == Along(start, d, i)
    ensures forall i :: 0 <= i < |moves| ==> Landable(b, moves[i], color)
    ensures forall i :: 0 <= i < |moves| - 1 ==> EmptyAt(b, moves[i])
    decreases Room(start, d)
  {
    if !OnBoard(start) then []
    else match At(b, start)
      case None =>
        var next := Next(start, d);
        var rest := Ray(b, next, d, color);
        AlongNext(start, d);
        var moves := [start] + rest;
        assert forall i :: 1 <= i < |moves| ==> moves[i] == rest[i - 1];
        moves
      case Some(p) => if p.color != color then [start] else []
  }

  /**
   * A ray is maximal: it ends on the first occupied square, or just before a square that is
   * off the board or holds one of the mover's own pieces.
   */
  lemma {:induction false} RayStops(b: Board, start: Coord, d: Dir, color: Color)
    requires WellFormed(b) && IsDirection(d)
    ensures var moves := Ray(b, start, d, color);
            (|moves| > 0 && OccupiedAt(b, moves[|moves| - 1])) || Blocked(b, Along(start, d, |moves|), color)
    decreases Room(start, d)
  {
    if OnBoard(start) && At(b, start).None? {
      var rest := Ray(b, Next(start, d), d, color);
      RayStops(b, Next(start, d), d, color);
      AlongNext(start, d);
      assert Ray(b, start, d, color) == [start] + rest;
    }
  }

  lemma AlongNext(c: Coord, d: Dir)
    requires IsDirection(d)
    ensures Along(c, d, 0) == c
    ensures forall i: nat {:trigger Along(Next(c, d), d, i)} :: Along(Next(c, d), d, i) == Along(c, d, i + 1)
  {
  }

  /**
   * A square is on a ray exactly when it is some number of steps along it, landable, and
   * every square before it is empty.
   */
  lemma {:induction false} RayContains(b: Board, start: Coord, d: Dir, color: Color, m: Coord)
    requires WellFormed(b) && IsDirection(d)
    ensures m in Ray(b, start, d, color) <==>
              exists k: nat :: m == Along(start, d, k) && Landable(b, m, color) &&
                forall j: nat :: j < k ==> EmptyAt(b, Along(start, d, j))
    decreases Room(start, d)
  {
    var moves := Ray(b, start, d, color);
    if m in moves {
      var i :| 0 <= i < |moves| && moves[i] == m;
      forall j: nat | j < i
        ensures EmptyAt(b, Along(start, d, j))
      {
        assert moves[j] == Along(start, d, j);
      }
      assert m == Along(start, d, i) && Landable(b, m, color);
    }
    if exists k: nat :: m == Along(start, d, k) && Landable(b, m, color) &&
         forall j: nat :: j < k ==> EmptyAt(b, Along(start, d, j)) {
      var k: nat :| m == Along(start, d, k) && Landable(b, m, color) &&
        forall j: nat :: j < k ==> EmptyAt(b, Along(start, d, j));
      AlongNext(start, d);
      if k > 0 {
        assert EmptyAt(b, Along(start, d, 0));
        var next := Next(start, d);
        assert moves == [start] + Ray(b, next, d, color);
        assert m == Along(next, d, k - 1);
        forall j: nat | j < k - 1
          ensures EmptyAt(b, Along(next, d, j))
        {
          assert Along(next, d, j) == Along(start, d, j + 1);
        }
        RayContains(b, next, d, color, m);
      }
    }
  }

  /**
   * A slider moving along `d` from `from` reaches `m`: some number of steps away, landable,
   * over empty squares only.
   */
  ghost predicate SlidesTo(b: Board, from: Coord, d: Dir, m: Coord, color: Color)
    requires WellFormed(b)
  {
    exists k: nat :: 1 <= k && m == Along(from, d, k) && Landable(b, m, color) &&
      forall j: nat :: 1 <= j < k ==> EmptyAt(b, Along(from, d, j))
  }

  /** The ray that starts one step from the piece holds exactly the squares it slides to. */
  lemma RayFromPiece(b: Board, from: Coord, d: Dir, color: Color, m: Coord)
    requires WellFormed(b) && IsDirection(d)
    ensures m in Ray(b, Next(from, d), d, color) <==> SlidesTo(b, from, d, m, color)
  {
    var start := Next(from, d);
    RayContains(b, start, d, color, m);
    AlongNext(from, d);
    if m in Ray(b, start, d, color) {
      var k: nat :| m == Along(start, d, k) && Landable(b, m, color) &&
        forall j: nat :: j < k ==> EmptyAt(b, Along(start, d, j));
      forall j: nat | 1 <= j < k + 1
        ensures EmptyAt(b, Along(from, d, j))
      {
        assert Along(start, d, j - 1) == Along(from, d, j);
      }
      assert m == Along(from, d, k + 1);
    }
    if SlidesTo(b, from, d, m, color) {
      var k: nat :| 1 <= k && m == Along(from, d, k) && Landable(b, m, color) &&
        forall j: nat :: 1 <= j < k ==> EmptyAt(b, Along(from, d, j));
      forall j: nat | j < k - 1
        ensures EmptyAt(b, Along(start, d, j))
      {
        assert Along(start, d, j) == Along(from, d, j + 1);
      }
      assert m == Along(start, d, k - 1);
    }
  }

  /** `getLineMoves`: the rays along each direction, one after another. */
  function LineMoves(b: Board, from: Coord, dirs: seq<Dir>, color: Color): (moves: seq<Coord>)
    requires WellFormed(b)
    requires forall i :: 0 <= i < |dirs| ==> IsDirection(dirs[i])
    ensures forall m :: m in moves ==> Landable(b, m, color)
    ensures forall m :: m in moves <==>
              exists i :: 0 <= i < |dirs| && m in Ray(b, Next(from, dirs[i]), dirs[i], color)
    decreases |dirs|
  {
    if |dirs| == 0 then []
    else
      var rest := LineMoves(b, from, dirs[1..], color);
      assert forall i :: 1 <= i < |dirs| ==> dirs[1..][i - 1] == dirs[i];
      Ray(b, Next(from, dirs[0]), dirs[0], color) + rest
  }

  /** Every target of a slider lies on the ray along one of its directions. */
  lemma {:induction false} LineMovesOnRays(b: Board, from: Coord, dirs: seq<Dir>, color: Color, m: Coord)
    requires WellFormed(b)
    requires forall i :: 0 <= i < |dirs| ==> IsDirection(dirs[i])
    requires m in LineMoves(b, from, dirs, color)
    ensures exists i :: 0 <= i < |dirs| && m in Ray(b, Next(from, dirs[i]), dirs[i], color)
    decreases |dirs|
  {
    if m !in Ray(b, Next(from, dirs[0]), dirs[0], color) {
      LineMovesOnRays(b, from, dirs[1..], color, m);
      var i :| 0 <= i < |dirs[1..]| && m in Ray(b, Next(from, dirs[1..][i]), dirs[1..][i], color);
      assert dirs[1..][i] == dirs[i + 1];
    }
  }

  const RookDirs: seq<Dir> := [Dir(1, 0), Dir(-1, 0), Dir(0, 1), Dir(0, -1)]
  const BishopDirs: seq<Dir> := [Dir(1, 1), Dir(1, -1), Dir(-1, 1), Dir(-1, -1)]
  const QueenDirs: seq<Dir> := RookDirs + BishopDirs

  /** The directions a rook, bishop or queen slides in; other pieces do not slide. */
  function SlideDirs(kind: Kind): seq<Dir> {
    match kind
    case Rook => RookDirs
    case Bishop => BishopDirs
    case Queen => QueenDirs
    case _ => []
  }

  lemma SlideDirsAreDirections(kind: Kind)
    ensures forall i :: 0 <= i < |SlideDirs(kind)| ==> IsDirection(SlideDirs(kind)[i])
  {
  }

  // ---------------------------------------------------------------------------
  // Stepping moves
  // ---------------------------------------------------------------------------

  /** The offsets among `deltas` that land on the board on an empty or enemy square, in order. */
  function StepMoves(b: Board, from: Coord, deltas: seq<Dir>, color: Color): (moves: seq<Coord>)
    requires WellFormed(b)
    ensures forall m :: m in moves <==>
              exists i :: 0 <= i < |deltas| && m == Next(from, deltas[i]) && Landable(b, m, color)
  {
    if |deltas| == 0 then []
    else
      var rest := StepMoves(b, from, deltas[1..], color);
      assert forall i :: 1 <= i < |deltas| ==> deltas[i] == deltas[1..][i - 1];
      var m := Next(from, deltas[0]);
      if Landable(b, m, color) then [m] + rest else rest
  }

  /** The king's neighbours, in the order the two nested loops over -1, 0, 1 visit them. */
  const KingDeltas: seq<Dir> := [
    Dir(-1, -1), Dir(-1, 0), Dir(-1, 1), Dir(0, -1), Dir(0, 1), Dir(1, -1), Dir(1, 0), Dir(1, 1)]

  const KnightDeltas: seq<Dir> := [
    Dir(2, 1), Dir(2, -1), Dir(-2, 1), Dir(-2, -1), Dir(1, 2), Dir(1, -2), Dir(-1, 2), Dir(-1, -2)]

  // ---------------------------------------------------------------------------
  // Pawns
  // ---------------------------------------------------------------------------

  /** White moves up the board (towards row 0), Black down. */
  function Forward(color: Color): int {
    if color == White then -1 else 1
  }

  function StartRow(color: Color): int {
    if color == White then 6 else 1
  }

  predicate EmptyAt(b: Board, c: Coord)
    requires WellFormed(b)
  {
    OnBoard(c) && At(b, c).None?
  }

  predicate EnemyAt(b: Board, c: Coord, color: Color)
    requires WellFormed(b)
  {
    OnBoard(c) && At(b, c).Some? && At(b, c).value.color != color
  }

  function PawnCapture(b: Board, target: Coord, color: Color): seq<Coord>
    requires WellFormed(b)
  {
    if EnemyAt(b, target, color) then [target] else []
  }

  /**
   * A pawn's moves: one step forward onto an empty square, two from its start row when both
   * squares ahead are empty, and diagonal captures of enemy pieces.
   */
  function PawnMoves(b: Board, from: Coord, color: Color): (moves: seq<Coord>)
    requires WellFormed(b)
    ensures forall m :: m in moves <==>
              var f := Forward(color);
              || (m == Coord(from.row + f, from.col) && EmptyAt(b, m))
              || (&& m == Coord(from.row + 2 * f, from.col) && from.row == StartRow(color)
                  && EmptyAt(b, Coord(from.row + f, from.col)) && EmptyAt(b, m))
              || (m.row == from.row + f && (m.col == from.col - 1 || m.col == from.col + 1) && EnemyAt(b, m, color))
  {
    var f := Forward(color);
    var next := Coord(from.row + f, from.col);
    var double := Coord(from.row + 2 * f, from.col);
    var forward :=
      if EmptyAt(b, next) then
        [next] + (if from.row == StartRow(color) && EmptyAt(b, double) then [double] else [])
      else [];
    forward
      + PawnCapture(b, Coord(from.row + f, from.col - 1), color)
      + PawnCapture(b, Coord(from.row + f, from.col + 1), color)
  }

  // ---------------------------------------------------------------------------
  // The move generator
  // ---------------------------------------------------------------------------

  /**
   * `getLegalMoves`: the pseudo-legal targets of the piece on `pos`. Every target is on the
   * board and free of the mover's own pieces, so the origin itself is never a target.
   */
  function GetLegalMoves(b: Board, pos: Coord): (moves: seq<Coord>)
    requires WellFormed(b) && OnBoard(pos)
    ensures At(b, pos).None? ==> moves == []
    ensures At(b, pos).Some? ==> forall m :: m in moves ==> Landable(b, m, At(b, pos).value.color)
    ensures forall m :: m in moves ==> OnBoard(m) && m != pos
  {
    match At(b, pos)
    case None => []
    case Some(p) =>
      var moves :=
        match p.kind
        case Pawn => PawnMoves(b, pos, p.color)
        case Rook => LineMoves(b, pos, RookDirs, p.color)
        case Bishop => LineMoves(b, pos, BishopDirs, p.color)
        case Queen => LineMoves(b, pos, QueenDirs, p.color)
        case King => StepMoves(b, pos, KingDeltas, p.color)
        case Knight => StepMoves(b, pos, KnightDeltas, p.color);
      moves
  }

  function Abs(x: int): nat {
    if x < 0 then -x else x
  }

  /**
   * A rook, bishop or queen reaches exactly the squares it slides to along one of its
   * directions: landable, with every square passed on the way empty.
   */
  lemma SliderMoves(b: Board, pos: Coord, kind: Kind, color: Color, m: Coord)
    requires WellFormed(b) && OnBoard(pos) && At(b, pos) == Some(Piece(kind, color))
    requires kind == Rook || kind == Bishop || kind == Queen
    ensures m in GetLegalMoves(b, pos) <==>
              exists i :: 0 <= i < |SlideDirs(kind)| && SlidesTo(b, pos, SlideDirs(kind)[i], m, color)
  {
    var dirs := SlideDirs(kind);
    SlideDirsAreDirections(kind);
    SliderUsesLines(b, pos);
    assert m in GetLegalMoves(b, pos) <==>
             exists i :: 0 <= i < |dirs| && m in Ray(b, Next(pos, dirs[i]), dirs[i], color);
    forall i | 0 <= i < |dirs|
      ensures m in Ray(b, Next(pos, dirs[i]), dirs[i], color) <==> SlidesTo(b, pos, dirs[i], m, color)
    {
      RayFromPiece(b, pos, dirs[i], color, m);
    }
  }

  lemma SliderUsesLines(b: Board, pos: Coord)
    requires WellFormed(b) && OnBoard(pos) && At(b, pos).Some?
    requires At(b, pos).value.kind == Rook || At(b, pos).value.kind == Bishop || At(b, pos).value.kind == Queen
    ensures GetLegalMoves(b, pos) == LineMoves(b, pos, SlideDirs(At(b, pos).value.kind), At(b, pos).value.color)
  {
  }

  /** The king reaches exactly the landable squares adjacent to it. */
  lemma KingMoves(b: Board, pos: Coord, color: Color, m: Coord)
    requires WellFormed(b) && OnBoard(pos) && At(b, pos) == Some(Piece(King, color))
    ensures m in GetLegalMoves(b, pos) <==>
              Landable(b, m, color) && Abs(m.row - pos.row) <= 1 && Abs(m.col - pos.col) <= 1 && m != pos
  {
    var dr, dc := m.row - pos.row, m.col - pos.col;
    if Landable(b, m, color) && Abs(dr) <= 1 && Abs(dc) <= 1 && m != pos {
      var i := if dr == -1 then dc + 1 else if dr == 0 then (if dc == -1 then 3 else 4) else dc + 6;
      assert KingDeltas[i] == Dir(dr, dc);
    }
  }

  predicate KnightJump(dr: int, dc: int) {
    (Abs(dr) == 2 && Abs(dc) == 1) || (Abs(dr) == 1 && Abs(dc) == 2)
  }

  /** The knight reaches exactly the landable squares an L-shaped jump away. */
  lemma KnightMoves(b: Board, pos: Coord, color: Color, m: Coord)
    requires WellFormed(b) && OnBoard(pos) && At(b, pos) == Some(Piece(Knight, color))
    ensures m in GetLegalMoves(b, pos) <==> Landable(b, m, color) && KnightJump(m.row - pos.row, m.col - pos.col)
  {
    var dr, dc := m.row - pos.row, m.col - pos.col;
    if Landable(b, m, color) && KnightJump(dr, dc) {
      var i :=
        if dr == 2 then (if dc == 1 then 0 else 1)
        else if dr == -2 then (if dc == 1 then 2 else 3)
        else if dr == 1 then (if dc == 2 then 4 else 5)
        else (if dc == 2 then 6 else 7);
      assert KnightDeltas[i] == Dir(dr, dc);
    }
  }

  /** A pawn's double step exists only from its start row, across two empty squares. */
  lemma PawnDoubleStep(b: Board, pos: Coord, color: Color)
    requires WellFormed(b) && OnBoard(pos) && At(b, pos) == Some(Piece(Pawn, color))
    ensures var f := Forward(color);
            var double := Coord(pos.row + 2 * f, pos.col);
            double in GetLegalMoves(b, pos) <==>
              pos.row == StartRow(color) && EmptyAt(b, Coord(pos.row + f, pos.col)) && EmptyAt(b, double)
  {
  }

  /** A pawn's straight moves always land on an empty square. */
  lemma PawnForwardOntoEmpty(b: Board, pos: Coord, color: Color, m: Coord)
    requires WellFormed(b) && OnBoard(pos) && At(b, pos) == Some(Piece(Pawn, color))
    requires m in GetLegalMoves(b, pos) && m.col == pos.col
    ensures EmptyAt(b, m)
  {
  }

  /**
   * A slider's target lies `k` steps along one of the queen's directions, with every square
   * strictly between the piece and the target empty.
   */
  lemma SliderPathIsClear(b: Board, pos: Coord, m: Coord)
    requires WellFormed(b) && OnBoard(pos) && At(b, pos).Some? && At(b, pos).value.kind in {Rook, Bishop, Queen}
    requires m in GetLegalMoves(b, pos)
    ensures exists d, k: nat :: d in QueenDirs && 1 <= k && m == Along(pos, d, k) &&
              forall j :: 1 <= j < k ==> EmptyAt(b, Along(pos, d, j))
  {
    var p := At(b, pos).value;
    var dirs := SlideDirs(p.kind);
    SlideDirsAreDirections(p.kind);
    SliderUsesLines(b, pos);
    LineMovesOnRays(b, pos, dirs, p.color, m);
    var i :| 0 <= i < |dirs| && m in Ray(b, Next(pos, dirs[i]), dirs[i], p.color);
    var d := dirs[i];
    assert d in QueenDirs;
    RayPathIsClear(b, pos, d, p.color, m);
  }

  lemma RayPathIsClear(b: Board, pos: Coord, d: Dir, color: Color, m: Coord)
    requires WellFormed(b) && IsDirection(d)
    requires m in Ray(b, Next(pos, d), d, color)
    ensures exists k: nat :: 1 <= k && m == Along(pos, d, k) && forall j :: 1 <= j < k ==> EmptyAt(b, Along(pos, d, j))
  {
    var start := Next(pos, d);
    var ray := Ray(b, start, d, color);
    var k :| 0 <= k < |ray| && ray[k] == m;
    assert forall j: nat :: Along(start, d, j) == Along(pos, d, j + 1);
    assert m == Along(pos, d, k + 1);
    forall j | 1 <= j < k + 1
      ensures EmptyAt(b, Along(pos, d, j))
    {
      assert ray[j - 1] == Along(pos, d, j);
    }
  }

  /** In the opening position every white pawn may advance one or two squares and nothing else. */
  lemma OpeningPawnMoves(c: int)
    requires 0 <= c < 8
    ensures GetLegalMoves(CreateInitialBoard(), Coord(6, c)) == [Coord(5, c), Coord(4, c)]
  {
    var b := CreateInitialBoard();
    assert !EnemyAt(b, Coord(5, c - 1), White) && !EnemyAt(b, Coord(5, c + 1), White);
  }

  /** In the opening position no white back-rank piece other than a knight can move. */
  lemma OpeningBackRankBlocked(c: int)
    requires 0 <= c < 8 && BackRank[c] != Knight
    ensures GetLegalMoves(CreateInitialBoard(), Coord(7, c)) == []
  {
    var b := CreateInitialBoard();
    forall d | IsDirection(d)
      ensures Blocked(b, Next(Coord(7, c), d), White)
    {
      OpeningBackRankHemmedIn(c, d);
    }
    HemmedInCannotMove(b, Coord(7, c), Piece(BackRank[c], White));
  }

  /** A rook, bishop, queen or king whose every neighbour is blocked has no moves. */
  lemma HemmedInCannotMove(b: Board, pos: Coord, p: Piece)
    requires WellFormed(b) && OnBoard(pos) && At(b, pos) == Some(p) && p.kind !in {Pawn, Knight}
    requires forall d :: IsDirection(d) ==> Blocked(b, Next(pos, d), p.color)
    ensures GetLegalMoves(b, pos) == []
  {
    if p.kind == King {
      forall i | 0 <= i < |KingDeltas|
        ensures !Landable(b, Next(pos, KingDeltas[i]), p.color)
      {
        assert IsDirection(KingDeltas[i]);
      }
      NoLandingNoSteps(b, pos, KingDeltas, p.color);
    } else if p.kind == Rook {
      AllRaysBlocked(b, pos, RookDirs, p.color);
    } else if p.kind == Bishop {
      AllRaysBlocked(b, pos, BishopDirs, p.color);
    } else {
      AllRaysBlocked(b, pos, QueenDirs, p.color);
    }
  }

  /** Steps that all land off the board or on an own piece give no moves. */
  lemma {:induction false} NoLandingNoSteps(b: Board, from: Coord, deltas: seq<Dir>, color: Color)
    requires WellFormed(b)
    requires forall i :: 0 <= i < |deltas| ==> !Landable(b, Next(from, deltas[i]), color)
    ensures StepMoves(b, from, deltas, color) == []
    decreases |deltas|
  {
    if |deltas| > 0 {
      assert forall i :: 1 <= i < |deltas| ==> deltas[i] == deltas[1..][i - 1];
      NoLandingNoSteps(b, from, deltas[1..], color);
    }
  }

  /** Every neighbour of a white back-rank square is off the board or holds a white piece. */
  lemma OpeningBackRankHemmedIn(c: int, d: Dir)
    requires 0 <= c < 8 && IsDirection(d)
    ensures Blocked(CreateInitialBoard(), Next(Coord(7, c), d), White)
  {
  }

  lemma {:induction false} AllRaysBlocked(b: Board, from: Coord, dirs: seq<Dir>, color: Color)
    requires WellFormed(b)
    requires forall i :: 0 <= i < |dirs| ==> IsDirection(dirs[i]) && Blocked(b, Next(from, dirs[i]), color)
    ensures LineMoves(b, from, dirs, color) == []
    decreases |dirs|
  {
    if |dirs| > 0 {
      AllRaysBlocked(b, from, dirs[1..], color);
    }
  }

  // ---------------------------------------------------------------------------
  // The click state machine
  // ---------------------------------------------------------------------------

  datatype Game = Game(
    board: Board, turn: Color, selected: Option<Coord>, legal: seq<Coord>,
    lastMove: Option<Move>, winner: Option<Color>)

  /** What every reachable game satisfies: a selection is an own piece with its moves listed. */
  ghost predicate Consistent(g: Game) {
    && WellFormed(g.board)
    && (g.selected.None? ==> g.legal == [])
    && (g.selected.Some? ==>
          && OnBoard(g.selected.value)
          && At(g.board, g.selected.value).Some?
          && At(g.board, g.selected.value).value.color == g.turn
          && g.legal == GetLegalMoves(g.board, g.selected.value))
  }

  function InitialGame(): (g: Game)
    ensures Consistent(g) && g.turn == White && g.winner.None?
  {
    Game(CreateInitialBoard(), White, None, [], None, None)
  }

  /** The board with `sq` written on `c`. */
  function Put(b: Board, c: Coord, sq: Square): (r: Board)
    requires WellFormed(b) && OnBoard(c)
    ensures WellFormed(r) && At(r, c) == sq
    ensures forall x :: OnBoard(x) && x != c ==> At(r, x) == At(b, x)
  {
    b[c.row := b[c.row][c.col := sq]]
  }

  /**
   * `onSquareClick`: after a win nothing happens; a click on a listed target moves the
   * selected piece there; a click on a piece of the side to move selects it; any other
   * click clears the selection.
   */
  function OnSquareClick(g: Game, at: Coord): (r: Game)
    requires WellFormed(g.board) && OnBoard(at)
    requires g.selected.Some? ==> OnBoard(g.selected.value)
    ensures g.winner.Some? ==> r == g
    ensures WellFormed(r.board)
    ensures g.winner.None? && !(g.selected.Some? && at in g.legal) ==> r.board == g.board && r.turn == g.turn
    ensures g.winner.None? && !(g.selected.Some? && at in g.legal) ==> r.winner == g.winner && r.lastMove == g.lastMove
    ensures g.winner.None? && !(g.selected.Some? && at in g.legal) && At(g.board, at).Some? && At(g.board, at).value.color == g.turn ==>
              r.selected == Some(at) && r.legal == GetLegalMoves(g.board, at)
    ensures g.winner.None? && !(g.selected.Some? && at in g.legal) && !(At(g.board, at).Some? && At(g.board, at).value.color == g.turn) ==>
              r.selected.None? && r.legal == []
  {
    if g.winner.Some? then g
    else if g.selected.Some? && at in g.legal then
      var from := g.selected.value;
      match At(g.board, from)
      case None => g
      case Some(mover) =>
        var target := At(g.board, at);
        var board := Put(Put(g.board, from, None), at, Some(mover));
        var winner := if target.Some? && target.value.kind == King then Some(mover.color) else g.winner;
        Game(board, Opponent(g.turn), None, [], Some(Move(from, at)), winner)
    else if At(g.board, at).Some? && At(g.board, at).value.color == g.turn then
      g.(selected := Some(at), legal := GetLegalMoves(g.board, at))
    else
      g.(selected := None, legal := [])
  }

  /**
   * A move in a consistent game: the origin empties, the mover lands on the target, every
   * other square keeps its piece, the turn passes, the selection clears, and the mover wins
   * exactly when the target held a king.
   */
  lemma MoveEffect(g: Game, at: Coord)
    requires Consistent(g) && OnBoard(at) && g.winner.None?
    requires g.selected.Some? && at in g.legal
    ensures var r := OnSquareClick(g, at);
            var from := g.selected.value;
            var mover := At(g.board, from).value;
            && At(r.board, from).None?
            && At(r.board, at) == Some(mover)
            && (forall x :: OnBoard(x) && x != from && x != at ==> At(r.board, x) == At(g.board, x))
            && r.turn == Opponent(g.turn) && r.selected.None? && r.legal == []
            && r.lastMove == Some(Move(from, at))
            && (r.winner.Some? <==> At(g.board, at).Some? && At(g.board, at).value.kind == King)
            && (r.winner.Some? ==> r.winner.value == g.turn)
  {
    assert at != g.selected.value;
  }

  /** Every click keeps a game consistent. */
  lemma ClickPreservesConsistency(g: Game, at: Coord)
    requires Consistent(g) && OnBoard(at)
    ensures Consistent(OnSquareClick(g, at))
  {
  }

  /** Once a side has won, no sequence of clicks changes anything. */
  lemma {:induction false} WonGameIsFrozen(g: Game, clicks: seq<Coord>)
    requires Consistent(g) && g.winner.Some?
    requires forall i :: 0 <= i < |clicks| ==> OnBoard(clicks[i])
    ensures Play(g, clicks) == g
    decreases |clicks|
  {
    if |clicks| > 0 {
      WonGameIsFrozen(g, clicks[1..]);
    }
  }

  /** A sequence of clicks, each on the board. */
  function Play(g: Game, clicks: seq<Coord>): (r: Game)
    requires Consistent(g)
    requires forall i :: 0 <= i < |clicks| ==> OnBoard(clicks[i])
    ensures Consistent(r)
    decreases |clicks|
  {
    if |clicks| == 0 then g
    else
      ClickPreservesConsistency(g, clicks[0]);
      Play(OnSquareClick(g, clicks[0]), clicks[1..])
  }
}

=== FILE: cms.dfy ===
/**
 * The content loader: the content and settings schema, the compiled-in defaults, the
 * request helper with its response-envelope unwrapping, the never-throwing loaders, and the
 * in-page subscription registry that carries pushed updates.
 */
module Cms {
  import opened Base
  import opened Text

  // ---------------------------------------------------------------------------
  // Schema
  // ---------------------------------------------------------------------------

  /** A backend-hosted asset descriptor; only handed on to the media resolver. */
  datatype MediaRef = MediaRef(id: string, url: string, fileName: string, mimeType: string, size: int)

  /**
   * `resolveMediaUrl(media, fallback?)`: turns an asset descriptor into a URL, or nothing.
   * Its definition is not part of this model, so callers take it as a parameter.
   */
  type MediaResolver = (Option<MediaRef>, Option<string>) -> Option<string>

  datatype Hero = Hero(
    enabled: bool, title: string, subtitle: string, ctaLabel: string, ctaHref: string,
    image: Option<MediaRef>)

  datatype About = About(
    enabled: bool, title: string, description: string, bullets: seq<string>,
    cvDocument: Option<MediaRef>)

  /**
   * A utility or portfolio card. The id is optional because the consumers fall back to a
   * positional id when the delivered document lacks one.
   */
  datatype CardItem = CardItem(
    id: Option<string>, title: string, description: string, tag: Option<string>,
    imageUrl: Option<string>, image: Option<MediaRef>, url: Option<string>)

  datatype CardsSection = CardsSection(
    enabled: bool, title: string, subtitle: Option<string>, items: seq<CardItem>,
    showViewAll: Option<bool>, viewAllLabel: Option<string>)

  datatype ExperienceItem = ExperienceItem(
    id: string, role: string, company: string, period: string, points: seq<string>)

  datatype Experience = Experience(enabled: bool, title: string, items: seq<ExperienceItem>)

  datatype ContactSection = ContactSection(enabled: bool, title: string, blurb: string)

  datatype Content = Content(
    hero: Hero, about: About, experience: Experience, utilities: CardsSection,
    portfolio: CardsSection, contact: ContactSection)

  datatype Settings = Settings(apiUrl: string, cmsUrl: string, loginUrl: string, notificationDuration: int)

  /** The build-time environment variables the defaults are read from. */
  datatype Env = Env(
    apiUrl: Option<string>, dashboardUrl: Option<string>, loginUrl: Option<string>,
    notificationDuration: Option<string>)

  // ---------------------------------------------------------------------------
  // Compiled-in defaults
  // ---------------------------------------------------------------------------

  const DefaultContent: Content := Content(
    Hero(true, "Andrian Kurnia Aji", "Software Engineer", "Contact", "#contact", None),
    About(
      true, "About",
      "Software engineer with 2+ years shipping reliable banking platforms. Focused on dependable delivery and measurable outcomes.",
      [ "Design Golang microservices for safe deposit, queueing, and biometric flows.",
        "Automated schedulers, monitoring dashboards, and data workflows.",
        "Delivered low-code field reporting tools." ],
      None),
    Experience(true, "Experience", [
      ExperienceItem("bri-backend", "Backend Developer", "PT Bank Rakyat Indonesia (BRI)", "Dec 2023 - Present", [
        "Delivered Golang microservices for safe deposit box registration, visitor tracking, and rental renewals that interoperate with BRI core banking via gRPC and REST.",
        "Built branch queueing and biometric validation services using Redis, RabbitMQ, and Minio to balance workloads and harden security at scale.",
        "Optimised teller and customer service analytics by parallelising heavy SQL workloads with goroutines and connection pooling.",
        "Migrated millions of SDB records from legacy systems, boosting pipeline throughput from ~100 to ~3000 boxes per batch with automated validation."]),
      ExperienceItem("bank-raya", "Backend Engineer", "PT Bank Raya Indonesia Tbk", "Apr 2023 - Oct 2023", [
        "Implemented Google Cloud based auction and monitoring services using Pub/Sub, Scheduler, BigQuery, and PostgreSQL.",
        "Automated renewal reminders with dynamic schedulers so operational teams no longer manage manual jobs.",
        "Provided job dashboards that surface pending, failed, and successful workloads across distributed databases."]),
      ExperienceItem("phe-fullstack", "Fullstack Developer", "PT Pertamina Hulu Energi", "Sep 2022 - Mar 2023", [
        "Delivered Promyst, a low-code web app for offshore field staff to capture operational data using Code On Time and .NET.",
        "Collaborated with cross-functional teams to translate field requirements into performant forms backed by SQL Server.",
        "Introduced structured workflows that improved data turnaround for HQ decision makers."]),
      ExperienceItem("diskominfo-intern", "Intern Web Developer", "Diskominfo Tangerang", "Sep 2021 - Feb 2022", [
        "Helped civil servants adopt the Simpatik portal by building new modules and training end users.",
        "Collaborated on UX improvements and presented the platform to stakeholders across the Tangerang government."]),
      ExperienceItem("esri-intern", "Intern GIS Analyst", "Esri Indonesia (Binus Collaboration)", "Feb 2021 - Feb 2022", [
        "Researched, cleansed, and mapped geospatial datasets in ArcGIS to support campus-industry projects.",
        "Produced thematic maps and documentation that accelerated downstream analysis by partner teams."])
    ]),
    CardsSection(
      true, "Games & Utilities", Some("Hands-on tools and play spaces I tinker with during creative breaks."),
      [], Some(true), Some("Show all 5 tools")),
    CardsSection(
      true, "Portfolio", Some("A few projects I've worked on recently."),
      [], Some(true), Some("Show all 5 projects")),
    ContactSection(true, "Get in touch", "Ready to collaborate? Send me a message and I'll reply as soon as I can.")
  )

  const FallbackApiUrl: string := "http://localhost:3000/api"
  const FallbackDashboardUrl: string := "http://localhost:5174/dashboard"
  const FallbackLoginUrl: string := "http://localhost:5174/login"
  const DefaultNotificationDuration: int := 1500

  /**
   * The configured notification duration: the base-10 parse of the variable (or of "1500"
   * when it is unset), replaced by 1500 when the parse is NaN or zero.
   */
  function NotificationDuration(raw: Option<string>): (d: int)
    ensures d != 0
    ensures raw.None? ==> d == DefaultNotificationDuration
    ensures ParseDecimal(raw.OrElse("1500")).NotANumber? ==> d == DefaultNotificationDuration
    ensures ParseDecimal(raw.OrElse("1500")) == Number(0) ==> d == DefaultNotificationDuration
    ensures ParseDecimal(raw.OrElse("1500")).Number? && ParseDecimal(raw.OrElse("1500")).value != 0 ==>
              d == ParseDecimal(raw.OrElse("1500")).value
  {
    ParseDefaultDuration();
    match ParseDecimal(raw.OrElse("1500"))
    case NotANumber => DefaultNotificationDuration
    case Number(n) => if n == 0 then DefaultNotificationDuration else n
  }

  lemma ParseDefaultDuration()
    ensures ParseDecimal("1500") == Number(1500)
  {
    var s := "1500";
    TrimStartKeeps(s);
    LeadingDigitsOfDigits(s);
    assert "1"[..0] == "" && DigitsValue("1") == 1;
    assert "15"[..1] == "1" && DigitsValue("15") == 15;
    assert "150"[..2] == "15" && DigitsValue("150") == 150;
    assert s[..3] == "150" && DigitsValue(s) == 1500;
  }

  /** A configured positive duration survives the parse unchanged. */
  lemma NotificationDurationOfConfigured(n: nat)
    requires n > 0
    ensures NotificationDuration(Some(NatToString(n))) == n
  {
    ParseNatToString(n);
  }

  function DefaultSettings(env: Env): (s: Settings)
    ensures s.notificationDuration != 0
    ensures env.apiUrl.Some? ==> s.apiUrl == env.apiUrl.value
    ensures env.apiUrl.None? ==> s.apiUrl == FallbackApiUrl
    ensures env.dashboardUrl.Some? ==> s.cmsUrl == env.dashboardUrl.value
    ensures env.dashboardUrl.None? ==> s.cmsUrl == FallbackDashboardUrl
    ensures env.loginUrl.Some? ==> s.loginUrl == env.loginUrl.value
    ensures env.loginUrl.None? ==> s.loginUrl == FallbackLoginUrl
    ensures s.notificationDuration == NotificationDuration(env.notificationDuration)
  {
    Settings(
      env.apiUrl.OrElse(FallbackApiUrl),
      env.dashboardUrl.OrElse(FallbackDashboardUrl),
      env.loginUrl.OrElse(FallbackLoginUrl),
      NotificationDuration(env.notificationDuration))
  }

  // ---------------------------------------------------------------------------
  // Requests
  // ---------------------------------------------------------------------------

  /** What a `throw` carries: an `Error` object with its message, or any other value. */
  datatype Thrown = ErrorValue(message: string) | OtherValue

  datatype Error = Error(message: string)

  /**
   * A parsed JSON response body read two ways: its `data` field when that is neither null
   * nor undefined, and the body itself taken as the document.
   */
  datatype Body<T> = Body(data: Option<T>, whole: T)

  /** How a `fetch` plus `res.json()` ends: a response, or a rejection. */
  datatype FetchOutcome<T> = Responded(status: nat, body: Body<T>) | Threw(thrown: Thrown)

  /** `res.ok`: the status is in the 2xx range. */
  predicate IsOk(status: nat) {
    200 <= status <= 299
  }

  function StatusMessage(status: nat): string {
    "Request failed with status " + NatToString(status)
  }

  /** `json?.data ?? json`. */
  function Unwrap<T>(body: Body<T>): (r: T)
    ensures body.data.Some? ==> r == body.data.value
    ensures body.data.None? ==> r == body.whole
  {
    body.data.OrElse(body.whole)
  }

  /** `request(path)`: a rejected promise becomes a `Failure` carrying what was thrown. */
  function Request<T>(outcome: FetchOutcome<T>): (r: Result<T, Thrown>)
    ensures outcome.Threw? ==> r == Failure(outcome.thrown)
    ensures outcome.Responded? && !IsOk(outcome.status) ==>
              r == Failure(ErrorValue(StatusMessage(outcome.status)))
    ensures outcome.Responded? && IsOk(outcome.status) && outcome.body.data.Some? ==>
              r == Success(outcome.body.data.value)
    ensures outcome.Responded? && IsOk(outcome.status) && outcome.body.data.None? ==>
              r == Success(outcome.body.whole)
  {
    match outcome
    case Threw(e) => Failure(e)
    case Responded(status, body) =>
      if !IsOk(status) then Failure(ErrorValue(StatusMessage(status)))
      else Success(Unwrap(body))
  }

  /** The status code can be read back from a failed request's message. */
  lemma StatusMessageCarriesStatus(status: nat)
    ensures |StatusMessage(status)| > 27
    ensures StatusMessage(status)[..27] == "Request failed with status "
    ensures ParseDecimal(StatusMessage(status)[27..]) == Number(status)
  {
    var m := StatusMessage(status);
    assert m[27..] == NatToString(status);
    ParseNatToString(status);
  }

  /** Two different failing statuses never produce the same message. */
  lemma StatusMessageInjective(a: nat, b: nat)
    requires StatusMessage(a) == StatusMessage(b)
    ensures a == b
  {
    StatusMessageCarriesStatus(a);
    StatusMessageCarriesStatus(b);
  }

  // ---------------------------------------------------------------------------
  // Loaders
  // ---------------------------------------------------------------------------

  datatype LoadContentResult = LoadContentResult(content: Content, error: Option<Error>)

  datatype LoadSettingsResult = LoadSettingsResult(settings: Settings, error: Option<Error>)

  /** The error a caught value becomes: itself when it is an `Error`, otherwise a fresh one. */
  function AsError(thrown: Thrown, defaultMessage: string): Error {
    match thrown
    case ErrorValue(m) => Error(m)
    case OtherValue => Error(defaultMessage)
  }

  /**
   * `loadContent`: never fails; a failed request yields the compiled-in content (its deep
   * copy is the same value here) together with the error.
   */
  function LoadContent(outcome: FetchOutcome<Content>): (r: LoadContentResult)
    ensures r.error.None? <==> outcome.Responded? && IsOk(outcome.status)
    ensures r.error.None? ==> r.content == Unwrap(outcome.body)
    ensures r.error.Some? ==> r.content == DefaultContent
    ensures outcome.Responded? && !IsOk(outcome.status) ==>
              r.error == Some(Error(StatusMessage(outcome.status)))
    ensures outcome.Threw? && outcome.thrown.ErrorValue? ==> r.error == Some(Error(outcome.thrown.message))
    ensures outcome.Threw? && outcome.thrown.OtherValue? ==> r.error == Some(Error("Failed to load site content"))
  {
    match Request(outcome)
    case Success(content) => LoadContentResult(content, None)
    case Failure(thrown) =>
      LoadContentResult(DefaultContent, Some(AsError(thrown, "Failed to load site content")))
  }

  /** `loadSettings`: as `LoadContent`, falling back to a copy of the default settings. */
  function LoadSettings(env: Env, outcome: FetchOutcome<Settings>): (r: LoadSettingsResult)
    ensures r.error.None? <==> outcome.Responded? && IsOk(outcome.status)
    ensures r.error.None? ==> r.settings == Unwrap(outcome.body)
    ensures r.error.Some? ==> r.settings == DefaultSettings(env)
    ensures outcome.Responded? && !IsOk(outcome.status) ==>
              r.error == Some(Error(StatusMessage(outcome.status)))
    ensures outcome.Threw? && outcome.thrown.ErrorValue? ==> r.error == Some(Error(outcome.thrown.message))
    ensures outcome.Threw? && outcome.thrown.OtherValue? ==> r.error == Some(Error("Failed to load settings"))
  {
    match Request(outcome)
    case Success(settings) => LoadSettingsResult(settings, None)
    case Failure(thrown) =>
      LoadSettingsResult(DefaultSettings(env), Some(AsError(thrown, "Failed to load settings")))
  }

  /** A failed content load names its status: the error message decodes back to it. */
  lemma FailedContentLoadNamesStatus(status: nat, body: Body<Content>)
    requires !IsOk(status)
    ensures LoadContent(Responded(status, body)).content == DefaultContent
    ensures ParseDecimal(LoadContent(Responded(status, body)).error.value.message[27..]) == Number(status)
  {
    StatusMessageCarriesStatus(status);
  }

  // ---------------------------------------------------------------------------
  // Live-update subscriptions
  // ---------------------------------------------------------------------------

  datatype Topic = ContentUpdated | SettingsUpdated

  function EventName(topic: Topic): string {
    match topic
    case ContentUpdated => "cms:content-updated"
    case SettingsUpdated => "cms:settings-updated"
  }

  /** One registered listener; the id stands for the identity of its closure. */
  datatype Handler = Handler(id: nat, topic: Topic)

  /**
   * The page's listener table. Without a window (server-side rendering) nothing is ever
   * registered.
   */
  datatype Registry = Registry(hasWindow: bool, handlers: seq<Handler>, nextId: nat) {
    /** Every listener carries an id below the next one to hand out. */
    ghost predicate Valid() {
      forall h :: h in handlers ==> h.id < nextId
    }
  }

  /** What a subscription returns: a function that removes its listener, or one that does nothing. */
  datatype Disposer = NoOp | RemoveHandler(handler: Handler)

  datatype Subscription = Subscription(registry: Registry, disposer: Disposer)

  /** `subscribeToCmsContent` / `subscribeToCmsSettings`. */
  function Subscribe(reg: Registry, topic: Topic): (r: Subscription)
    ensures !reg.hasWindow ==> r.registry == reg && r.disposer == NoOp
    ensures reg.hasWindow ==>
              && r.disposer == RemoveHandler(Handler(reg.nextId, topic))
              && r.registry.handlers == reg.handlers + [r.disposer.handler]
    ensures r.registry.hasWindow == reg.hasWindow
    ensures reg.Valid() ==> r.registry.Valid()
  {
    if !reg.hasWindow then Subscription(reg, NoOp)
    else
      var h := Handler(reg.nextId, topic);
      Subscription(Registry(true, reg.handlers + [h], reg.nextId + 1), RemoveHandler(h))
  }

  /** The listeners other than `h`, in their original order. */
  function Without(hs: seq<Handler>, h: Handler): (r: seq<Handler>)
    ensures forall x :: x in r <==> x in hs && x != h
    ensures |r| <= |hs|
  {
    if |hs| == 0 then []
    else if hs[0] == h then Without(hs[1..], h)
    else [hs[0]] + Without(hs[1..], h)
  }

  /** Running a disposer: `removeEventListener` for the listener it was created with. */
  function Dispose(reg: Registry, d: Disposer): (r: Registry)
    ensures d.NoOp? ==> r == reg
    ensures forall h :: h in r.handlers <==> h in reg.handlers && (d.NoOp? || h != d.handler)
    ensures reg.Valid() ==> r.Valid()
  {
    match d
    case NoOp => reg
    case RemoveHandler(h) => reg.(handlers := Without(reg.handlers, h))
  }

  /** The listeners registered for `topic`, in registration order. */
  function OnTopic(hs: seq<Handler>, topic: Topic): (r: seq<Handler>)
    ensures forall x :: x in r <==> x in hs && x.topic == topic
  {
    if |hs| == 0 then []
    else if hs[0].topic == topic then [hs[0]] + OnTopic(hs[1..], topic)
    else OnTopic(hs[1..], topic)
  }

  /**
   * Dispatching an event: the listeners whose callback is invoked. A listener runs for every
   * event of its topic but forwards only a present (truthy) detail.
   */
  function Delivered<T>(reg: Registry, topic: Topic, detail: Option<T>): (r: seq<Handler>)
    ensures detail.None? ==> r == []
    ensures detail.Some? ==> forall h :: h in r <==> h in reg.handlers && h.topic == topic
  {
    if detail.None? then [] else OnTopic(reg.handlers, topic)
  }

  /** A fresh subscription receives every later event of its topic that carries a detail. */
  lemma SubscriberReceives<T>(reg: Registry, topic: Topic, detail: T)
    requires reg.hasWindow
    ensures var s := Subscribe(reg, topic);
            s.disposer.RemoveHandler? && s.disposer.handler in Delivered(s.registry, topic, Some(detail))
  {
  }

  /** Without a window, a subscription is never called back. */
  lemma NoWindowNoDelivery<T>(reg: Registry, topic: Topic, detail: Option<T>)
    requires !reg.hasWindow && reg.handlers == []
    ensures Delivered(Subscribe(reg, topic).registry, topic, detail) == []
  {
  }

  /** Once its disposer ran, a listener is reached by no later dispatch. */
  lemma DisposedNotReached<T>(reg: Registry, h: Handler, topic: Topic, detail: Option<T>)
    ensures h !in Delivered(Dispose(reg, RemoveHandler(h)), topic, detail)
  {
  }

  /** Running a disposer twice is the same as running it once. */
  lemma {:induction false} DisposeIdempotent(reg: Registry, d: Disposer)
    ensures Dispose(Dispose(reg, d), d) == Dispose(reg, d)
  {
    if d.RemoveHandler? {
      WithoutIdempotent(reg.handlers, d.handler);
    }
  }

  lemma {:induction false} WithoutIdempotent(hs: seq<Handler>, h: Handler)
    ensures Without(Without(hs, h), h) == Without(hs, h)
  {
    if |hs| > 0 {
      WithoutIdempotent(hs[1..], h);
      if hs[0] != h {
        assert ([hs[0]] + Without(hs[1..], h))[1..] == Without(hs[1..], h);
      }
    }
  }

  /** Subscribing and then disposing leaves the page's listener list as it was. */
  lemma SubscribeDisposeRoundTrip(reg: Registry, topic: Topic)
    requires reg.Valid()
    ensures var s := Subscribe(reg, topic);
            Dispose(s.registry, s.disposer).handlers == reg.handlers
  {
    if reg.hasWindow {
      var h := Handler(reg.nextId, topic);
      assert h !in reg.handlers;
      WithoutAbsentAppended(reg.handlers, h);
    }
  }

  lemma {:induction false} WithoutAbsentAppended(hs: seq<Handler>, h: Handler)
    requires h !in hs
    ensures Without(hs + [h], h) == hs
  {
    if |hs| == 0 {
      assert [h][1..] == [];
    } else {
      assert (hs + [h])[1..] == hs[1..] + [h];
      WithoutAbsentAppended(hs[1..], h);
      assert hs == [hs[0]] + hs[1..];
    }
  }
}

=== FILE: contact.dfy ===
/**
 * The contact form: where messages are posted, and the submit handler as a two-step state
 * machine (the submit click, then the settled request).
 */
module Contact {
  import opened Base
  import opened Text
  import opened Cms

  const MessagesPath: string := "/contact/messages"

  /** The pattern replacement `/\/$/`: one trailing slash removed, if there is one. */
  function StripTrailingSlash(s: string): (r: string)
    ensures |s| > 0 && s[|s| - 1] == '/' ==> r + "/" == s
    ensures (|s| == 0 || s[|s| - 1] != '/') ==> r == s
  {
    if |s| > 0 && s[|s| - 1] == '/' then s[..|s| - 1] else s
  }

  /** The base the endpoint is built on: the given API URL, else the default one, else "". */
  function ChosenBase(apiUrl: Option<string>, env: Env): string {
    Or(apiUrl.OrElse(""), DefaultSettings(env).apiUrl)
  }

  /**
   * The endpoint: the chosen base without its trailing slash, followed by "/contact/messages";
   * nothing when that base is empty.
   */
  function Endpoint(apiUrl: Option<string>, env: Env): (r: Option<string>)
    ensures r.None? <==> ChosenBase(apiUrl, env) in {"", "/"}
    ensures r.Some? ==> r.value == StripTrailingSlash(ChosenBase(apiUrl, env)) + MessagesPath
  {
    var base := StripTrailingSlash(ChosenBase(apiUrl, env));
    if base == "" then None else Some(base + MessagesPath)
  }

  /** With no URL given and none configured, messages go to the local fallback API. */
  lemma EndpointOfFallback(env: Env)
    requires env.apiUrl.None?
    ensures Endpoint(None, env) == Some(FallbackApiUrl + MessagesPath)
  {
  }

  /** A trailing slash on the base does not change the endpoint. */
  lemma EndpointIgnoresTrailingSlash(base: string, env: Env)
    requires base != "" && base[|base| - 1] != '/'
    ensures Endpoint(Some(base + "/"), env) == Endpoint(Some(base), env)
  {
    assert (base + "/")[..|base|] == base;
  }

  datatype Status = Idle | Sent | Failed

  datatype Form = Form(name: string, email: string, message: string, isSubmitting: bool, status: Status)

  datatype Toast = Toast(title: string, description: string, destructive: bool)

  /** The JSON document posted to the endpoint. */
  datatype Payload = Payload(name: string, email: string, subject: string, message: string)

  datatype Post = Post(url: string, payload: Payload)

  /** The subject line names the sender, or "Someone" when the name is empty. */
  function Subject(name: string): (r: string)
    ensures |r| > 21 && r[..21] == "Website contact from "
    ensures name != "" ==> r[21..] == name
    ensures name == "" ==> r[21..] == "Someone"
  {
    "Website contact from " + Or(name, "Someone")
  }

  /** What a click on "send" does: a request to post, or a toast explaining why nothing was sent. */
  datatype SubmitStep = SubmitStep(form: Form, post: Option<Post>, toast: Option<Toast>)

  /**
   * The first half of `handleSubmit`: without an endpoint nothing is posted and a destructive
   * toast is shown; otherwise the form becomes busy and its fields are posted.
   */
  function Submit(f: Form, endpoint: Option<string>): (r: SubmitStep)
    ensures endpoint.None? ==> r.form == f && r.post.None? && r.toast.Some? && r.toast.value.destructive
    ensures endpoint.Some? ==> r.toast.None? && r.form == f.(isSubmitting := true, status := Idle)
    ensures endpoint.Some? ==> r.post == Some(Post(endpoint.value, Payload(f.name, f.email, Subject(f.name), f.message)))
  {
    match endpoint
    case None => SubmitStep(f, None, Some(Toast("Email disabled", "Contact endpoint is not configured.", true)))
    case Some(url) =>
      SubmitStep(
        f.(isSubmitting := true, status := Idle),
        Some(Post(url, Payload(f.name, f.email, Subject(f.name), f.message))), None)
  }

  /** How the post ends: a response with its status and text, or a rejection. */
  datatype PostOutcome = Answered(status: nat, text: string) | Rejected(thrown: Thrown)

  /** The message a failed post reports: the response text, or the status line when that is empty. */
  function FailureDescription(outcome: PostOutcome): (d: string)
    requires !(outcome.Answered? && IsOk(outcome.status))
    ensures outcome.Answered? && outcome.text != "" ==> d == outcome.text
    ensures outcome.Answered? && outcome.text == "" ==> d == StatusMessage(outcome.status)
    ensures outcome.Rejected? && outcome.thrown.ErrorValue? ==> d == outcome.thrown.message
    ensures outcome == Rejected(OtherValue) ==> d == "Please try again later."
  {
    match outcome
    case Answered(status, text) => Or(text, StatusMessage(status))
    case Rejected(ErrorValue(m)) => m
    case Rejected(OtherValue) => "Please try again later."
  }

  datatype Settled = Settled(form: Form, toast: Toast)

  /**
   * The second half of `handleSubmit`: a 2xx answer clears the three fields and reports
   * success; anything else keeps them and reports the failure; either way the form is idle
   * again.
   */
  function Settle(f: Form, outcome: PostOutcome): (r: Settled)
    ensures !r.form.isSubmitting
    ensures r.form.status == Sent <==> outcome.Answered? && IsOk(outcome.status)
    ensures r.form.status == Sent ==> r.form.name == "" && r.form.email == "" && r.form.message == ""
    ensures r.form.status == Sent ==> !r.toast.destructive
    ensures r.form.status != Sent ==>
              && r.form == f.(isSubmitting := false, status := Failed)
              && r.toast.destructive && r.toast.description == FailureDescription(outcome)
  {
    if outcome.Answered? && IsOk(outcome.status) then
      Settled(
        Form("", "", "", false, Sent),
        Toast("Message sent", "Thanks for reaching out! I will reply as soon as possible.", false))
    else
      Settled(
        f.(isSubmitting := false, status := Failed),
        Toast("Failed to send message", FailureDescription(outcome), true))
  }

  /** A rejected post with an empty body names the status it failed with. */
  lemma EmptyFailureNamesStatus(status: nat)
    requires !IsOk(status)
    ensures var d := Settle(Form("", "", "", true, Idle), Answered(status, "")).toast.description;
            d[..27] == "Request failed with status " && ParseDecimal(d[27..]) == Number(status)
  {
    StatusMessageCarriesStatus(status);
  }

  /** A failed send keeps what the visitor typed, so a retry posts the same message. */
  lemma RetryPostsSameMessage(f: Form, url: string, outcome: PostOutcome)
    requires !(outcome.Answered? && IsOk(outcome.status))
    ensures var first := Submit(f, Some(url));
            var failed := Settle(first.form, outcome);
            Submit(failed.form, Some(url)).post == first.post
  {
  }
}

=== FILE: header.dfy ===
/**
 * The site header: which navigation links are shown, the theme restored on mount, the
 * sun-and-moon drag that picks the theme, and the Dashboard button.
 */
module Header {
  import opened Base
  import opened Cms
  import opened ThemeHook

  datatype NavItem = NavItem(href: string, caption: string)

  const NavItems: seq<NavItem> := [
    NavItem("#home", "Home"),
    NavItem("#about", "About"),
    NavItem("#games", "Games"),
    NavItem("#experience", "Experience"),
    NavItem("#portfolio", "Portfolio")
  ]

  /** Whether the section a link points at is switched on; unknown anchors always are. */
  predicate LinkEnabled(content: Content, href: string) {
    if href == "#home" then content.hero.enabled
    else if href == "#about" then content.about.enabled
    else if href == "#portfolio" then content.portfolio.enabled
    else if href == "#games" then content.utilities.enabled
    else if href == "#experience" then content.experience.enabled
    else true
  }

  /** The links whose sections are enabled, in their original order. */
  function EnabledLinks(items: seq<NavItem>, content: Content): (r: seq<NavItem>)
    ensures forall x :: x in r <==> x in items && LinkEnabled(content, x.href)
    ensures Subsequence(r, items)
  {
    Filter(items, (x: NavItem) => LinkEnabled(content, x.href))
  }

  /** `navItemsToRender`: every link while loading, afterwards only the enabled sections' links. */
  function NavItemsToRender(isLoading: bool, content: Content): (r: seq<NavItem>)
    ensures isLoading ==> r == NavItems
    ensures !isLoading ==> forall x :: x in r <==> x in NavItems && LinkEnabled(content, x.href)
    ensures Subsequence(r, NavItems)
  {
    if isLoading then
      SubsequenceOfItself(NavItems);
      NavItems
    else EnabledLinks(NavItems, content)
  }

  /** With every section on, the loaded header shows the same links as while loading. */
  lemma AllEnabledShowsEveryLink(content: Content)
    requires content.hero.enabled && content.about.enabled && content.portfolio.enabled
    requires content.utilities.enabled && content.experience.enabled
    ensures NavItemsToRender(false, content) == NavItems
  {
    forall i | 0 <= i < |NavItems|
      ensures LinkEnabled(content, NavItems[i].href)
    {
    }
  }

  // ---------------------------------------------------------------------------
  // Theme on the header
  // ---------------------------------------------------------------------------

  /** The key the header itself stores the dragged theme under. */
  const HeaderThemeKey: string := "theme"

  datatype HeaderState = HeaderState(dark: bool, theme: ThemeHook.State)

  /** The key the moon's dragged position is stored under. */
  const MoonPositionKey: string := "moon-pos"

  /**
   * The mount effect parses a non-empty stored moon position before it restores the theme;
   * when that parse throws (malformed JSON, or a value such as "null" that cannot be
   * destructured) the effect stops there. Whether the parse succeeds is `positionParses`.
   */
  predicate PositionAborts(s: ThemeHook.State, positionParses: bool) {
    match Lookup(s.page.storage, MoonPositionKey)
    case Some(saved) => saved != "" && !positionParses
    case None => false
  }

  /**
   * The mount effect's theme half: a stored "dark" or "light" under the header's key is
   * restored, anything else means dark. An aborted effect leaves the initial dark flag and
   * the theme hook untouched.
   */
  function Restore(s: ThemeHook.State, positionParses: bool): (r: HeaderState)
    ensures PositionAborts(s, positionParses) ==> r.dark && r.theme == s
    ensures !PositionAborts(s, positionParses) ==> (r.dark <==> r.theme.theme == Dark)
    ensures !PositionAborts(s, positionParses) && ParseTheme(Lookup(s.page.storage, HeaderThemeKey)).Some? ==>
              r.theme.theme == ParseTheme(Lookup(s.page.storage, HeaderThemeKey)).value
    ensures !PositionAborts(s, positionParses) && ParseTheme(Lookup(s.page.storage, HeaderThemeKey)).None? ==> r.dark
  {
    if PositionAborts(s, positionParses) then HeaderState(true, s)
    else
      var t := match ParseTheme(Lookup(s.page.storage, HeaderThemeKey))
        case Some(saved) => saved
        case None => Dark;
      HeaderState(t == Dark, SetTheme(s, t))
  }

  /** A screen rectangle, as `getBoundingClientRect` reports it. */
  datatype Rect = Rect(left: int, top: int, right: int, bottom: int)

  /** The strict overlap test the drag handler applies to the moon and the sun. */
  predicate Overlap(moon: Rect, sun: Rect) {
    && moon.right > sun.left && moon.left < sun.right
    && moon.bottom > sun.top && moon.top < sun.bottom
  }

  /** Overlap does not depend on which rectangle is the moon. */
  lemma OverlapSymmetric(a: Rect, b: Rect)
    ensures Overlap(a, b) <==> Overlap(b, a)
  {
  }

  /** Rectangles that only touch along an edge do not overlap. */
  lemma TouchingIsNotOverlap(moon: Rect, sun: Rect)
    requires moon.right == sun.left
    ensures !Overlap(moon, sun)
  {
  }

  /**
   * `handleDrag`: without both elements nothing happens; otherwise a moon over the sun means
   * dark, anywhere else light, and the choice is stored under the header's key.
   */
  function HandleDrag(h: HeaderState, rects: Option<(Rect, Rect)>): (r: HeaderState)
    ensures rects.None? ==> r == h
    ensures rects.Some? ==> (r.dark <==> Overlap(rects.value.0, rects.value.1))
    ensures rects.Some? ==> (r.theme.theme == Dark <==> r.dark)
    ensures rects.Some? ==> Lookup(r.theme.page.storage, HeaderThemeKey) == Some(Name(r.theme.theme))
  {
    match rects
    case None => h
    case Some((moon, sun)) =>
      var t := if Overlap(moon, sun) then Dark else Light;
      var applied := SetTheme(h.theme, t);
      var page := applied.page.(storage := applied.page.storage[HeaderThemeKey := Name(t)]);
      HeaderState(t == Dark, ThemeHook.State(t, page))
  }

  /**
   * The theme a drag settles on is the one the header restores on the next visit, unless the
   * stored moon position fails to parse.
   */
  lemma DragThenRestore(h: HeaderState, moon: Rect, sun: Rect, positionParses: bool)
    ensures !PositionAborts(HandleDrag(h, Some((moon, sun))).theme, positionParses) ==>
              Restore(HandleDrag(h, Some((moon, sun))).theme, positionParses).theme.theme == HandleDrag(h, Some((moon, sun))).theme.theme
  {
    ParseName(HandleDrag(h, Some((moon, sun))).theme.theme);
  }

  /** In a browser the dragged theme is also the theme hook's stored preference. */
  lemma DragAlsoSetsPreference(h: HeaderState, moon: Rect, sun: Rect, prefersDark: Option<bool>)
    requires h.theme.page.hasWindow
    ensures Init(HandleDrag(h, Some((moon, sun))).theme.page, prefersDark).theme == (if Overlap(moon, sun) then Dark else Light)
  {
    var t := if Overlap(moon, sun) then Dark else Light;
    var storage := HandleDrag(h, Some((moon, sun))).theme.page.storage;
    assert Lookup(storage, StorageKey) == Some(Name(t));
    ParseName(t);
  }

  // ---------------------------------------------------------------------------
  // Dashboard button
  // ---------------------------------------------------------------------------

  /** The button appears once loading is over, and only while the contact section is enabled. */
  predicate DashboardShown(isLoading: bool, content: Content) {
    !isLoading && content.contact.enabled
  }

  /**
   * Clicking Dashboard: the button is disabled while settings load, and `openExternal` opens
   * nothing for an empty URL or outside a browser. The result is the URL opened, if any.
   */
  function DashboardClick(isLoading: bool, settingsLoading: bool, content: Content, settings: Settings, hasWindow: bool): (url: Option<string>)
    ensures url.Some? <==>
              DashboardShown(isLoading, content) && !settingsLoading && settings.cmsUrl != "" && hasWindow
    ensures url.Some? ==> url.value == settings.cmsUrl
  {
    if !DashboardShown(isLoading, content) || settingsLoading then None
    else if settings.cmsUrl == "" || !hasWindow then None
    else Some(settings.cmsUrl)
  }

  /** While the page loads every link shows but the Dashboard cannot be opened. */
  lemma LoadingHeader(content: Content, settings: Settings, settingsLoading: bool, hasWindow: bool)
    ensures NavItemsToRender(true, content) == NavItems
    ensures DashboardClick(true, settingsLoading, content, settings, hasWindow).None?
  {
  }
}

=== FILE: image.dfy ===
/**
 * The progressive image: it shows the fallback at once, preloads the primary source in the
 * background and swaps it in when it arrives. Each effect run owns one preload; the run's
 * cleanup cancels it, so a preload finishing for an older run changes nothing.
 */
module ProgressiveImage {
  import opened Base

  /**
   * `live` is the run whose preload is still wanted (its cleanup has not run); runs are
   * numbered by `runs`, the number of preloads started so far.
   */
  datatype Image = Image(
    primary: Option<string>, fallback: string, source: string, isLoaded: bool,
    live: Option<nat>, runs: nat)

  datatype Event =
    | PropsChanged(primary: Option<string>, fallback: string)
    | PreloadLoaded(run: nat)
    | PreloadFailed(run: nat)
    | ImgLoaded
    | ImgFailed
    | Unmount

  /** A primary source worth preloading: present, non-empty and not the fallback itself. */
  predicate WorthPreloading(primary: Option<string>, fallback: string) {
    primary.Some? && primary.value != "" && primary.value != fallback
  }

  /** The image shows one of its two sources, and only a worthwhile preload is live. */
  ghost predicate Valid(m: Image) {
    && (m.source == m.fallback || (m.primary.Some? && m.source == m.primary.value))
    && (m.live.Some? ==> m.live.value < m.runs && WorthPreloading(m.primary, m.fallback))
  }

  /**
   * The effect for the current props: the previous run is cancelled, the fallback is shown
   * and not yet loaded, and a preload starts only for a worthwhile primary source.
   */
  function RunEffect(m: Image, primary: Option<string>, fallback: string): (r: Image)
    ensures Valid(r) && r.source == fallback && !r.isLoaded
    ensures r.primary == primary && r.fallback == fallback
    ensures r.live.Some? <==> WorthPreloading(primary, fallback)
    ensures r.live.Some? ==> r.live.value == m.runs
    ensures r.runs >= m.runs
  {
    if WorthPreloading(primary, fallback) then
      Image(primary, fallback, fallback, false, Some(m.runs), m.runs + 1)
    else
      Image(primary, fallback, fallback, false, None, m.runs)
  }

  /** The first render and the mount effect. */
  function Mount(primary: Option<string>, fallback: string): (m: Image)
    ensures Valid(m) && m.source == fallback && !m.isLoaded
  {
    RunEffect(Image(primary, fallback, fallback, false, None, 0), primary, fallback)
  }

  /**
   * One event. A preload only acts while its run is live; the image element's own load marks
   * the picture loaded, and its error falls back and marks it loaded too.
   */
  function Apply(m: Image, e: Event): (r: Image)
    requires Valid(m)
    ensures Valid(r)
    ensures e.PreloadLoaded? && m.live == Some(e.run) ==> r.source == m.primary.value && r.source != m.fallback
    ensures e.PreloadFailed? && m.live == Some(e.run) ==> r.source == m.fallback
    ensures (e.PreloadLoaded? || e.PreloadFailed?) && m.live != Some(e.run) ==> r == m
    ensures e.ImgLoaded? ==> r.isLoaded && r.source == m.source
    ensures e.ImgFailed? ==> r.isLoaded && r.source == m.fallback
    ensures e.Unmount? ==> r.live.None? && r.source == m.source
    ensures e.PropsChanged? && e.primary == m.primary && e.fallback == m.fallback ==> r == m
    ensures e.PropsChanged? && (e.primary != m.primary || e.fallback != m.fallback) ==>
              && r.primary == e.primary && r.fallback == e.fallback
              && r.source == e.fallback && !r.isLoaded
              && (r.live.Some? <==> WorthPreloading(e.primary, e.fallback))
              && (r.live.Some? ==> r.live.value == m.runs)
  {
    match e
    case PropsChanged(primary, fallback) =>
      if primary == m.primary && fallback == m.fallback then m
      else RunEffect(m, primary, fallback)
    case PreloadLoaded(run) =>
      if m.live == Some(run) then m.(source := m.primary.value) else m
    case PreloadFailed(run) =>
      if m.live == Some(run) then m.(source := m.fallback) else m
    case ImgLoaded => m.(isLoaded := true)
    case ImgFailed => m.(source := m.fallback, isLoaded := true)
    case Unmount => m.(live := None)
  }

  function Run(m: Image, events: seq<Event>): (r: Image)
    requires Valid(m)
    ensures Valid(r)
    decreases |events|
  {
    if |events| == 0 then m else Run(Apply(m, events[0]), events[1..])
  }

  /** A preload that finishes for any run but the live one changes nothing. */
  lemma StalePreloadIsIgnored(m: Image, run: nat)
    requires Valid(m) && m.live != Some(run)
    ensures Apply(m, PreloadLoaded(run)) == m
    ensures Apply(m, PreloadFailed(run)) == m
  {
  }

  /** Changing the props cancels the running preload: its completion no longer swaps anything in. */
  lemma NewPropsCancelPreload(m: Image, primary: Option<string>, fallback: string)
    requires Valid(m) && m.live.Some?
    requires primary != m.primary || fallback != m.fallback
    ensures var r := Apply(m, PropsChanged(primary, fallback));
            Apply(r, PreloadLoaded(m.live.value)) == r
  {
  }

  /** The live preload completing shows the primary source. */
  lemma LivePreloadShowsPrimary(primary: string, fallback: string)
    requires primary != "" && primary != fallback
    ensures Apply(Mount(Some(primary), fallback), PreloadLoaded(0)).source == primary
  {
  }

  /** After unmounting, no preload changes the image. */
  lemma {:induction false} UnmountedIgnoresPreloads(m: Image, events: seq<Event>)
    requires Valid(m) && m.live.None?
    requires forall i :: 0 <= i < |events| ==> events[i].PreloadLoaded? || events[i].PreloadFailed?
    ensures Run(m, events) == m
    decreases |events|
  {
    if |events| > 0 {
      UnmountedIgnoresPreloads(Apply(m, events[0]), events[1..]);
    }
  }

  /**
   * Without a worthwhile primary source the fallback is all the image ever shows, whatever
   * loads, errors and preload completions follow.
   */
  lemma {:induction false} NoPrimaryShowsFallback(m: Image, events: seq<Event>)
    requires Valid(m) && !WorthPreloading(m.primary, m.fallback) && m.source == m.fallback
    requires forall i :: 0 <= i < |events| ==> !events[i].PropsChanged?
    ensures Run(m, events).source == m.fallback
    decreases |events|
  {
    if |events| > 0 {
      var next := Apply(m, events[0]);
      assert next.primary == m.primary && next.fallback == m.fallback && next.source == m.fallback;
      NoPrimaryShowsFallback(next, events[1..]);
    }
  }
}

=== FILE: playground.dfy ===
/**
 * How the utilities section turns CMS cards into playground tiles: recognising the built-in
 * widgets by id, deriving each tile's category and summary, and choosing its preview image.
 */
module Playground {
  import opened Base
  import opened Text
  import opened Cms

  /** The interactive widgets the section knows how to open. */
  datatype PlaygroundId = ChessGame | Calculator | SudokuGame | PomodoroTimer | SketchPad

  datatype Category = Game | Utility

  function IdName(p: PlaygroundId): string {
    match p
    case ChessGame => "chess"
    case Calculator => "calculator"
    case SudokuGame => "sudoku"
    case PomodoroTimer => "pomodoro"
    case SketchPad => "sketch"
  }

  /** The per-widget metadata table. */
  datatype Meta = Meta(summary: string, defaultCategory: Category, preview: string)

  function MetaOf(p: PlaygroundId): Meta {
    match p
    case ChessGame => Meta("Classic strategy", Game, "/game-chess-lab.jpg")
    case Calculator => Meta("Math scratchpad", Utility, "/utility-quick-calculator.jpg")
    case SudokuGame => Meta("Logic puzzle", Game, "/game-sudoku-studio.jpg")
    case PomodoroTimer => Meta("Focus rhythm", Utility, "/utility-pomodoro-timer.jpg")
    case SketchPad => Meta("Creative sandbox", Utility, "/utility-pixel-sketch.jpg")
  }

  const CardPlaceholderImage: string := "/placeholder.svg?height=160&width=280&query=tool"

  /** `isPlaygroundId`: recognises exactly the keys of the metadata table. */
  function ParsePlaygroundId(value: Option<string>): (r: Option<PlaygroundId>)
    ensures r.Some? ==> value == Some(IdName(r.value))
    ensures r.None? ==> value.None? || forall p: PlaygroundId :: value.value != IdName(p)
  {
    match value
    case None => None
    case Some(v) =>
      if v == "chess" then Some(ChessGame)
      else if v == "calculator" then Some(Calculator)
      else if v == "sudoku" then Some(SudokuGame)
      else if v == "pomodoro" then Some(PomodoroTimer)
      else if v == "sketch" then Some(SketchPad)
      else None
  }

  /** Every widget's own id is recognised as that widget. */
  lemma ParseIdName(p: PlaygroundId)
    ensures ParsePlaygroundId(Some(IdName(p))) == Some(p)
  {
  }

  /**
   * `deriveCategory`: an empty or missing tag keeps the fallback; otherwise the trimmed,
   * upper-cased tag chooses Game or Utility when it spells one of them, else the fallback.
   */
  function DeriveCategory(tag: Option<string>, fallback: Category): (r: Category)
    ensures r != fallback ==> tag.Some? && ToUpper(Trim(tag.value)) in {"GAME", "UTILITY"}
    ensures tag.Some? && ToUpper(Trim(tag.value)) == "GAME" ==> r == Game
    ensures tag.Some? && ToUpper(Trim(tag.value)) == "UTILITY" ==> r == Utility
  {
    match tag
    case None => fallback
    case Some(t) =>
      if t == "" then fallback
      else
        var normalized := ToUpper(Trim(t));
        if normalized == "GAME" then Game
        else if normalized == "UTILITY" then Utility
        else fallback
  }

  /** Case and surrounding white space in a tag do not matter: any spelling of "game" means Game. */
  lemma CategoryIgnoresCaseAndPadding(front: string, word: string, back: string, fallback: Category)
    requires AllSpace(front) && AllSpace(back)
    requires ToUpper(word) == "GAME"
    ensures DeriveCategory(Some(front + word + back), fallback) == Game
  {
    var upper := ToUpper(word);
    assert upper[0] == UpperAscii(word[0]) && upper[3] == UpperAscii(word[3]);
    UpperKeepsSpace(word[0]);
    UpperKeepsSpace(word[3]);
    TrimPadded(front, word, back);
  }

  const SummaryLimit: nat := 80
  const SummaryCut: nat := 77

  /**
   * The long-description summary: the first 77 characters with trailing white space removed,
   * then an ellipsis.
   */
  function Truncate(trimmed: string): (r: string)
    requires |trimmed| > SummaryLimit
    ensures 1 <= |r| <= SummaryCut + 1 && r[|r| - 1] == '…'
    ensures r[..|r| - 1] == trimmed[..|r| - 1]
    ensures AllSpace(trimmed[|r| - 1..SummaryCut])
    ensures |r| == 1 || !IsSpace(r[|r| - 2])
  {
    var kept := TrimEnd(trimmed[..SummaryCut]);
    assert trimmed[..SummaryCut][|kept|..] == trimmed[|kept|..SummaryCut];
    var r := kept + "…";
    assert r[..|r| - 1] == kept;
    r
  }

  /**
   * `deriveSummary`: a non-empty fallback wins; otherwise nothing for a blank description,
   * the trimmed description when it has at most 80 characters, else its truncation.
   */
  function DeriveSummary(description: string, fallback: Option<string>): (r: Option<string>)
    ensures fallback.Some? && fallback.value != "" ==> r == fallback
    ensures (fallback.None? || fallback.value == "") ==>
              && (r.None? <==> AllSpace(description))
              && (r.Some? ==> 0 < |r.value| <= SummaryLimit)
    ensures (fallback.None? || fallback.value == "") && |Trim(description)| <= SummaryLimit && r.Some? ==>
              r.value == Trim(description)
    ensures (fallback.None? || fallback.value == "") && |Trim(description)| > SummaryLimit ==>
              r == Some(Truncate(Trim(description)))
  {
    if fallback.Some? && fallback.value != "" then fallback
    else
      var trimmed := Trim(description);
      if trimmed == "" then None
      else if |trimmed| <= SummaryLimit then Some(trimmed)
      else Some(Truncate(trimmed))
  }

  /** A short description with no padding is its own summary. */
  lemma ShortDescriptionIsItsSummary(description: string)
    requires 0 < |description| <= SummaryLimit
    requires !IsSpace(description[0]) && !IsSpace(description[|description| - 1])
    ensures DeriveSummary(description, None) == Some(description)
  {
    TrimOfTrimmed(description);
  }

  /** A playground tile. */
  datatype PlaygroundItem = PlaygroundItem(
    id: string, interactiveId: Option<PlaygroundId>, title: string, category: Category,
    summary: Option<string>, description: string, preview: string, tag: Option<string>)

  /** The widget's own preview image, else the card placeholder. */
  function DefaultPreview(interactiveId: Option<PlaygroundId>): string {
    if interactiveId.Some? then MetaOf(interactiveId.value).preview else CardPlaceholderImage
  }

  /**
   * The preview: what the resolver makes of the card's media, offered the card's own image URL
   * (else the default preview) as the fallback; the default preview when nothing resolves.
   */
  function Preview(item: CardItem, interactiveId: Option<PlaygroundId>, resolve: MediaResolver): (r: string)
    ensures var offered := Some(item.imageUrl.OrElse(DefaultPreview(interactiveId)));
            && (resolve(item.image, offered).Some? ==> r == resolve(item.image, offered).value)
            && (resolve(item.image, offered).None? ==> r == DefaultPreview(interactiveId))
  {
    var metaPreview := if interactiveId.Some? then Some(MetaOf(interactiveId.value).preview) else None;
    var preferred := if item.imageUrl.Some? then item.imageUrl.value else metaPreview.OrElse(CardPlaceholderImage);
    var resolved := resolve(item.image, Some(preferred));
    resolved.OrElse(metaPreview.OrElse(CardPlaceholderImage))
  }

  /**
   * A tag spelling GAME or UTILITY decides the category; otherwise a built-in widget takes its
   * table entry's default and a plain card is a Utility.
   */
  function TileCategory(tag: Option<string>, interactiveId: Option<PlaygroundId>): (r: Category)
    ensures tag.Some? && ToUpper(Trim(tag.value)) == "GAME" ==> r == Game
    ensures tag.Some? && ToUpper(Trim(tag.value)) == "UTILITY" ==> r == Utility
    ensures (tag.None? || ToUpper(Trim(tag.value)) !in {"GAME", "UTILITY"}) && interactiveId.None? ==> r == Utility
    ensures (tag.None? || ToUpper(Trim(tag.value)) !in {"GAME", "UTILITY"}) && interactiveId.Some? ==>
              r == MetaOf(interactiveId.value).defaultCategory
    ensures interactiveId.None? && (tag.None? || tag.value == "") ==> r == Utility
    ensures interactiveId.Some? && (tag.None? || tag.value == "") ==> r == MetaOf(interactiveId.value).defaultCategory
  {
    var fallback := if interactiveId.Some? then MetaOf(interactiveId.value).defaultCategory else Utility;
    assert tag.Some? && tag.value == "" ==> |ToUpper(Trim(tag.value))| == 0;
    DeriveCategory(tag, fallback)
  }

  /** A built-in widget's table summary always wins over the description. */
  function TileSummary(description: string, interactiveId: Option<PlaygroundId>): (r: Option<string>)
    ensures interactiveId.Some? ==> r == Some(MetaOf(interactiveId.value).summary)
    ensures interactiveId.None? ==> r == DeriveSummary(description, None)
  {
    if interactiveId.Some? then
      var summary := MetaOf(interactiveId.value).summary;
      MetaSummaryNonEmpty(interactiveId.value);
      DeriveSummary(description, Some(summary))
    else
      DeriveSummary(description, None)
  }

  lemma MetaSummaryNonEmpty(p: PlaygroundId)
    ensures MetaOf(p).summary != ""
  {
    assert |MetaOf(p).summary| > 0;
  }

  /**
   * One tile. A card without an id gets "tool-<position>"; a built-in widget keeps its table
   * summary; the category follows the card's tag, else the widget's default, else Utility.
   */
  function BuildItem(item: CardItem, index: nat, resolve: MediaResolver): (r: PlaygroundItem)
    ensures r.title == item.title && r.description == item.description && r.tag == item.tag
    ensures item.id.Some? ==> r.id == item.id.value
    ensures item.id.None? ==> r.id == "tool-" + NatToString(index)
    ensures r.interactiveId.Some? ==> item.id == Some(IdName(r.interactiveId.value))
    ensures r.interactiveId.Some? ==> r.summary == Some(MetaOf(r.interactiveId.value).summary)
    ensures r.interactiveId.None? && (item.tag.None? || item.tag.value == "") ==> r.category == Utility
    ensures r.category == TileCategory(item.tag, r.interactiveId)
    ensures r.interactiveId.None? ==> r.summary == DeriveSummary(item.description, None)
    ensures r.interactiveId == ParsePlaygroundId(item.id) && r.preview == Preview(item, r.interactiveId, resolve)
  {
    var interactiveId := ParsePlaygroundId(item.id);
    PlaygroundItem(
      item.id.OrElse("tool-" + NatToString(index)), interactiveId, item.title,
      TileCategory(item.tag, interactiveId), TileSummary(item.description, interactiveId),
      item.description, Preview(item, interactiveId, resolve), item.tag)
  }

  /** `buildPlaygroundItems`: one tile per card, in order, the tile built from the card and its position. */
  function BuildPlaygroundItems(items: seq<CardItem>, resolve: MediaResolver): (r: seq<PlaygroundItem>)
    ensures |r| == |items|
    ensures forall i :: 0 <= i < |r| ==> r[i] == BuildItem(items[i], i, resolve)
  {
    seq(|items|, i requires 0 <= i < |items| => BuildItem(items[i], i, resolve))
  }

  /** Cards at different positions get different fallback ids. */
  lemma PositionalIdsDistinct(i: nat, j: nat)
    requires i != j
    ensures "tool-" + NatToString(i) != "tool-" + NatToString(j)
  {
    var a, b := "tool-" + NatToString(i), "tool-" + NatToString(j);
    assert a[5..] == NatToString(i) && b[5..] == NatToString(j);
  }
}

=== FILE: pomodoro.dfy ===
/**
 * The pomodoro widget: a countdown that alternates between a 25-minute focus period and a
 * 5-minute break. The one-second interval becomes the `Tick` event, delivered only while the
 * timer runs.
 */
module Pomodoro {

  datatype Mode = Focus | Break

  const FocusSeconds: nat := 25 * 60
  const BreakSeconds: nat := 5 * 60

  function Duration(m: Mode): nat {
    if m == Focus then FocusSeconds else BreakSeconds
  }

  function Other(m: Mode): Mode {
    if m == Focus then Break else Focus
  }

  datatype Timer = Timer(running: bool, mode: Mode, timeLeft: int)

  /** What every reachable timer satisfies: between one second and the full period remain. */
  ghost predicate Valid(t: Timer) {
    1 <= t.timeLeft <= Duration(t.mode)
  }

  /** The opening timer, and what `reset` returns to: paused at the start of a focus period. */
  function Initial(): (t: Timer)
    ensures Valid(t) && !t.running && t.mode == Focus && t.timeLeft == Duration(Focus)
  {
    Timer(false, Focus, FocusSeconds)
  }

  /**
   * One interval callback: above one second it counts down; at one second or below the mode
   * switches and the new mode's full period starts.
   */
  function Tick(t: Timer): (r: Timer)
    ensures !t.running ==> r == t
    ensures t.running && t.timeLeft > 1 ==> r == t.(timeLeft := t.timeLeft - 1)
    ensures t.running && t.timeLeft <= 1 ==> r == Timer(true, Other(t.mode), Duration(Other(t.mode)))
    ensures Valid(t) ==> Valid(r)
  {
    if !t.running then t
    else if t.timeLeft <= 1 then
      var next := Other(t.mode);
      Timer(true, next, Duration(next))
    else
      t.(timeLeft := t.timeLeft - 1)
  }

  /** Start/pause. */
  function Toggle(t: Timer): (r: Timer)
    ensures r.running == !t.running && r.mode == t.mode && r.timeLeft == t.timeLeft
  {
    t.(running := !t.running)
  }

  /** The mode button: the other mode, restarted at its full period by the mode effect. */
  function SwitchMode(t: Timer): (r: Timer)
    ensures Valid(r) && r.running == t.running
    ensures r.mode != t.mode && r.timeLeft == Duration(r.mode)
  {
    var next := Other(t.mode);
    Timer(t.running, next, Duration(next))
  }

  function Ticks(t: Timer, n: nat): Timer
    decreases n
  {
    if n == 0 then t else Ticks(Tick(t), n - 1)
  }

  /** Fewer ticks than the seconds left only count down. */
  lemma {:induction false} CountDown(t: Timer, k: nat)
    requires t.running && k < t.timeLeft
    ensures Ticks(t, k) == t.(timeLeft := t.timeLeft - k)
    decreases k
  {
    if k > 0 {
      CountDown(Tick(t), k - 1);
    }
  }

  /** As many ticks as seconds left end the period: the other mode starts in full. */
  lemma {:induction false} PeriodEnds(t: Timer)
    requires t.running && t.timeLeft >= 1
    ensures Ticks(t, t.timeLeft as nat) == Timer(true, Other(t.mode), Duration(Other(t.mode)))
    decreases t.timeLeft
  {
    var n: nat := t.timeLeft as nat;
    assert Ticks(t, n) == Ticks(Tick(t), n - 1);
    if t.timeLeft > 1 {
      PeriodEnds(Tick(t));
    }
  }

  lemma {:induction false} TicksSplit(t: Timer, a: nat, b: nat)
    ensures Ticks(t, a + b) == Ticks(Ticks(t, a), b)
    decreases a
  {
    if a > 0 {
      TicksSplit(Tick(t), a - 1, b);
    }
  }

  /** A running timer at the start of a focus period returns there after 1800 ticks. */
  lemma FullCycle()
    ensures Ticks(Timer(true, Focus, FocusSeconds), FocusSeconds + BreakSeconds) == Timer(true, Focus, FocusSeconds)
  {
    var t := Timer(true, Focus, FocusSeconds);
    TicksSplit(t, FocusSeconds, BreakSeconds);
    PeriodEnds(t);
    PeriodEnds(Timer(true, Break, BreakSeconds));
  }
}

=== FILE: portfolio.dfy ===
/**
 * How the portfolio section turns CMS cards into project cards: URL normalisation, the
 * comma-separated technology list, the link found in a description, and the per-card
 * fallbacks.
 */
module Portfolio {
  import opened Base
  import opened Text
  import opened Cms

  const ProjectPlaceholderImage: string := "/placeholder.svg?height=160&width=280&query=project"

  /** The pattern `^https?:\/\/` with the `i` flag. */
  predicate HasScheme(s: string) {
    StartsWithNoCase(s, "http://") || StartsWithNoCase(s, "https://")
  }

  /**
   * `normalizeUrl`: nothing for a missing, empty or blank value; otherwise the trimmed value,
   * prefixed with "https://" unless it already names http or https in any letter case.
   */
  function NormalizeUrl(value: Option<string>): (r: Option<string>)
    ensures r.None? <==> value.None? || AllSpace(value.value)
    ensures r.Some? ==> HasScheme(r.value)
    ensures r.Some? && HasScheme(Trim(value.value)) ==> r.value == Trim(value.value)
    ensures r.Some? && !HasScheme(Trim(value.value)) ==> r.value == "https://" + Trim(value.value)
  {
    match value
    case None => None
    case Some(v) =>
      if v == "" then None
      else
        var trimmed := Trim(v);
        if trimmed == "" then None
        else if HasScheme(trimmed) then Some(trimmed)
        else
          var r := "https://" + trimmed;
          assert r[..8] == "https://";
          Some(r)
  }

  /** Normalising a normalised URL changes nothing. */
  lemma NormalizeUrlIdempotent(value: Option<string>)
    requires NormalizeUrl(value).Some?
    ensures NormalizeUrl(NormalizeUrl(value)) == NormalizeUrl(value)
  {
    var trimmed := Trim(value.value);
    var r := NormalizeUrl(value).value;
    if !HasScheme(trimmed) {
      assert r == "https://" + trimmed;
      assert r[0] == 'h' && r[|r| - 1] == trimmed[|trimmed| - 1];
    }
    TrimOfTrimmed(r);
  }

  // ---------------------------------------------------------------------------
  // Technologies
  // ---------------------------------------------------------------------------

  /** A technology name as the list keeps it: non-empty, with no space at either end. */
  predicate Clean(w: string) {
    w != "" && !IsSpace(w[0]) && !IsSpace(w[|w| - 1])
  }

  /** Each part trimmed, empty parts dropped, order kept. */
  function Cleaned(parts: seq<string>): (r: seq<string>)
    ensures |r| <= |parts|
    ensures forall i :: 0 <= i < |r| ==> Clean(r[i])
  {
    if |parts| == 0 then []
    else
      var t := Trim(parts[0]);
      TrimIdempotent(parts[0]);
      var rest := Cleaned(parts[1..]);
      if t == "" then rest
      else
        ConsClean(t, rest);
        [t] + rest
  }

  lemma ConsClean(t: string, rest: seq<string>)
    requires t == Trim(t) && t != ""
    requires forall i :: 0 <= i < |rest| ==> Clean(rest[i])
    ensures forall i :: 0 <= i < |rest| + 1 ==> Clean(([t] + rest)[i])
  {
    assert Clean(t);
  }

  /**
   * Cleaning one more part appends that part trimmed, or nothing when it is blank: the list is
   * the parts trimmed, in order, with the blank ones dropped.
   */
  lemma {:induction false} CleanedSnoc(parts: seq<string>, p: string)
    ensures Cleaned(parts + [p]) == Cleaned(parts) + (if Trim(p) == "" then [] else [Trim(p)])
    decreases |parts|
  {
    if |parts| == 0 {
      assert parts + [p] == [p];
      assert [p][1..] == parts;
    } else {
      assert (parts + [p])[0] == parts[0];
      assert (parts + [p])[1..] == parts[1..] + [p];
      CleanedSnoc(parts[1..], p);
    }
  }

  /** A list of parts that are already clean is left as it is. */
  lemma {:induction false} CleanedKeepsClean(parts: seq<string>)
    requires forall i :: 0 <= i < |parts| ==> Clean(parts[i])
    ensures Cleaned(parts) == parts
    decreases |parts|
  {
    if |parts| > 0 {
      TrimOfTrimmed(parts[0]);
      assert forall i :: 0 <= i < |parts| - 1 ==> parts[1..][i] == parts[i + 1];
      CleanedKeepsClean(parts[1..]);
    }
  }

  /** The technologies of a card: its tag split at commas, trimmed, without empty entries. */
  function Technologies(tag: Option<string>): (r: seq<string>)
    ensures tag.None? || tag.value == "" ==> r == []
    ensures forall i :: 0 <= i < |r| ==> Clean(r[i]) && Trim(r[i]) == r[i]
  {
    if tag.None? || tag.value == "" then []
    else
      var r := Cleaned(Split(tag.value, ','));
      CleanIsTrimmed(r);
      r
  }

  lemma CleanIsTrimmed(names: seq<string>)
    requires forall i :: 0 <= i < |names| ==> Clean(names[i])
    ensures forall i :: 0 <= i < |names| ==> Trim(names[i]) == names[i]
  {
    forall i | 0 <= i < |names|
      ensures Trim(names[i]) == names[i]
    {
      TrimOfTrimmed(names[i]);
    }
  }

  lemma JoinOfSeveralIsNotEmpty(parts: seq<string>, sep: char)
    requires |parts| >= 1
    ensures |parts| > 1 ==> sep in Join(parts, sep)
  {
    if |parts| > 1 {
      var j := Join(parts, sep);
      assert j == parts[0] + [sep] + Join(parts[1..], sep);
      assert j[|parts[0]|] == sep;
    }
  }

  /**
   * The technologies of a tag made of comma-free parts are exactly those parts trimmed, in order,
   * with the blank ones dropped.
   */
  lemma TechnologiesOfParts(parts: seq<string>)
    requires |parts| >= 1
    requires forall i :: 0 <= i < |parts| ==> ',' !in parts[i]
    ensures Technologies(Some(Join(parts, ','))) == Cleaned(parts)
  {
    SplitJoin(parts, ',');
    if Join(parts, ',') == "" {
      JoinOfSeveralIsNotEmpty(parts, ',');
      assert parts == [""];
      assert Trim("") == "";
    }
  }

  /** Joining clean technology names with commas and splitting again gives the names back. */
  lemma TechnologiesRoundTrip(names: seq<string>)
    requires |names| >= 1
    requires forall i :: 0 <= i < |names| ==> Clean(names[i]) && ',' !in names[i]
    ensures Technologies(Some(Join(names, ','))) == names
  {
    TechnologiesOfParts(names);
    CleanedKeepsClean(names);
  }

  // ---------------------------------------------------------------------------
  // The link in a description: the first match of /https?:\/\/[\S)]+/
  // ---------------------------------------------------------------------------

  predicate StartsAt(s: string, i: nat, p: string) {
    i + |p| <= |s| && s[i..i + |p|] == p
  }

  /** The scheme length of a link starting at `i` ("https://" tried first), or 0 when none starts there. */
  function SchemeAt(s: string, i: nat): (n: nat)
    ensures n == 0 || n == 7 || n == 8
    ensures n > 0 ==> i + n < |s| && forall j :: i <= j <= i + n ==> !IsSpace(s[j])
  {
    if StartsAt(s, i, "https://") && i + 8 < |s| && !IsSpace(s[i + 8]) then
      LiteralHasNoSpace(s, i, "https://");
      8
    else if StartsAt(s, i, "http://") && i + 7 < |s| && !IsSpace(s[i + 7]) then
      LiteralHasNoSpace(s, i, "http://");
      7
    else 0
  }

  lemma LiteralHasNoSpace(s: string, i: nat, p: string)
    requires p == "https://" || p == "http://"
    requires StartsAt(s, i, p)
    ensures forall j :: i <= j < i + |p| ==> !IsSpace(s[j])
  {
    forall j | i <= j < i + |p|
      ensures !IsSpace(s[j])
    {
      assert s[j] == s[i..i + |p|][j - i] == p[j - i];
    }
  }

  /** The length of the run of non-space characters starting at `j`. */
  function NonSpaceRun(s: string, j: nat): (n: nat)
    requires j <= |s|
    ensures j + n <= |s|
    ensures forall k :: j <= k < j + n ==> !IsSpace(s[k])
    ensures j + n == |s| || IsSpace(s[j + n])
    decreases |s| - j
  {
    if j == |s| || IsSpace(s[j]) then 0 else 1 + NonSpaceRun(s, j + 1)
  }

  /** The first position at or after `from` where a link starts, or -1. */
  function FirstLink(s: string, from: nat): (k: int)
    ensures k == -1 || from <= k < |s|
    ensures k >= 0 ==> SchemeAt(s, k) > 0
    ensures forall j :: from <= j < |s| && (k < 0 || j < k) ==> SchemeAt(s, j) == 0
    decreases |s| - from
  {
    if from >= |s| then -1
    else if SchemeAt(s, from) > 0 then from
    else FirstLink(s, from + 1)
  }

  /**
   * The first link in a text: it starts at the leftmost position where "http://" or "https://"
   * is followed by a non-space character, and runs to the next white space or the end.
   */
  function FindLink(s: string): (r: Option<string>)
    ensures r.None? <==> forall j :: 0 <= j < |s| ==> SchemeAt(s, j) == 0
    ensures r.Some? ==>
              var k := FirstLink(s, 0);
              0 <= k && SchemeAt(s, k) > 0 && r.value == s[k..k + LinkLength(s, k)]
  {
    var k := FirstLink(s, 0);
    if k < 0 then None else Some(s[k..k + LinkLength(s, k)])
  }

  /** The length of the link starting at `k`: its scheme and the non-space run after it. */
  function LinkLength(s: string, k: nat): (n: nat)
    requires SchemeAt(s, k) > 0
    ensures k + n <= |s| && n > SchemeAt(s, k)
    ensures forall j :: k <= j < k + n ==> !IsSpace(s[j])
    ensures k + n == |s| || IsSpace(s[k + n])
  {
    var scheme := SchemeAt(s, k);
    var run := NonSpaceRun(s, k + scheme);
    assert run > 0;
    scheme + run
  }

  /** A link standing alone in a text is found whole. */
  lemma FindsLoneLink(body: string)
    requires |body| > 0 && forall i :: 0 <= i < |body| ==> !IsSpace(body[i])
    ensures FindLink("https://" + body) == Some("https://" + body)
  {
    var s := "https://" + body;
    assert s[..8] == "https://";
    assert StartsAt(s, 0, "https://");
    assert FirstLink(s, 0) == 0;
    assert s[8] == body[0];
    assert forall k :: 8 <= k < |s| ==> s[k] == body[k - 8];
    assert SchemeAt(s, 0) == 8;
    NonSpaceRunToEnd(s, 8);
    assert s[0..8 + NonSpaceRun(s, 8)] == s;
  }

  lemma {:induction false} NonSpaceRunToEnd(s: string, j: nat)
    requires j <= |s| && forall k :: j <= k < |s| ==> !IsSpace(s[k])
    ensures NonSpaceRun(s, j) == |s| - j
    decreases |s| - j
  {
    if j < |s| {
      NonSpaceRunToEnd(s, j + 1);
    }
  }

  // ---------------------------------------------------------------------------
  // Projects
  // ---------------------------------------------------------------------------

  datatype Project = Project(
    id: string, title: string, description: string, image: string, href: Option<string>,
    technologies: seq<string>, tag: Option<string>)

  /** A card's own URL wins, even an empty one; only a missing URL lets the description's link in. */
  function Href(item: CardItem): (r: Option<string>)
    ensures item.url.Some? ==> r == NormalizeUrl(item.url)
    ensures item.url.None? ==> r == NormalizeUrl(FindLink(item.description))
  {
    NormalizeUrl(if item.url.Some? then item.url else FindLink(item.description))
  }

  /** An empty URL on the card hides a link in its description. */
  lemma EmptyUrlHidesDescriptionLink(item: CardItem)
    requires item.url == Some("")
    ensures Href(item).None?
  {
  }

  /**
   * A card's picture: what the resolver makes of its media, offered the card's own image URL
   * (or the placeholder) as the fallback; the placeholder when nothing resolves.
   */
  function ProjectImage(item: CardItem, resolve: MediaResolver): (image: string)
    ensures var offered := Some(item.imageUrl.OrElse(ProjectPlaceholderImage));
            && (resolve(item.image, offered).Some? ==> image == resolve(item.image, offered).value)
            && (resolve(item.image, offered).None? ==> image == ProjectPlaceholderImage)
  {
    resolve(item.image, Some(item.imageUrl.OrElse(ProjectPlaceholderImage))).OrElse(ProjectPlaceholderImage)
  }

  /**
   * One project card. A card without an id gets "project-<position>"; the link is
   * normalised, so it always names http(s).
   */
  function BuildProject(item: CardItem, index: nat, resolve: MediaResolver): (r: Project)
    ensures r.title == item.title && r.description == item.description && r.tag == item.tag
    ensures item.id.Some? ==> r.id == item.id.value
    ensures item.id.None? ==> r.id == "project-" + NatToString(index)
    ensures r.technologies == Technologies(item.tag)
    ensures r.href == Href(item) && (r.href.Some? ==> HasScheme(r.href.value))
    ensures r.image == ProjectImage(item, resolve)
  {
    Project(
      item.id.OrElse("project-" + NatToString(index)), item.title, item.description,
      ProjectImage(item, resolve), Href(item), Technologies(item.tag), item.tag)
  }

  /** `buildProjects`: one project per card, in order, built from the card and its position. */
  function BuildProjects(items: seq<CardItem>, resolve: MediaResolver): (r: seq<Project>)
    ensures |r| == |items|
    ensures forall i :: 0 <= i < |r| ==> r[i] == BuildProject(items[i], i, resolve)
  {
    seq(|items|, i requires 0 <= i < |items| => BuildProject(items[i], i, resolve))
  }
}

=== FILE: sketch.dfy ===
/** The pixel sketch pad: a 24x24 grid of cells that painting fills and clearing empties. */
module Sketch {

  const SketchSize: nat := 24

  type Canvas = seq<seq<bool>>

  predicate InCanvas(row: int, col: int) {
    0 <= row < SketchSize && 0 <= col < SketchSize
  }

  predicate WellFormed(c: Canvas) {
    |c| == SketchSize && forall r :: 0 <= r < SketchSize ==> |c[r]| == SketchSize
  }

  /** The empty canvas the pad starts with, and what `clear` returns to. */
  function Blank(): (c: Canvas)
    ensures WellFormed(c)
    ensures forall r, k :: InCanvas(r, k) ==> !c[r][k]
  {
    seq(SketchSize, r => seq(SketchSize, k => false))
  }

  /**
   * `paintCell`: fills one cell and leaves every other cell as it was; painting a filled cell
   * returns the canvas itself.
   */
  function Paint(c: Canvas, row: int, col: int): (r: Canvas)
    requires WellFormed(c) && InCanvas(row, col)
    ensures WellFormed(r) && r[row][col]
    ensures forall i, j :: InCanvas(i, j) && (i != row || j != col) ==> r[i][j] == c[i][j]
    ensures c[row][col] ==> r == c
  {
    if c[row][col] then c else c[row := c[row][col := true]]
  }

  lemma CanvasesEqual(x: Canvas, y: Canvas)
    requires WellFormed(x) && WellFormed(y)
    requires forall i, j :: InCanvas(i, j) ==> x[i][j] == y[i][j]
    ensures x == y
  {
    forall i | 0 <= i < SketchSize
      ensures x[i] == y[i]
    {
      assert forall j :: 0 <= j < SketchSize ==> x[i][j] == y[i][j];
    }
  }

  /** The order in which two cells are painted does not matter. */
  lemma PaintCommutes(c: Canvas, r1: int, c1: int, r2: int, c2: int)
    requires WellFormed(c) && InCanvas(r1, c1) && InCanvas(r2, c2)
    ensures Paint(Paint(c, r1, c1), r2, c2) == Paint(Paint(c, r2, c2), r1, c1)
  {
    CanvasesEqual(Paint(Paint(c, r1, c1), r2, c2), Paint(Paint(c, r2, c2), r1, c1));
  }

  /** Painting the same cell twice is painting it once. */
  lemma PaintIdempotent(c: Canvas, row: int, col: int)
    requires WellFormed(c) && InCanvas(row, col)
    ensures Paint(Paint(c, row, col), row, col) == Paint(c, row, col)
  {
  }

  /** Painting a cell of the blank canvas fills exactly that cell. */
  lemma PaintOnBlank(row: int, col: int)
    requires InCanvas(row, col)
    ensures forall i, j :: InCanvas(i, j) ==> (Paint(Blank(), row, col)[i][j] <==> i == row && j == col)
  {
  }
}

=== FILE: sudoku.dfy ===
/**
 * The sudoku widget: a fixed puzzle whose given cells are read-only, free cells that take a
 * parsed and clamped digit, and a check against the fixed solution.
 */
module Sudoku {
  import opened Text

  type Grid = seq<seq<int>>

  /** 0 marks a free cell. */
  const Puzzle: Grid := [
    [0, 0, 0, 2, 6, 0, 7, 0, 1],
    [6, 8, 0, 0, 7, 0, 0, 9, 0],
    [1, 9, 0, 0, 0, 4, 5, 0, 0],
    [8, 2, 0, 1, 0, 0, 0, 4, 0],
    [0, 0, 4, 6, 0, 2, 9, 0, 0],
    [0, 5, 0, 0, 0, 3, 0, 2, 8],
    [0, 0, 9, 3, 0, 0, 0, 7, 4],
    [0, 4, 0, 0, 5, 0, 0, 3, 6],
    [7, 0, 3, 0, 1, 8, 0, 0, 0]]

  const Solution: Grid := [
    [4, 3, 5, 2, 6, 9, 7, 8, 1],
    [6, 8, 2, 5, 7, 1, 4, 9, 3],
    [1, 9, 7, 8, 3, 4, 5, 6, 2],
    [8, 2, 6, 1, 9, 5, 3, 4, 7],
    [3, 7, 4, 6, 8, 2, 9, 1, 5],
    [9, 5, 1, 7, 4, 3, 6, 2, 8],
    [5, 1, 9, 3, 2, 6, 8, 7, 4],
    [2, 4, 8, 9, 5, 7, 1, 3, 6],
    [7, 6, 3, 4, 1, 8, 2, 5, 9]]

  predicate InGrid(row: int, col: int) {
    0 <= row < 9 && 0 <= col < 9
  }

  predicate WellFormed(g: Grid) {
    |g| == 9 && forall r :: 0 <= r < 9 ==> |g[r]| == 9
  }

  /** A cell given by the puzzle; these are read-only. */
  predicate Preset(row: int, col: int)
    requires InGrid(row, col)
  {
    Puzzle[row][col] != 0
  }

  datatype Status = Idle | Correct | Incorrect

  datatype Board = Board(grid: Grid, status: Status)

  /** What every reachable board satisfies: the given cells are untouched and every cell holds 0..9. */
  ghost predicate Valid(b: Board) {
    && WellFormed(b.grid)
    && (forall r, c :: InGrid(r, c) && Preset(r, c) ==> b.grid[r][c] == Puzzle[r][c])
    && (forall r, c :: InGrid(r, c) ==> 0 <= b.grid[r][c] <= 9)
  }

  /** The opening board, and what `reset` returns to. */
  function Initial(): (b: Board)
    ensures Valid(b) && b.status == Idle
  {
    Board(Puzzle, Idle)
  }

  function Clamp(n: int): (r: int)
    ensures 0 <= r <= 9
    ensures 0 <= n <= 9 ==> r == n
    ensures n < 0 ==> r == 0
    ensures n > 9 ==> r == 9
  {
    if n < 0 then 0 else if n > 9 then 9 else n
  }

  /** The number an input stores: 0 when it does not parse, else the parse clamped to 0..9. */
  function CellValue(input: string): (v: int)
    ensures 0 <= v <= 9
    ensures ParseDecimal(input).NotANumber? ==> v == 0
    ensures ParseDecimal(input).Number? ==> v == Clamp(ParseDecimal(input).value)
  {
    match ParseDecimal(input)
    case NotANumber => 0
    case Number(n) => Clamp(n)
  }

  /** A typed digit is stored as itself. */
  lemma DigitIsStored(d: nat)
    requires d <= 9
    ensures CellValue(NatToString(d)) == d
  {
    ParseNatToString(d);
  }

  /**
   * `updateCell`: a given cell ignores input and keeps the status; a free cell takes the
   * input's value, every other cell is unchanged, and the status returns to idle.
   */
  function UpdateCell(b: Board, row: int, col: int, input: string): (r: Board)
    requires WellFormed(b.grid) && InGrid(row, col)
    ensures Preset(row, col) ==> r == b
    ensures WellFormed(r.grid)
    ensures forall i, j :: InGrid(i, j) && (i != row || j != col) ==> r.grid[i][j] == b.grid[i][j]
    ensures !Preset(row, col) ==> r.grid[row][col] == CellValue(input) && r.status == Idle
  {
    if Preset(row, col) then b
    else Board(b.grid[row := b.grid[row][col := CellValue(input)]], Idle)
  }

  /** `check`: correct exactly when every cell equals the solution's, and never idle. */
  function Check(b: Board): (r: Board)
    requires WellFormed(b.grid)
    ensures r.grid == b.grid && r.status != Idle
    ensures r.status == Correct <==> b.grid == Solution
  {
    if forall i, j | 0 <= i < 9 && 0 <= j < 9 :: b.grid[i][j] == Solution[i][j] then
      GridsEqual(b.grid, Solution);
      Board(b.grid, Correct)
    else
      Board(b.grid, Incorrect)
  }

  lemma GridsEqual(g: Grid, h: Grid)
    requires WellFormed(g) && WellFormed(h)
    requires forall i, j :: InGrid(i, j) ==> g[i][j] == h[i][j]
    ensures g == h
  {
    forall i | 0 <= i < 9
      ensures g[i] == h[i]
    {
      assert forall j :: 0 <= j < 9 ==> g[i][j] == h[i][j];
    }
  }

  /** Edits and checks keep a board valid. */
  lemma UpdatePreservesValid(b: Board, row: int, col: int, input: string)
    requires Valid(b) && InGrid(row, col)
    ensures Valid(UpdateCell(b, row, col, input))
    ensures Valid(Check(b))
  {
  }

  /** The solution agrees with every given cell, so a valid board can reach it. */
  lemma SolutionKeepsPresets()
    ensures Valid(Board(Solution, Correct))
  {
    assert WellFormed(Solution);
    forall r, c | InGrid(r, c) && Preset(r, c)
      ensures Solution[r][c] == Puzzle[r][c]
    {
      SolutionAgreesOnRow(r);
    }
  }

  lemma SolutionAgreesOnRow(r: int)
    requires 0 <= r < 9
    ensures forall c :: 0 <= c < 9 && Puzzle[r][c] != 0 ==> Solution[r][c] == Puzzle[r][c]
  {
  }
}

=== FILE: text.dfy ===
/**
 * String operations of the ECMAScript standard library that the site's code relies on:
 * `trim`, `trimStart`, `trimEnd`, `indexOf`, `lastIndexOf`, `split`, `toUpperCase`,
 * `Number.parseInt(_, 10)` and the decimal printing of a number inside a template string.
 */
module Text {

  /** White space and line terminators, as `trim`, the pattern class `\s` and `parseInt` see them. */
  predicate IsSpace(c: char) {
    || c == ' ' || c == '\t' || c == '\n' || c == '\r'
    || c == '\U{000B}' || c == '\U{000C}' || c == '\U{00A0}' || c == '\U{1680}'
    || ('\U{2000}' <= c <= '\U{200A}')
    || c == '\U{2028}' || c == '\U{2029}' || c == '\U{202F}' || c == '\U{205F}'
    || c == '\U{3000}' || c == '\U{FEFF}'
  }

  predicate AllSpace(s: string) {
    forall i :: 0 <= i < |s| ==> IsSpace(s[i])
  }

  /** `trimStart`: the suffix left after dropping every leading space. */
  function TrimStart(s: string): (r: string)
    ensures |r| <= |s| && r == s[|s| - |r|..]
    ensures r == [] || !IsSpace(r[0])
    ensures AllSpace(s[..|s| - |r|])
  {
    if |s| > 0 && IsSpace(s[0]) then TrimStart(s[1..]) else s
  }

  /** `trimEnd`: the prefix left after dropping every trailing space. */
  function TrimEnd(s: string): (r: string)
    ensures |r| <= |s| && r == s[..|r|]
    ensures r == [] || !IsSpace(r[|r| - 1])
    ensures AllSpace(s[|r|..])
  {
    if |s| > 0 && IsSpace(s[|s| - 1]) then
      var r := TrimEnd(s[..|s| - 1]);
      assert s[|r|..] == s[..|s| - 1][|r|..] + [s[|s| - 1]];
      r
    else
      s
  }

  /** `trim`: the middle part of `s` with no space at either end. */
  function Trim(s: string): (r: string)
    ensures |r| <= |s|
    ensures r == [] || (!IsSpace(r[0]) && !IsSpace(r[|r| - 1]))
    ensures r == [] <==> AllSpace(s)
  {
    var t := TrimStart(s);
    var r := TrimEnd(t);
    TrimPieces(s, t, r);
    r
  }

  lemma TrimPieces(s: string, t: string, r: string)
    requires |t| <= |s| && t == s[|s| - |t|..] && AllSpace(s[..|s| - |t|])
    requires |r| <= |t| && r == t[..|r|] && AllSpace(t[|r|..])
    ensures r == s[|s| - |t|..|s| - |t| + |r|]
    ensures r == [] ==> AllSpace(s)
  {
    if r == [] {
      AllSpaceConcat(s[..|s| - |t|], t);
      assert s == s[..|s| - |t|] + t;
    }
  }

  lemma AllSpaceConcat(x: string, y: string)
    requires AllSpace(x) && AllSpace(y)
    ensures AllSpace(x + y)
  {
    forall i | 0 <= i < |x + y|
      ensures IsSpace((x + y)[i])
    {
      if i < |x| {
        assert (x + y)[i] == x[i];
      } else {
        assert (x + y)[i] == y[i - |x|];
      }
    }
  }

  /** A string with no space at either end is its own trim. */
  lemma TrimOfTrimmed(s: string)
    requires s == [] || (!IsSpace(s[0]) && !IsSpace(s[|s| - 1]))
    ensures Trim(s) == s
  {
  }

  lemma TrimIdempotent(s: string)
    ensures Trim(Trim(s)) == Trim(s)
  {
    TrimOfTrimmed(Trim(s));
  }

  /** Trimming removes exactly the white-space padding around a word. */
  lemma TrimPadded(front: string, w: string, back: string)
    requires AllSpace(front) && AllSpace(back)
    requires w == [] || (!IsSpace(w[0]) && !IsSpace(w[|w| - 1]))
    ensures Trim(front + w + back) == w
  {
    if w == [] {
      AllSpaceConcat(front, back);
      assert front + w + back == front + back;
    } else {
      TrimStartPadded(front, w + back);
      assert front + w + back == front + (w + back);
      TrimEndPadded(w, back);
    }
  }

  lemma {:induction false} TrimStartPadded(front: string, s: string)
    requires AllSpace(front) && |s| > 0 && !IsSpace(s[0])
    ensures TrimStart(front + s) == s
    decreases |front|
  {
    if |front| > 0 {
      assert (front + s)[1..] == front[1..] + s;
      TrimStartPadded(front[1..], s);
    }
  }

  lemma {:induction false} TrimEndPadded(s: string, back: string)
    requires AllSpace(back) && |s| > 0 && !IsSpace(s[|s| - 1])
    ensures TrimEnd(s + back) == s
    decreases |back|
  {
    if |back| > 0 {
      assert (s + back)[..|s + back| - 1] == s + back[..|back| - 1];
      TrimEndPadded(s, back[..|back| - 1]);
    } else {
      assert s + back == s;
    }
  }

  function UpperAscii(c: char): char {
    if 'a' <= c <= 'z' then (c as int - 32) as char else c
  }

  function LowerAscii(c: char): char {
    if 'A' <= c <= 'Z' then (c as int + 32) as char else c
  }

  /** Upper-casing leaves white space alone, so a character that upper-cases to a non-space is not one. */
  lemma UpperKeepsSpace(c: char)
    ensures IsSpace(c) ==> UpperAscii(c) == c
  {
  }

  /** `toUpperCase`, restricted to the ASCII letters. */
  function ToUpper(s: string): (r: string)
    ensures |r| == |s|
  {
    seq(|s|, i requires 0 <= i < |s| => UpperAscii(s[i]))
  }

  /** Case-insensitive prefix test against a lower-case ASCII `prefix` (a pattern with the `i` flag). */
  predicate StartsWithNoCase(s: string, prefix: string) {
    |prefix| <= |s| && forall i :: 0 <= i < |prefix| ==> LowerAscii(s[i]) == prefix[i]
  }

  /** `indexOf` for one character: the first position holding `c`, or -1. */
  function IndexOf(s: string, c: char): (r: int)
    ensures -1 <= r < |s|
    ensures r >= 0 ==> s[r] == c
    ensures forall j :: 0 <= j < |s| && (r < 0 || j < r) ==> s[j] != c
  {
    if |s| == 0 then -1
    else if s[0] == c then 0
    else
      var k := IndexOf(s[1..], c);
      if k < 0 then -1 else k + 1
  }

  /** `lastIndexOf` for one character: the last position holding `c`, or -1. */
  function LastIndexOf(s: string, c: char): (r: int)
    ensures -1 <= r < |s|
    ensures r >= 0 ==> s[r] == c
    ensures forall j :: r < j < |s| ==> s[j] != c
  {
    if |s| == 0 then -1
    else if s[|s| - 1] == c then |s| - 1
    else LastIndexOf(s[..|s| - 1], c)
  }

  /** Glues parts back together with the separator between consecutive parts. */
  function Join(parts: seq<string>, sep: char): string
    requires |parts| >= 1
  {
    if |parts| == 1 then parts[0] else parts[0] + [sep] + Join(parts[1..], sep)
  }

  /** `split` on a one-character separator: the separator-free parts that `Join` reassembles into `s`. */
  function Split(s: string, sep: char): (r: seq<string>)
    ensures |r| >= 1
    ensures forall i :: 0 <= i < |r| ==> sep !in r[i]
    ensures Join(r, sep) == s
    decreases |s|
  {
    var k := IndexOf(s, sep);
    if k < 0 then
      assert forall j :: 0 <= j < |s| ==> s[j] != sep;
      [s]
    else
      var rest := Split(s[k + 1..], sep);
      assert s == s[..k] + [sep] + s[k + 1..];
      [s[..k]] + rest
  }

  /** Splitting undoes joining: the parts of a separator-free list come back unchanged. */
  lemma {:induction false} SplitJoin(parts: seq<string>, sep: char)
    requires |parts| >= 1
    requires forall i :: 0 <= i < |parts| ==> sep !in parts[i]
    ensures Split(Join(parts, sep), sep) == parts
    decreases |parts|
  {
    if |parts| == 1 {
    } else {
      var s := Join(parts, sep);
      var tail := Join(parts[1..], sep);
      assert s == parts[0] + [sep] + tail;
      assert s[..|parts[0]|] == parts[0];
      assert s[|parts[0]|] == sep;
      assert forall j :: 0 <= j < |parts[0]| ==> s[j] != sep;
      assert IndexOf(s, sep) == |parts[0]|;
      assert s[|parts[0]| + 1..] == tail;
      SplitJoin(parts[1..], sep);
      assert parts == [parts[0]] + parts[1..];
    }
  }

  predicate IsDigit(c: char) {
    '0' <= c <= '9'
  }

  predicate AllDigits(s: string) {
    forall i :: 0 <= i < |s| ==> IsDigit(s[i])
  }

  function DigitValue(c: char): nat
    requires IsDigit(c)
  {
    c as int - '0' as int
  }

  function DigitChar(d: nat): (c: char)
    requires d < 10
    ensures IsDigit(c) && DigitValue(c) == d
  {
    ('0' as int + d) as char
  }

  /** The longest run of decimal digits at the start of `s`. */
  function LeadingDigits(s: string): (r: string)
    ensures |r| <= |s| && r == s[..|r|]
    ensures AllDigits(r)
    ensures |r| == |s| || !IsDigit(s[|r|])
  {
    if |s| > 0 && IsDigit(s[0]) then [s[0]] + LeadingDigits(s[1..]) else []
  }

  /** The number a string of decimal digits denotes. */
  function DigitsValue(d: string): nat
    requires AllDigits(d)
  {
    if |d| == 0 then 0 else 10 * DigitsValue(d[..|d| - 1]) + DigitValue(d[|d| - 1])
  }

  /** What `Number.parseInt(s, 10)` yields: NaN or an integer. */
  datatype Parsed = NotANumber | Number(value: int)

  /**
   * `Number.parseInt(s, 10)`: skip leading white space, read an optional sign, then the
   * longest run of digits; no digits at all gives NaN.
   */
  function ParseDecimal(s: string): (r: Parsed)
    ensures AllSpace(s) ==> r == NotANumber
    ensures |s| > 0 && IsDigit(s[0]) ==> r.Number? && r.value >= 0
  {
    var t := TrimStart(s);
    var unsigned := if |t| > 0 && (t[0] == '-' || t[0] == '+') then t[1..] else t;
    var digits := LeadingDigits(unsigned);
    if digits == [] then NotANumber
    else
      var magnitude: int := DigitsValue(digits);
      if |t| > 0 && t[0] == '-' then Number(-magnitude) else Number(magnitude)
  }

  /** The decimal notation JavaScript prints for a non-negative integer. */
  function NatToString(n: nat): (r: string)
    ensures |r| >= 1 && AllDigits(r)
    ensures DigitsValue(r) == n
    ensures r[0] == '0' ==> n == 0
  {
    if n < 10 then [DigitChar(n)]
    else
      var prefix := NatToString(n / 10);
      var r := prefix + [DigitChar(n % 10)];
      assert r[..|r| - 1] == prefix;
      r
  }

  /** Printing a number and parsing it back gives the number again. */
  lemma ParseNatToString(n: nat)
    ensures ParseDecimal(NatToString(n)) == Number(n)
  {
    var s := NatToString(n);
    TrimStartKeeps(s);
    LeadingDigitsOfDigits(s);
  }

  /** A minus sign in front of the printed number parses to its negation. */
  lemma ParseNegatedNatToString(n: nat)
    ensures ParseDecimal("-" + NatToString(n)) == Number(-(n as int))
  {
    var s := "-" + NatToString(n);
    TrimStartKeeps(s);
    assert s[1..] == NatToString(n);
    LeadingDigitsOfDigits(s[1..]);
  }

  lemma TrimStartKeeps(s: string)
    requires |s| > 0 && !IsSpace(s[0])
    ensures TrimStart(s) == s
  {
  }

  lemma LeadingDigitsOfDigits(s: string)
    requires AllDigits(s)
    ensures LeadingDigits(s) == s
  {
  }

  /** `s || t` on strings: the first one unless it is empty. */
  function Or(s: string, t: string): string {
    if s != "" then s else t
  }
}

=== FILE: theme.dfy ===
/**
 * The theme hook: the initial preference, the set and toggle actions, and the effect that
 * mirrors the theme into the page's `dark` class and into local storage.
 */
module ThemeHook {
  import opened Base

  datatype Theme = Light | Dark

  function Name(t: Theme): string {
    if t == Dark then "dark" else "light"
  }

  /** `isTheme`: exactly "dark" and "light" name a theme. */
  function ParseTheme(value: Option<string>): (r: Option<Theme>)
    ensures r.Some? <==> value == Some("dark") || value == Some("light")
    ensures r.Some? ==> Name(r.value) == value.value
  {
    if value == Some("dark") then Some(Dark)
    else if value == Some("light") then Some(Light)
    else None
  }

  /** Reading back a stored theme name gives the theme. */
  lemma ParseName(t: Theme)
    ensures ParseTheme(Some(Name(t))) == Some(t)
  {
  }

  const StorageKey: string := "preferred-theme"

  /** Local storage: string keys to string values. */
  type Storage = map<string, string>

  function Lookup(storage: Storage, key: string): Option<string> {
    if key in storage then Some(storage[key]) else None
  }

  /**
   * `getPreferredTheme`: light without a window; otherwise a stored theme name wins, and the
   * system's dark-scheme preference decides the rest (a missing media query counts as light).
   */
  function GetPreferredTheme(hasWindow: bool, storage: Storage, prefersDark: Option<bool>): (t: Theme)
    ensures !hasWindow ==> t == Light
    ensures hasWindow && ParseTheme(Lookup(storage, StorageKey)).Some? ==> t == ParseTheme(Lookup(storage, StorageKey)).value
    ensures hasWindow && ParseTheme(Lookup(storage, StorageKey)).None? ==> (t == Dark <==> prefersDark == Some(true))
  {
    if !hasWindow then Light
    else
      match ParseTheme(Lookup(storage, StorageKey))
      case Some(stored) => stored
      case None => if prefersDark == Some(true) then Dark else Light
  }

  /** The parts of the page the hook writes to. */
  datatype Page = Page(hasWindow: bool, hasDocument: bool, darkClass: bool, storage: Storage)

  datatype State = State(theme: Theme, page: Page)

  /** The effect after every theme change: toggle the `dark` class, then store the theme's name. */
  function ApplyTheme(theme: Theme, page: Page): (p: Page)
    ensures page.hasDocument ==> (p.darkClass <==> theme == Dark)
    ensures !page.hasDocument ==> p.darkClass == page.darkClass
    ensures page.hasWindow ==> p.storage == page.storage[StorageKey := Name(theme)]
    ensures !page.hasWindow ==> p.storage == page.storage
    ensures p.hasWindow == page.hasWindow && p.hasDocument == page.hasDocument
  {
    var darkClass := if page.hasDocument then theme == Dark else page.darkClass;
    var storage := if page.hasWindow then page.storage[StorageKey := Name(theme)] else page.storage;
    page.(darkClass := darkClass, storage := storage)
  }

  /** Mounting: the preferred theme, applied. */
  function Init(page: Page, prefersDark: Option<bool>): (s: State)
    ensures s.theme == GetPreferredTheme(page.hasWindow, page.storage, prefersDark)
    ensures page.hasDocument ==> (s.page.darkClass <==> s.theme == Dark)
  {
    var theme := GetPreferredTheme(page.hasWindow, page.storage, prefersDark);
    State(theme, ApplyTheme(theme, page))
  }

  /** `setTheme`: exactly the given theme, then applied. */
  function SetTheme(s: State, t: Theme): (r: State)
    ensures r.theme == t
    ensures s.page.hasDocument ==> (r.page.darkClass <==> t == Dark)
  {
    State(t, ApplyTheme(t, s.page))
  }

  function Flip(t: Theme): Theme {
    if t == Dark then Light else Dark
  }

  /** `toggleTheme`: the other theme, then applied. */
  function ToggleTheme(s: State): (r: State)
    ensures r.theme != s.theme
    ensures s.page.hasDocument ==> (r.page.darkClass <==> r.theme == Dark)
  {
    var t := Flip(s.theme);
    State(t, ApplyTheme(t, s.page))
  }

  /** Toggling twice restores the original theme and the stored preference. */
  lemma ToggleTwice(s: State)
    requires s.page == ApplyTheme(s.theme, s.page)
    ensures ToggleTheme(ToggleTheme(s)) == s
  {
    var p := s.page;
    if p.hasWindow {
      assert ApplyTheme(s.theme, ApplyTheme(Flip(s.theme), p)).storage == p.storage;
    }
  }

  /** Whatever theme is chosen is the one a later visit starts with. */
  lemma ChosenThemePersists(s: State, t: Theme, prefersDark: Option<bool>)
    requires s.page.hasWindow
    ensures Init(SetTheme(s, t).page, prefersDark).theme == t
  {
    ParseName(t);
  }
}

=== FILE: toast_dedup.dfy ===
/**
 * The error-toast memory both content hooks keep: a toast is raised only when a failed load
 * carries a message different from the one remembered, and an error-free load forgets it.
 */
module ToastDedup {
  import opened Base
  import opened Cms

  const ContentFailureMessage: string := "Failed to load site content"

  /** The message a content error is remembered under; an empty message is replaced. */
  function MessageOf(e: Error): (m: string)
    ensures m != ""
    ensures e.message != "" ==> m == e.message
    ensures e.message == "" ==> m == ContentFailureMessage
  {
    if e.message == "" then ContentFailureMessage else e.message
  }

  /** The memory after a load, and whether that load raised a toast. */
  datatype Outcome = Outcome(last: Option<string>, toast: bool)

  function Remember(last: Option<string>, error: Option<Error>): (r: Outcome)
    ensures error.None? ==> r == Outcome(None, false)
    ensures error.Some? ==> r.last == Some(MessageOf(error.value))
    ensures error.Some? ==> (r.toast <==> last != Some(MessageOf(error.value)))
  {
    match error
    case None => Outcome(None, false)
    case Some(e) =>
      var m := MessageOf(e);
      if last != Some(m) then Outcome(Some(m), true) else Outcome(last, false)
  }

  /** The second of two failures with the same message is silent. */
  lemma RepeatIsSilent(last: Option<string>, e1: Error, e2: Error)
    requires MessageOf(e1) == MessageOf(e2)
    ensures !Remember(Remember(last, Some(e1)).last, Some(e2)).toast
  {
  }

  /** A failure worded differently from the previous one raises a new toast. */
  lemma ChangedMessageToasts(last: Option<string>, e1: Error, e2: Error)
    requires MessageOf(e1) != MessageOf(e2)
    ensures Remember(Remember(last, Some(e1)).last, Some(e2)).toast
  {
  }

  /** After an error-free load, any failure raises a toast again. */
  lemma ResetReenablesToast(last: Option<string>, e: Error)
    ensures Remember(Remember(last, None).last, Some(e)).toast
  {
  }
}

=== FILE: typing.dfy ===
/**
 * The typing animation of the hero title: the lengths it may delete back to, the sequence of
 * texts it displays while typing and deleting, and the random choices of the looping mode.
 * Timers are left out: an animation is the sequence of texts it shows, and cancelling it cuts
 * that sequence short. Each `Math.random` draw is a `nat` parameter.
 */
module Typing {
  import opened Base
  import opened Text

  /** `Math.max(speed, 16)`: the typing delay never drops below 16 ms. */
  function PrimarySpeed(speed: int): (r: int)
    ensures r >= 16 && r >= speed
    ensures speed >= 16 ==> r == speed
  {
    if speed > 16 then speed else 16
  }

  /** The lengths the looping animation may delete back to. */
  datatype Keeps = Keeps(fallback: int, firstName: int, lastName: int)

  predicate ValidKeeps(k: Keeps, len: nat) {
    0 <= k.fallback <= len && 0 <= k.firstName <= len && 0 <= k.lastName <= len
  }

  function ClampLength(n: int, len: nat): (r: int)
    ensures 0 <= r <= len
    ensures 0 <= n <= len ==> r == n
    ensures n < 0 ==> r == 0
    ensures n > len ==> r == len
  {
    if n < 0 then 0 else if n > len then len else n
  }

  /**
   * The three keep lengths: the given delete-to length (default: just after the last space),
   * clamped to the text; just after the first space, or the whole text; the last space, or
   * the text without its last three characters.
   */
  function ComputeKeeps(text: string, deleteTo: Option<int>): (k: Keeps)
    ensures ValidKeeps(k, |text|)
    ensures deleteTo.Some? && 0 <= deleteTo.value <= |text| ==> k.fallback == deleteTo.value
    ensures deleteTo.Some? && deleteTo.value < 0 ==> k.fallback == 0
    ensures deleteTo.Some? && deleteTo.value > |text| ==> k.fallback == |text|
    ensures deleteTo.None? && ' ' in text ==>
              && 0 < k.fallback && text[k.fallback - 1] == ' '
              && forall j :: k.fallback <= j < |text| ==> text[j] != ' '
    ensures deleteTo.None? && ' ' !in text ==> k.fallback == 0
    ensures ' ' in text ==>
              && 0 < k.firstName && text[k.firstName - 1] == ' '
              && forall j :: 0 <= j < k.firstName - 1 ==> text[j] != ' '
    ensures ' ' !in text ==> k.firstName == |text|
    ensures ' ' in text ==>
              && k.lastName < |text| && text[k.lastName] == ' '
              && forall j :: k.lastName < j < |text| ==> text[j] != ' '
    ensures ' ' !in text ==> k.lastName == |text| - Min(3, |text|)
  {
    var firstSpace := IndexOf(text, ' ');
    var lastSpace := LastIndexOf(text, ' ');
    var fallbackKeep := ClampLength(if deleteTo.Some? then deleteTo.value else lastSpace + 1, |text|);
    Keeps(
      fallbackKeep,
      if firstSpace >= 0 then firstSpace + 1 else |text|,
      if lastSpace >= 0 then lastSpace else |text| - Min(3, |text|))
  }

  function Min(a: int, b: int): int {
    if a < b then a else b
  }

  // ---------------------------------------------------------------------------
  // Displayed texts
  // ---------------------------------------------------------------------------

  /**
   * `typeForward(target)`: from the current text, the target's prefixes one character longer
   * each, up to the whole target.
   */
  function TypeForward(current: string, target: string): (shown: seq<string>)
    ensures |shown| == if |current| < |target| then |target| - |current| else 0
    ensures forall k :: 0 <= k < |shown| ==> shown[k] <= target && |shown[k]| == |current| + k + 1
    ensures |shown| > 0 ==> shown[|shown| - 1] == target
  {
    if |current| >= |target| then []
    else seq(|target| - |current|, k requires 0 <= k < |target| - |current| => target[..|current| + k + 1])
  }

  /**
   * `deleteBackward(targetLength)`: nothing when the target length is not shorter; otherwise
   * the current text's prefixes one character shorter each, down to the target length.
   */
  function DeleteBackward(current: string, targetLength: nat): (shown: seq<string>)
    ensures targetLength >= |current| ==> shown == []
    ensures targetLength < |current| ==> |shown| == |current| - targetLength
    ensures forall k :: 0 <= k < |shown| ==> shown[k] <= current && |shown[k]| == |current| - k - 1
    ensures |shown| > 0 ==> |shown[|shown| - 1]| == targetLength
  {
    if targetLength >= |current| then []
    else seq(|current| - targetLength, k requires 0 <= k < |current| - targetLength => current[..|current| - k - 1])
  }

  /** The text on screen after a (possibly empty) run of displays. */
  function Last(current: string, shown: seq<string>): string {
    if |shown| == 0 then current else shown[|shown| - 1]
  }

  /** Typing forward from a prefix of the target ends on the target itself. */
  lemma TypeForwardEndsOnTarget(current: string, target: string)
    requires current <= target
    ensures Last(current, TypeForward(current, target)) == target
  {
    if |current| == |target| {
      assert current == target[..|current|] == target;
    }
  }

  /** `Math.min(pick, current.length - 1)`, or 0 for an empty text: always below a non-empty length. */
  function LoopTarget(pick: nat, current: string): (r: nat)
    ensures r <= pick
    ensures |current| > 0 ==> r < |current|
    ensures |current| == 0 ==> r == 0
  {
    if |current| > 0 then (if pick < |current| - 1 then pick else |current| - 1) else 0
  }

  // ---------------------------------------------------------------------------
  // Random choices
  // ---------------------------------------------------------------------------

  predicate Ascending(s: seq<int>) {
    forall i, j :: 0 <= i < j < |s| ==> s[i] < s[j]
  }

  /** Adds `x` to an ascending list, unless it is already there. */
  function Insert(x: int, s: seq<int>): (r: seq<int>)
    requires Ascending(s)
    ensures Ascending(r)
    ensures forall y :: y in r <==> y == x || y in s
  {
    if |s| == 0 then [x]
    else if x < s[0] then [x] + s
    else if x == s[0] then s
    else
      var rest := Insert(x, s[1..]);
      var r := [s[0]] + rest;
      forall i, j | 0 <= i < j < |r|
        ensures r[i] < r[j]
      {
        assert r[j] == rest[j - 1] && rest[j - 1] in rest;
        if i > 0 {
          assert r[i] == rest[i - 1];
        } else if rest[j - 1] != x {
          var k :| 0 <= k < |s[1..]| && s[1..][k] == rest[j - 1];
          assert s[k + 1] == rest[j - 1];
        }
      }
      r
  }

  /** The candidates below the text length, each once, in ascending order. */
  function Distinct(xs: seq<int>, len: nat): (r: seq<int>)
    ensures forall x :: x in r <==> x in xs && x < len
    ensures Ascending(r)
  {
    if |xs| == 0 then []
    else
      var rest := Distinct(xs[1..], len);
      assert forall x :: x in xs <==> x == xs[0] || x in xs[1..];
      if xs[0] < len then Insert(xs[0], rest) else rest
  }

  /**
   * An ascending list is determined by its elements, so `Distinct` is the very array the source
   * builds, whatever order the candidates come in.
   */
  lemma {:induction false} AscendingUnique(a: seq<int>, b: seq<int>)
    requires Ascending(a) && Ascending(b)
    requires forall x :: x in a <==> x in b
    ensures a == b
    decreases |a|
  {
    EmptyTogether(a, b);
    if |a| > 0 {
      assert a[0] in a && b[0] in b;
      assert a[0] == b[0] by {
        var i :| 0 <= i < |b| && b[i] == a[0];
        var j :| 0 <= j < |a| && a[j] == b[0];
        assert b[0] <= b[i] && a[0] <= a[j];
      }
      forall x
        ensures x in a[1..] <==> x in b[1..]
      {
        if x in a[1..] {
          var i :| 1 <= i < |a| && a[i] == x;
          assert x != a[0] && x in a;
        }
        if x in b[1..] {
          var i :| 1 <= i < |b| && b[i] == x;
          assert x != b[0] && x in b;
        }
      }
      AscendingUnique(a[1..], b[1..]);
      assert a == [a[0]] + a[1..] && b == [b[0]] + b[1..];
    }
  }

  lemma EmptyTogether(a: seq<int>, b: seq<int>)
    requires forall x :: x in a <==> x in b
    ensures |a| == 0 <==> |b| == 0
  {
    if |a| > 0 {
      var y := a[0];
      assert y in a <==> y in b;
      var i :| 0 <= i < |b| && b[i] == y;
    }
    if |b| > 0 {
      var y := b[0];
      assert y in a <==> y in b;
      var i :| 0 <= i < |a| && a[i] == y;
    }
  }

  /** The order of the candidates does not change the array the choice is made from. */
  lemma CandidateOrderIrrelevant(xs: seq<int>, ys: seq<int>, len: nat)
    requires forall x :: x in xs <==> x in ys
    ensures Distinct(xs, len) == Distinct(ys, len)
  {
    AscendingUnique(Distinct(xs, len), Distinct(ys, len));
  }

  /** The five candidate lengths: the three keeps, 0, and a random length below length - 1. */
  function Candidates(text: string, keeps: Keeps, draw: nat): seq<int> {
    [keeps.fallback, keeps.firstName, 0, keeps.lastName, draw % Max(|text| - 1, 1)]
  }

  /** The `pick`-th of the sorted unique candidates, capped at length - 1; length - 1 when there are none. */
  function Choose(unique: seq<int>, len: nat, pick: nat): int {
    if |unique| == 0 then Max(len - 1, 0) else Min(unique[pick % |unique|], len - 1)
  }

  /**
   * `pickTargetLength`: one of the candidate lengths that is shorter than the text, capped at
   * length - 1. `draw` and `pick` stand for the two `Math.random` calls.
   */
  function PickTargetLength(text: string, keeps: Keeps, draw: nat, pick: nat): (r: int)
    requires ValidKeeps(keeps, |text|)
    ensures |text| > 0 ==> 0 <= r < |text|
    ensures |text| > 0 ==> r in Candidates(text, keeps, draw)
  {
    var unique := Distinct(Candidates(text, keeps, draw), |text|);
    assert 0 in Candidates(text, keeps, draw);
    assert |unique| > 0 ==> unique[pick % |unique|] in unique;
    Choose(unique, |text|, pick)
  }

  function Max(a: int, b: int): int {
    if a > b then a else b
  }

  /** For a non-empty text 0 is always a candidate, so the empty-candidates fallback is never used. */
  lemma CandidatesNeverEmpty(text: string, keeps: Keeps, draw: nat)
    requires |text| > 0
    ensures |Distinct(Candidates(text, keeps, draw), |text|)| > 0
  {
    assert 0 in Candidates(text, keeps, draw);
  }

  /** Every candidate below the length can be picked by some draw. */
  lemma EveryCandidateReachable(text: string, keeps: Keeps, draw: nat, c: int)
    requires ValidKeeps(keeps, |text|)
    requires |text| > 0 && c in Candidates(text, keeps, draw) && 0 <= c < |text|
    ensures exists pick: nat :: PickTargetLength(text, keeps, draw, pick) == c
  {
    var unique := Distinct(Candidates(text, keeps, draw), |text|);
    assert c in unique;
    var i :| 0 <= i < |unique| && unique[i] == c;
    var n := |unique|;
    assert i % n == i by { SmallMod(i, n); }
    assert Choose(unique, |text|, i) == c;
    assert PickTargetLength(text, keeps, draw, i) == c;
  }

  lemma SmallMod(i: nat, n: nat)
    requires i < n
    ensures i % n == i
  {
  }

  /**
   * `vary(base, delta, min)` with `offset` standing for the random shift in [-delta, delta):
   * never below `min`, and the shifted base when that is above it.
   */
  function Vary(base: int, min: int, offset: int): (r: int)
    ensures r >= min
    ensures base + offset >= min ==> r == base + offset
  {
    if base + offset > min then base + offset else min
  }

  /** A varied pause stays within the random spread around its base, floored at `min`. */
  lemma VaryWithinSpread(base: int, delta: nat, min: int, offset: int)
    requires -(delta as int) <= offset < delta
    ensures Max(min, base - delta) <= Vary(base, min, offset) <= Max(min, base + delta - 1)
  {
  }

  // ---------------------------------------------------------------------------
  // Whole animations
  // ---------------------------------------------------------------------------

  /** How the animation starts: the final text at once, or typed from empty. */
  datatype Start = Static(text: string) | Animated

  /** With no window, reduced motion or an empty text, the whole text shows at once and is done. */
  function StartAnimation(text: string, hasWindow: bool, reducedMotion: bool): (r: Start)
    ensures r.Static? <==> !hasWindow || reducedMotion || |text| == 0
    ensures r.Static? ==> r.text == text
  {
    if !hasWindow || reducedMotion || |text| == 0 then Static(text) else Animated
  }

  /**
   * The texts an uninterrupted animation shows: the whole text as the effect starts, then the
   * empty text held for the start delay, the text typed from empty, and for each loop round a
   * deletion down to that round's target length and a retyping of the whole text.
   */
  function Animation(text: string, rounds: seq<nat>): (shown: seq<string>)
    ensures |shown| >= 2 + |text|
    ensures shown[0] == text && shown[1] == "" && shown[1 + |text|] == text
  {
    [text, ""] + TypeForward("", text) + Loop(text, rounds)
  }

  function Loop(text: string, rounds: seq<nat>): seq<string>
    decreases |rounds|
  {
    if |rounds| == 0 then []
    else
      var deleted := DeleteBackward(text, LoopTarget(rounds[0], text));
      deleted + TypeForward(Last(text, deleted), text) + Loop(text, rounds[1..])
  }

  /** Every text the animation shows is a prefix of the title, so cutting it short anywhere is safe. */
  lemma {:induction false} AnimationShowsPrefixes(text: string, rounds: seq<nat>)
    ensures forall k :: 0 <= k < |Animation(text, rounds)| ==> Animation(text, rounds)[k] <= text
  {
    LoopShowsPrefixes(text, rounds);
  }

  lemma {:induction false} LoopShowsPrefixes(text: string, rounds: seq<nat>)
    ensures forall k :: 0 <= k < |Loop(text, rounds)| ==> Loop(text, rounds)[k] <= text
    decreases |rounds|
  {
    if |rounds| > 0 {
      var deleted := DeleteBackward(text, LoopTarget(rounds[0], text));
      var retyped := TypeForward(Last(text, deleted), text);
      LoopShowsPrefixes(text, rounds[1..]);
      var rest := Loop(text, rounds[1..]);
      assert Loop(text, rounds) == deleted + retyped + rest;
      forall k | 0 <= k < |deleted + retyped + rest|
        ensures (deleted + retyped + rest)[k] <= text
      {
        if k < |deleted| {
        } else if k < |deleted| + |retyped| {
          assert (deleted + retyped + rest)[k] == retyped[k - |deleted|];
        } else {
          assert (deleted + retyped + rest)[k] == rest[k - |deleted| - |retyped|];
        }
      }
    }
  }

  /** Each loop round deletes at least one character of a non-empty title and ends on the whole title. */
  lemma RoundDeletesAndRestores(text: string, pick: nat)
    requires |text| > 0
    ensures var deleted := DeleteBackward(text, LoopTarget(pick, text));
            && |deleted| >= 1
            && Last(Last(text, deleted), TypeForward(Last(text, deleted), text)) == text
  {
    var deleted := DeleteBackward(text, LoopTarget(pick, text));
    TypeForwardEndsOnTarget(Last(text, deleted), text);
  }
}

=== FILE: use_cms_content.dfy ===
/**
 * `useCmsContent` as a state machine: a settled load (its `then` and `finally` handlers
 * together), a content push, and unmounting.
 */
module CmsContentHook {
  import opened Base
  import opened Cms
  import opened ToastDedup

  datatype State = State(content: Content, isLoading: bool, lastErrorMessage: Option<string>, mounted: bool)

  datatype Event = Loaded(result: LoadContentResult) | Pushed(content: Content) | Unmount

  datatype Step = Step(state: State, toast: bool)

  /** The state right after mounting: default content, loading. */
  function Init(): (s: State)
    ensures s.mounted && s.isLoading && s.content == DefaultContent && s.lastErrorMessage.None?
  {
    State(DefaultContent, true, None, true)
  }

  /**
   * A settled load: the returned content is installed whether or not it carries an error,
   * the toast memory is updated, and loading ends; all of it only while mounted.
   */
  function OnLoaded(s: State, r: LoadContentResult): (t: Step)
    ensures !s.mounted ==> t == Step(s, false)
    ensures s.mounted ==> t.state.content == r.content && !t.state.isLoading && t.state.mounted
    ensures s.mounted && r.error.None? ==> t.state.lastErrorMessage.None? && !t.toast
    ensures s.mounted && r.error.Some? ==>
              && t.state.lastErrorMessage == Some(MessageOf(r.error.value))
              && (t.toast <==> s.lastErrorMessage != Some(MessageOf(r.error.value)))
  {
    if !s.mounted then Step(s, false)
    else
      var memory := Remember(s.lastErrorMessage, r.error);
      Step(State(r.content, false, memory.last, true), memory.toast)
  }

  /** A push replaces the content, ends loading and forgets the remembered error. */
  function OnPushed(s: State, c: Content): (t: State)
    ensures !s.mounted ==> t == s
    ensures s.mounted ==> t.content == c && !t.isLoading && t.lastErrorMessage.None?
    ensures t.mounted == s.mounted
  {
    if !s.mounted then s else State(c, false, None, true)
  }

  /**
   * One event: only a load can toast, a load or push while mounted ends loading, loading
   * never starts again, and only an unmount unmounts.
   */
  function Apply(s: State, e: Event): (t: Step)
    ensures !s.mounted ==> t == Step(s, false)
    ensures t.toast ==> e.Loaded?
    ensures !t.state.mounted <==> !s.mounted || e.Unmount?
    ensures s.mounted && !e.Unmount? ==> !t.state.isLoading
    ensures !s.isLoading ==> !t.state.isLoading
  {
    match e
    case Loaded(r) => OnLoaded(s, r)
    case Pushed(c) => Step(OnPushed(s, c), false)
    case Unmount => Step(s.(mounted := false), false)
  }

  datatype Trace = Trace(state: State, toasts: nat)

  /**
   * The state after a sequence of events and the toasts raised: at most one per event, mounted
   * exactly when no unmount came, and loading never resumes once over.
   */
  function Run(s: State, events: seq<Event>): (r: Trace)
    ensures r.toasts <= |events|
    ensures r.state.mounted <==> s.mounted && Unmount !in events
    ensures !s.isLoading ==> !r.state.isLoading
    decreases |events|
  {
    if |events| == 0 then Trace(s, 0)
    else
      assert Unmount in events <==> events[0] == Unmount || Unmount in events[1..];
      var first := Apply(s, events[0]);
      var rest := Run(first.state, events[1..]);
      Trace(rest.state, rest.toasts + if first.toast then 1 else 0)
  }

  /** After unmount, neither loads nor pushes alter the content or the loading flag. */
  lemma {:induction false} UnmountedIsFrozen(s: State, events: seq<Event>)
    requires !s.mounted
    ensures Run(s, events) == Trace(s, 0)
    decreases |events|
  {
    if |events| > 0 {
      UnmountedIsFrozen(s, events[1..]);
    }
  }

  ghost predicate RepeatedFailure(events: seq<Event>, m: string) {
    forall i :: 0 <= i < |events| ==>
      events[i].Loaded? && events[i].result.error.Some? && MessageOf(events[i].result.error.value) == m
  }

  /** Loads that keep failing with one message raise at most one toast. */
  lemma {:induction false} RepeatedFailureToastsOnce(s: State, events: seq<Event>, m: string)
    requires RepeatedFailure(events, m)
    ensures Run(s, events).toasts <= 1
    ensures s.lastErrorMessage == Some(m) ==> Run(s, events).toasts == 0
    decreases |events|
  {
    if |events| > 0 {
      var first := Apply(s, events[0]);
      assert RepeatedFailure(events[1..], m);
      if !s.mounted {
        UnmountedIsFrozen(s, events);
      } else {
        RepeatedFailureToastsOnce(first.state, events[1..], m);
      }
    }
  }

  /** A push between two identical failures makes the second one toast again. */
  lemma PushReenablesToast(s: State, r: LoadContentResult, c: Content)
    requires s.mounted && r.error.Some?
    ensures var afterFail := OnLoaded(s, r).state;
            OnLoaded(OnPushed(afterFail, c), r).toast
  {
  }
}

=== FILE: use_cms_data.dfy ===
/**
 * `useCmsData` as a state machine: the combined load result, content and settings pushes,
 * and unmounting are its events; a `mounted` flag makes everything after unmount a no-op.
 */
module CmsDataHook {
  import opened Base
  import opened Cms
  import opened ToastDedup

  datatype State = State(
    content: Content, settings: Settings, contentReady: bool, settingsReady: bool,
    settingsError: Option<Error>, lastContentError: Option<string>, mounted: bool)

  /** What `loadAll` resolves with; how it is produced is not part of this model. */
  datatype LoadAllResult = LoadAllResult(content: LoadContentResult, settings: LoadSettingsResult)

  datatype Event =
    | Loaded(result: LoadAllResult)
    | ContentPushed(content: Content)
    | SettingsPushed(settings: Settings)
    | Unmount

  /** The state after one event, and whether the event raised a toast. */
  datatype Step = Step(state: State, toast: bool)

  function Init(env: Env): (s: State)
    ensures s.mounted && IsLoading(s) && s.settingsError.None?
    ensures !s.contentReady && !s.settingsReady && s.lastContentError.None?
    ensures s.content == DefaultContent && s.settings == DefaultSettings(env)
  {
    State(DefaultContent, DefaultSettings(env), false, false, None, None, true)
  }

  /** The hook's `isLoading` output. */
  predicate IsLoading(s: State) {
    !s.contentReady || !s.settingsReady
  }

  function OnLoaded(s: State, r: LoadAllResult): (t: Step)
    ensures !s.mounted ==> t == Step(s, false)
    ensures s.mounted ==> !IsLoading(t.state) && t.state.mounted
    ensures s.mounted ==> t.state.content == r.content.content && t.state.settings == r.settings.settings
    ensures s.mounted ==> t.state.settingsError == r.settings.error
    ensures s.mounted && r.content.error.None? ==> t.state.lastContentError.None? && !t.toast
    ensures s.mounted && r.content.error.Some? ==>
              && t.state.lastContentError == Some(MessageOf(r.content.error.value))
              && (t.toast <==> s.lastContentError != Some(MessageOf(r.content.error.value)))
  {
    if !s.mounted then Step(s, false)
    else
      var memory := Remember(s.lastContentError, r.content.error);
      Step(State(r.content.content, r.settings.settings, true, true, r.settings.error, memory.last, true), memory.toast)
  }

  /** A content push replaces the content only and forgets the remembered error. */
  function OnContentPushed(s: State, c: Content): (t: State)
    ensures !s.mounted ==> t == s
    ensures s.mounted ==> t.content == c && t.contentReady && t.lastContentError.None?
    ensures t.settings == s.settings && t.settingsReady == s.settingsReady
    ensures t.settingsError == s.settingsError && t.mounted == s.mounted
  {
    if !s.mounted then s else s.(content := c, contentReady := true, lastContentError := None)
  }

  /** A settings push replaces the settings and clears the settings error; content is untouched. */
  function OnSettingsPushed(s: State, v: Settings): (t: State)
    ensures !s.mounted ==> t == s
    ensures s.mounted ==> t.settings == v && t.settingsReady && t.settingsError.None?
    ensures t.content == s.content && t.contentReady == s.contentReady
    ensures t.lastContentError == s.lastContentError && t.mounted == s.mounted
  {
    if !s.mounted then s else s.(settings := v, settingsReady := true, settingsError := None)
  }

  function Apply(s: State, e: Event): (t: Step)
    ensures !s.mounted ==> t == Step(s, false)
    ensures t.toast ==> e.Loaded?
    ensures !t.state.mounted <==> !s.mounted || e.Unmount?
    ensures !IsLoading(s) ==> !IsLoading(t.state)
  {
    match e
    case Loaded(r) => OnLoaded(s, r)
    case ContentPushed(c) => Step(OnContentPushed(s, c), false)
    case SettingsPushed(v) => Step(OnSettingsPushed(s, v), false)
    case Unmount => Step(s.(mounted := false), false)
  }

  /** The state after a sequence of events, and how many toasts they raised. */
  datatype Trace = Trace(state: State, toasts: nat)

  /**
   * The state after a sequence of events and the toasts raised: at most one per event, mounted
   * exactly when no unmount came, and loading never resumes once both parts are ready.
   */
  function Run(s: State, events: seq<Event>): (r: Trace)
    ensures r.toasts <= |events|
    ensures r.state.mounted <==> s.mounted && Unmount !in events
    ensures !IsLoading(s) ==> !IsLoading(r.state)
    decreases |events|
  {
    if |events| == 0 then Trace(s, 0)
    else
      assert Unmount in events <==> events[0] == Unmount || Unmount in events[1..];
      var first := Apply(s, events[0]);
      var rest := Run(first.state, events[1..]);
      Trace(rest.state, rest.toasts + if first.toast then 1 else 0)
  }

  /** Once unmounted, no load result and no push changes anything or raises a toast. */
  lemma {:induction false} UnmountedIsFrozen(s: State, events: seq<Event>)
    requires !s.mounted
    ensures Run(s, events) == Trace(s, 0)
    decreases |events|
  {
    if |events| > 0 {
      UnmountedIsFrozen(s, events[1..]);
    }
  }

  /** Every event is a load whose content part failed with message `m`. */
  ghost predicate RepeatedFailure(events: seq<Event>, m: string) {
    forall i :: 0 <= i < |events| ==>
      events[i].Loaded? && events[i].result.content.error.Some? &&
      MessageOf(events[i].result.content.error.value) == m
  }

  /**
   * Any number of loads failing with the same message raise at most one toast, and none at
   * all when that message is already remembered.
   */
  lemma {:induction false} RepeatedFailureToastsOnce(s: State, events: seq<Event>, m: string)
    requires RepeatedFailure(events, m)
    ensures Run(s, events).toasts <= 1
    ensures s.lastContentError == Some(m) ==> Run(s, events).toasts == 0
    decreases |events|
  {
    if |events| > 0 {
      var first := Apply(s, events[0]);
      assert RepeatedFailure(events[1..], m);
      if !s.mounted {
        UnmountedIsFrozen(s, events);
      } else {
        assert first.state.lastContentError == Some(m);
        RepeatedFailureToastsOnce(first.state, events[1..], m);
      }
    }
  }

  /** Two mounted loads failing with different messages raise two toasts. */
  lemma DifferentFailuresToastTwice(s: State, r1: LoadAllResult, r2: LoadAllResult)
    requires s.mounted && s.lastContentError.None?
    requires r1.content.error.Some? && r2.content.error.Some?
    requires MessageOf(r1.content.error.value) != MessageOf(r2.content.error.value)
    ensures Run(s, [Loaded(r1), Loaded(r2)]).toasts == 2
  {
    var events := [Loaded(r1), Loaded(r2)];
    var first := Apply(s, Loaded(r1));
    assert first.toast && first.state.mounted;
    assert events[1..] == [Loaded(r2)];
    var second := Apply(first.state, Loaded(r2));
    assert second.toast;
    assert [Loaded(r2)][1..] == [];
    assert Run(first.state, [Loaded(r2)]).toasts == 1;
  }

  /** After a mounted load resolves, the page is no longer loading. */
  lemma LoadedEndsLoading(env: Env, r: LoadAllResult)
    ensures !IsLoading(OnLoaded(Init(env), r).state)
    ensures OnLoaded(Init(env), r).state.settingsError == r.settings.error
  {
  }
}

=== FILE: use_cms_settings.dfy ===
/**
 * `useCmsSettings` as a state machine: the load promise resolving or rejecting (each followed
 * by its `finally`), a settings push, and unmounting.
 */
module CmsSettingsHook {
  import opened Base
  import opened Cms

  const SettingsFailureMessage: string := "Failed to load settings"

  datatype State = State(
    settings: Settings, isLoading: bool, error: Option<Error>, lastErrorMessage: Option<string>,
    mounted: bool)

  datatype Event =
    | Resolved(result: LoadSettingsResult)
    | Rejected(thrown: Thrown)
    | Pushed(settings: Settings)
    | Unmount

  function Init(env: Env): (s: State)
    ensures s.mounted && s.isLoading && s.error.None? && s.settings == DefaultSettings(env)
    ensures InSync(s)
  {
    State(DefaultSettings(env), true, None, None, true)
  }

  /** `loadError?.message ?? null`. */
  function MessageOrNull(e: Option<Error>): (m: Option<string>)
    ensures m.Some? <==> e.Some?
    ensures e.Some? ==> m.value == e.value.message
  {
    match e
    case None => None
    case Some(err) => Some(err.message)
  }

  function OnResolved(s: State, r: LoadSettingsResult): (t: State)
    ensures !s.mounted ==> t == s
    ensures s.mounted ==> t.settings == r.settings && t.error == r.error && !t.isLoading && t.mounted
    ensures s.mounted ==> (t.lastErrorMessage.Some? <==> r.error.Some?)
    ensures s.mounted && r.error.Some? ==> t.lastErrorMessage == Some(r.error.value.message)
  {
    if !s.mounted then s else State(r.settings, false, r.error, MessageOrNull(r.error), true)
  }

  /** An unexpected rejection records an error but keeps the current settings. */
  function OnRejected(s: State, thrown: Thrown): (t: State)
    ensures !s.mounted ==> t == s
    ensures t.settings == s.settings
    ensures s.mounted ==> t.error.Some? && !t.isLoading && t.lastErrorMessage == Some(t.error.value.message)
    ensures s.mounted && thrown.OtherValue? ==> t.error == Some(Error(SettingsFailureMessage))
    ensures s.mounted && thrown.ErrorValue? ==> t.error == Some(Error(thrown.message))
  {
    if !s.mounted then s
    else
      var e := AsError(thrown, SettingsFailureMessage);
      s.(error := Some(e), lastErrorMessage := Some(e.message), isLoading := false)
  }

  /** A push replaces the settings and clears both the error and its message; loading is untouched. */
  function OnPushed(s: State, v: Settings): (t: State)
    ensures !s.mounted ==> t == s
    ensures s.mounted ==> t.settings == v && t.error.None? && t.lastErrorMessage.None?
    ensures t.isLoading == s.isLoading && t.mounted == s.mounted
  {
    if !s.mounted then s else s.(settings := v, error := None, lastErrorMessage := None)
  }

  /** The exposed `lastErrorMessage` is the message of the exposed error, or null with no error. */
  predicate InSync(s: State) {
    s.lastErrorMessage == MessageOrNull(s.error)
  }

  /**
   * One event: a settled load ends loading, loading never starts again, the exposed message
   * stays the error's message, and only an unmount unmounts.
   */
  function Apply(s: State, e: Event): (t: State)
    ensures !s.mounted ==> t == s
    ensures !t.mounted <==> !s.mounted || e.Unmount?
    ensures s.mounted && (e.Resolved? || e.Rejected?) ==> !t.isLoading
    ensures !s.isLoading ==> !t.isLoading
    ensures InSync(s) ==> InSync(t)
  {
    match e
    case Resolved(r) => OnResolved(s, r)
    case Rejected(x) => OnRejected(s, x)
    case Pushed(v) => OnPushed(s, v)
    case Unmount => s.(mounted := false)
  }

  /**
   * The state after a sequence of events: mounted exactly when no unmount came, loading never
   * resumes once over, and the exposed message keeps matching the error.
   */
  function Run(s: State, events: seq<Event>): (t: State)
    ensures t.mounted <==> s.mounted && Unmount !in events
    ensures !s.isLoading ==> !t.isLoading
    ensures InSync(s) ==> InSync(t)
    decreases |events|
  {
    if |events| == 0 then s
    else
      assert Unmount in events <==> events[0] == Unmount || Unmount in events[1..];
      Run(Apply(s, events[0]), events[1..])
  }

  /** After unmount, no load outcome and no push changes the state. */
  lemma {:induction false} UnmountedIsFrozen(s: State, events: seq<Event>)
    requires !s.mounted
    ensures Run(s, events) == s
    decreases |events|
  {
    if |events| > 0 {
      UnmountedIsFrozen(s, events[1..]);
    }
  }

  /**
   * The fetch-throws scenario: a failed settings load leaves the default settings in place
   * and exposes a non-null error, and loading has ended.
   */
  lemma FailedLoadExposesError(env: Env, thrown: Thrown)
    ensures var t := OnResolved(Init(env), LoadSettings(env, Threw(thrown)));
            t.settings == DefaultSettings(env) && t.error.Some? && !t.isLoading
  {
  }
}
